=== FILE: README.md ===
# Instantiation graph of zamiacad, modelled in Dafny

This project models the core of the instantiation graph (`org.zamia.instgraph`) of the
zamiacad VHDL front end. The model has four parts:

- **Static values.** These are the compile-time values of `IGStaticValue`:
  - integers, reals, enumeration and character literals, arrays, ranges, records and files;
  - the accessors of each variant, and the exceptions or nulls of the base class;
  - constant folding of unary and binary operations (`computeUnary`, `computeBinary`);
  - the resolution of `std_logic` drivers (`resolveStdLogic`);
  - structural equality (`equalsValue`) and default values (`generateZ`);
  - the bit-string helpers (`convert`, `toLongNumber`, `getLong`, `adjustIdx`).
- **Modules.** `IGModule` is an elaborated design unit. It has a structure, actual generics and an
  "elaborated" flag. Its `accept` walks the structure tree depth first, following
  instantiations into the modules they name.
- **The manager.** `IGManager` keeps the module store and its indices (MODULE_IDX,
  SIGNATURES_IDX, INSTANTIATORS_IDX). `getOrCreateIGModule` creates modules, memoised by
  signature, and `runIGBuild` runs the build jobs on a LIFO stack. The model covers
  `buildIG`, `rebuildNodes` with `removeFromInstantiators`, and the lookups `findModule`
  and `findInstantiators`.
- **A timed wakeup.** The interpreter statement that schedules one.

Values are datatypes and the operations on them are functions. Where the source builds a
result with a loop, a method with that loop is proved equal to the function:
`computeUnary`, the array branch of `computeBinary`, `generateZ`, `resolveStdLogic`,
`convert`, `toLongNumber`, `accept` and `removeFromInstantiators`.

`IGModule` and `IGManager` are classes whose methods update their fields:

- The store is a map from database id to module record.
- Each index is a map.
- The todo set is a set of signatures, and the job stack is a sequence of jobs.

The persistent store (ZDB) is modelled as fields holding these maps. Source exceptions
and nulls become `Err` values of a `Result`, with `Err(NullValue)` marking a null
dereference.

Modules:

| file | module | models |
|---|---|---|
| Wrappers.dfy | Wrappers | Option and Result |
| StdLogic.dfy | StdLogic | the 9-valued gate rules, the per-driver resolution step, the IEEE Std 1164 resolution table |
| StaticValues.dfy | StaticValues | types, values, accessors, `equalsValue`, `generateZ` |
| StaticValueOps.dfy | StaticValueOps | `computeUnary`, `computeBinary` |
| OperationLaws.dfy | OperationLaws | what the two operations promise, as lemmas |
| Resolution.dfy | Resolution | `resolveStdLogic` |
| BitStrings.dfy | BitStrings | `getLong`, `convert`, `toLongNumber`, `adjustIdx` |
| IGModules.dfy | IGModules | structures, module records, class `IGModule`, `accept` |
| IGManager.dfy | Manager | class `IGManager` |
| TimedWakeup.dfy | TimedWakeup | `IGScheduleTimedWakeupStmt.execute` on a runtime environment |

## Model

| member | source | states |
|---|---|---|
| StdLogic.AndLeftFirst | src/org/zamia/instgraph/IGStaticValue.java:1052-1060 | AND: a '0' on the left gives '0'. A '1' on the left passes the right operand through. Any other left operand is returned unchanged. |
| StdLogic.OrIsDualOfAnd | src/org/zamia/instgraph/IGStaticValue.java:1092-1106 | OR is AND with '0' and '1' swapped on the inputs and the output (De Morgan), for every character. |
| StdLogic.InvertedGates | src/org/zamia/instgraph/IGStaticValue.java:1052-1148 | NAND, NOR and XNOR are AND, OR and XOR followed by swapping '0' and '1'. |
| StdLogic.GatesNotCommutative | src/org/zamia/instgraph/IGStaticValue.java:1052-1106 | The gates look at the left operand first, so AND('Z','0') = 'Z' but AND('0','Z') = '0', and likewise for OR. |
| StdLogic.GatesOnBits | src/org/zamia/instgraph/IGStaticValue.java:1052-1148 | On '0' and '1' operands, each of the six gates is its boolean operator. |
| StdLogic.XorUnknown | src/org/zamia/instgraph/IGStaticValue.java:1107-1148 | XOR and XNOR give 'X' exactly when an operand is not '0' or '1'. They never give 'U'. |
| StdLogic.ResolveStepIsIeeeTable | src/org/zamia/instgraph/IGStaticValue.java:1189-1247 | The per-driver step of resolveStdLogic equals the IEEE 1164 resolution table cell for cell, on the whole alphabet. |
| StdLogic.ResolveStepDomain | src/org/zamia/instgraph/IGStaticValue.java:1189-1247 | A 'U' on either side gives 'U'. The step fails exactly when the current character is outside the alphabet and no 'U' is involved. |
| StdLogic.ResolveStepCommutes | src/org/zamia/instgraph/IGStaticValue.java:1189-1247 | On the alphabet the step is commutative, always succeeds and stays in the alphabet. |
| StdLogic.ResolveStepLaws | src/org/zamia/instgraph/IGStaticValue.java:1189-1247 | 'Z' is neutral ('-' turns into 'X'). '0' with '1' gives 'X'. 'L' with 'H' gives 'W'. 'X' and '-' absorb everything except 'U'. |
| StaticValues.Wrap32 | src/org/zamia/instgraph/IGStaticValue.java:994-995 | The `(int)` cast: the result is a 32-bit signed number that differs from the input by a multiple of 2^32, and an input already in range is unchanged. |
| StaticValues.Wrap64 | src/org/zamia/instgraph/IGStaticValue.java:72-74 | `longValue`: the result is a 64-bit signed number that differs from the input by a multiple of 2^64, and an input already in range is unchanged. |
| StaticValues.MkArray | src/org/zamia/instgraph/IGStaticValue.java:128-152 | An array of an unconstrained type has offset 0 and no element list. Otherwise its offset is the index type's low bound and it holds the builder's elements. |
| StaticValues.GetOrd | src/org/zamia/instgraph/IGStaticValue.java:72-74 | getOrd succeeds exactly on enumeration literals, where it is their ordinal, and on INT values, where it is the number modulo 2^64. The base class throws (line 430). |
| StaticValues.NumArrayEntries | src/org/zamia/instgraph/IGStaticValue.java:154 | The number of elements of an array that has an element list. Otherwise the answer is an error: the base class at line 1392 throws, and a missing list is a null dereference. |
| StaticValues.GetValue | src/org/zamia/instgraph/IGStaticValue.java:157-167 | Non-arrays throw (line 462). An array without an element list gives null. Outside [offset, offset+size-1] it throws. Otherwise the answer is element idx-offset. Each of the three error cases is stated as an if and only if. |
| StaticValues.FieldIndex | src/org/zamia/instgraph/IGStaticValue.java:367-377 | Returns the last position holding the field name, so a later `put` wins, or None when the name is absent. |
| StaticValues.EnumLiteral | src/org/zamia/instgraph/IGStaticValue.java:996-1000 | getEnumLiteral(ord) succeeds exactly for 0 <= ord < number of literals. It gives the literal of the type at that position. |
| StaticValues.FindEnumLiteral | src/org/zamia/instgraph/IGStaticValue.java:1159-1162 | findEnumLiteral(c) finds a literal exactly when the type has character literal c, and the one found is that literal. |
| StaticValues.StaticLow | src/org/zamia/instgraph/IGStaticValue.java:1163 | The first literal of a non-empty enumeration type. |
| StaticValues.RangeMin | src/org/zamia/instgraph/IGStaticValue.java:277-279 | The left bound when the range is ascending, the right bound otherwise. Non-ranges are refused. |
| StaticValues.RangeMax | src/org/zamia/instgraph/IGStaticValue.java:280-282 | The right bound when the range is ascending, the left bound otherwise. Non-ranges are refused. |
| StaticValues.RangeMinMaxAreBounds | src/org/zamia/instgraph/IGStaticValue.java:277-282 | Min and max are the two bounds, one each, in either direction. |
| StaticValues.EqualsValue | src/org/zamia/instgraph/IGStaticValue.java:1397-1474 | Values of different categories are unequal. The typeless boolean duplicate is a null dereference. |
| StaticValues.EqualsValueArrayShape | src/org/zamia/instgraph/IGStaticValue.java:1421-1430 | Arrays with different offsets or sizes are unequal, whatever their elements. |
| StaticValues.EqualsValueIntWraps | src/org/zamia/instgraph/IGStaticValue.java:1408-1418 | Two INTEGER or PHYSICAL values are equal exactly when their getOrd values are, that is exactly when the numbers differ by a multiple of 2^64. |
| StaticValues.Wrap64Congruent | src/org/zamia/instgraph/IGStaticValue.java:72-74 | Two numbers have the same longValue exactly when they differ by a multiple of 2^64. |
| StaticValues.EqualsValueReflexive | src/org/zamia/instgraph/IGStaticValue.java:1397-1474 | Every well-typed value of a type without REAL, range, file or access parts equals itself. |
| StaticValues.EqualsValueArrayElementwise | src/org/zamia/instgraph/IGStaticValue.java:1432-1439 | The element loop over same-shape arrays, provided each pair of elements compares without error, succeeds and is true exactly when every pair at the same position is equal. |
| StaticValues.EqualsValueArrays | src/org/zamia/instgraph/IGStaticValue.java:1420-1440 | equalsValue on two backed arrays with the same offset and size is the element loop. When every pair compares without error, it is true exactly when every pair is equal. |
| StaticValues.EqualsValueStopsAtMismatch | src/org/zamia/instgraph/IGStaticValue.java:1432-1439 | The comparison stops at the first unequal pair: after equal pairs, one unequal pair makes the arrays unequal, whatever follows. |
| StaticValues.DefaultValueHasType | src/org/zamia/instgraph/IGStaticValue.java:504-588 | Every default value generateZ produces has the type it was generated for. |
| StaticValues.DefaultFieldsHaveTypes | src/org/zamia/instgraph/IGStaticValue.java:563-577 | A record's defaults come one per field, in declaration order, each with the field's type. |
| StaticValues.DefaultValueEnum | src/org/zamia/instgraph/IGStaticValue.java:506-511 | The weakest STD_LOGIC default is its 'Z' literal. Any other enumeration default is the first literal. |
| StaticValues.GenerateZ | src/org/zamia/instgraph/IGStaticValue.java:500-588 | The value generateZ builds is the reference default value, and it has the requested type. |
| StaticValues.GenerateArrayZ | src/org/zamia/instgraph/IGStaticValue.java:527-545 | The builder loop fills every position of a constrained array with the element default. |
| StaticValues.GenerateRecordZ | src/org/zamia/instgraph/IGStaticValue.java:563-577 | The field loop gives the reference field defaults, and stops at the first field that fails. |
| StaticValueOps.ComputeUnary | src/org/zamia/instgraph/IGStaticValue.java:656-741 | computeUnary, including the builder loop of array NOT, equals the reference UnaryResult. |
| StaticValueOps.ComputeBinary | src/org/zamia/instgraph/IGStaticValue.java:743-1173 | computeBinary equals the reference BinaryResult. |
| StaticValueOps.ComputeArrayBinary | src/org/zamia/instgraph/IGStaticValue.java:875-930 | The array branch (gate builder loop, EQUAL/NEQUAL comparison loop, length check) equals the reference ArrayResult. |
| StaticValueOps.GateLoop | src/org/zamia/instgraph/IGStaticValue.java:890-903 | The gate loop over positions 0..n-1 equals the reference list of elementwise results, or fails with the first failure. |
| StaticValueOps.GateStep | src/org/zamia/instgraph/IGStaticValue.java:895-899 | One pass of the gate loop either extends the reference result by its element or is its failure. |
| StaticValueOps.EqualLoop | src/org/zamia/instgraph/IGStaticValue.java:909-914 | The array comparison loop equals the reference element comparison. |
| StaticValueOps.ElementPair | src/org/zamia/instgraph/IGStaticValue.java:895 | A successful read gives one element of each operand's element list. |
| OperationLaws.JavaDivTruncates | src/org/zamia/instgraph/IGStaticValue.java:773-775 | BigInteger.divide truncates toward zero: x = y*q + r with \|r\| < \|y\| and r carrying x's sign. |
| OperationLaws.IntegerOperands | src/org/zamia/instgraph/IGStaticValue.java:754-793 | Two INTEGER operands under an INTEGER result type give exactly the BigInteger arithmetic result or its exception. |
| OperationLaws.IntegerExact | src/org/zamia/instgraph/IGStaticValue.java:764-772 | ADD, SUB and MUL on INTEGER values are exact, with no wrap-around. |
| OperationLaws.IntegerDivision | src/org/zamia/instgraph/IGStaticValue.java:773-775 | DIV fails exactly on a zero divisor. Otherwise it truncates toward zero. |
| OperationLaws.IntegerModulus | src/org/zamia/instgraph/IGStaticValue.java:776-784 | MOD and REM fail exactly on a non-positive modulus. Otherwise the result is the residue in [0, y). |
| OperationLaws.IntegerExtrema | src/org/zamia/instgraph/IGStaticValue.java:785-790 | MAX gives the larger operand and MIN the smaller. |
| OperationLaws.IntegerPower | src/org/zamia/instgraph/IGStaticValue.java:779-781 | POWER raises to the exponent's int value (its low 32 bits, signed) and fails exactly when that value is negative, for every exponent: 2^32 gives x^0 and 2^31 fails. Inside the int range the int value is the exponent itself. |
| OperationLaws.RemIsMod | src/org/zamia/instgraph/IGStaticValue.java:782-784 | REM is computed exactly like MOD, for every pair of operands and every result type. |
| OperationLaws.OtherOperands | src/org/zamia/instgraph/IGStaticValue.java:932-990 | Under a non-numeric result type, operands that are neither arrays nor enumerations admit only comparisons. |
| OperationLaws.IntegerRefusesOtherOps | src/org/zamia/instgraph/IGStaticValue.java:791-792 | Any operator outside the integer switch is refused under an INTEGER result type. |
| OperationLaws.IntegerComparison | src/org/zamia/instgraph/IGStaticValue.java:932-960 | Comparing INTEGER values gives the result type's literal 1 when the relation holds and literal 0 otherwise. The relation is defined independently of compareTo. |
| OperationLaws.RealComparison | src/org/zamia/instgraph/IGStaticValue.java:962-990 | The same holds for REAL values. |
| OperationLaws.EnumComparison | src/org/zamia/instgraph/IGStaticValue.java:1001-1012 | Enumeration literals compare by position and give literal 1 or 0. |
| OperationLaws.EnumOrdinalAdd | src/org/zamia/instgraph/IGStaticValue.java:994-998 | ADD on enumeration literals selects the result-type literal at the sum of the positions. |
| OperationLaws.EnumOrdinalSub | src/org/zamia/instgraph/IGStaticValue.java:999-1000 | SUB selects the literal at the difference of the positions. |
| OperationLaws.BooleanGates | src/org/zamia/instgraph/IGStaticValue.java:1015-1043 | On BOOLEAN operands the gates are the boolean operators, giving the operand type's TRUE or FALSE. |
| OperationLaws.CharGateRange | src/org/zamia/instgraph/IGStaticValue.java:1050-1148 | Every character gate answers one of its operands, '0', '1' or 'X'. |
| OperationLaws.LogicGates | src/org/zamia/instgraph/IGStaticValue.java:1045-1163 | On std_logic literals the gates apply the 9-valued rules and return the operand type's literal for the resulting character. |
| OperationLaws.LogicGateFallback | src/org/zamia/instgraph/IGStaticValue.java:1159-1163 | When the resulting character is not a literal of the left operand's type, the answer is that type's getStaticLow: its first literal, or an error when it has none. |
| OperationLaws.LogicAndNotCommutative | src/org/zamia/instgraph/IGStaticValue.java:1052-1060 | On std_logic values, AND('Z','0') is 'Z' but AND('0','Z') is '0'. |
| OperationLaws.ArrayGateLengthMismatch | src/org/zamia/instgraph/IGStaticValue.java:881-889 | A gate on arrays whose index types have different cardinalities raises an error, whatever the elements. |
| OperationLaws.ArrayEqualityLengthMismatch | src/org/zamia/instgraph/IGStaticValue.java:905-919 | EQUAL on arrays of different lengths gives literal 0, and NEQUAL gives literal 1. |
| OperationLaws.ArrayGateElementwise | src/org/zamia/instgraph/IGStaticValue.java:881-903 | A gate on equal-length constrained arrays gives an array of the left type whose element k is the gate on the two elements k. |
| OperationLaws.ArrayEquality | src/org/zamia/instgraph/IGStaticValue.java:905-925 | Array EQUAL gives literal 1 exactly when every pair of elements is equal. NEQUAL gives the opposite literal. |
| OperationLaws.IntegerUnary | src/org/zamia/instgraph/IGStaticValue.java:685-703 | ABS and NEG on INTEGER are exact. NOT on INTEGER is refused. |
| OperationLaws.PhysicalUnaryDereferencesNull | src/org/zamia/instgraph/IGStaticValue.java:705-723 | ABS and NEG on a PHYSICAL value (an INT) read a null decimal. |
| OperationLaws.NotInvolution | src/org/zamia/instgraph/IGStaticValue.java:661-735 | NOT on a BOOLEAN or BIT literal gives the other literal (ordinal 1 - ord). On a constrained array of them it gives the array of the elements' NOTs, position by position. The type is kept, and applying NOT twice gives the value back. |
| Resolution.ResolveFrom | src/org/zamia/instgraph/IGStaticValue.java:1175-1256 | A resolved value is the last driver or a character literal. |
| Resolution.ResolveStdLogic | src/org/zamia/instgraph/IGStaticValue.java:1175-1256 | The driver loop equals the reference fold. No drivers give null, and one driver gives that driver. |
| Resolution.ResolveLogicDrivers | src/org/zamia/instgraph/IGStaticValue.java:1179-1254 | On std_logic drivers the fold never fails. It gives the type's literal for the IEEE 1164 fold of the drivers. |
| Resolution.ResolveIsIeeeResolution | src/org/zamia/instgraph/IGStaticValue.java:1175-1256 | resolveStdLogic over a non-empty list of std_logic drivers is the IEEE 1164 resolution of all of them. |
| Resolution.ResolveUninitializedDominates | src/org/zamia/instgraph/IGStaticValue.java:1189-1190 | A single 'U' driver anywhere makes the resolved signal 'U'. |
| Resolution.ResolveTwoDriversCommute | src/org/zamia/instgraph/IGStaticValue.java:1175-1256 | Two drivers resolve to the same value in either order. |
| Resolution.ResolveRestartsWithoutLiteral | src/org/zamia/instgraph/IGStaticValue.java:1179-1184 | When the type has no literal for the resolved character, the next driver starts a new fold. |
| Resolution.ResolveRefusesNonCharacters | src/org/zamia/instgraph/IGStaticValue.java:1185-1253 | Resolving a value that is not a character literal with any further driver is refused. |
| BitStrings.GetLong | src/org/zamia/instgraph/IGStaticValue.java:1262-1266 | 1 exactly for the character '1', and 0 for every other character. |
| BitStrings.ToLongNumber | src/org/zamia/instgraph/IGStaticValue.java:1476-1502 | The long accumulator ends as the string's binary value wrapped to 64 bits. It is exact for strings of up to 63 characters. |
| BitStrings.Convert | src/org/zamia/instgraph/IGStaticValue.java:1300-1316 | A negative width fails. A positive width gives the w low bits, most significant first. |
| BitStrings.BitStringValue | src/org/zamia/instgraph/IGStaticValue.java:1308-1313 | The string convert writes denotes n mod 2^w, which is the two's complement low bits, also for negative n. |
| BitStrings.ConvertRoundTrip | src/org/zamia/instgraph/IGStaticValue.java:1300-1316 | For 0 < w <= 63, reading back what convert wrote gives n mod 2^w, and gives n itself when 0 <= n < 2^w. |
| BitStrings.AdjustIdx | src/org/zamia/instgraph/IGStaticValue.java:1318-1320 | For an ascending range, the distance from the offset is mirrored. A descending index is kept. |
| BitStrings.AdjustIdxInvolution | src/org/zamia/instgraph/IGStaticValue.java:1318-1320 | Mirroring twice gives the index back. |
| BitStrings.AdjustIdxInRange | src/org/zamia/instgraph/IGStaticValue.java:1318-1320 | Mirroring keeps an index inside [offset, offset+num). |
| IGModules.IGModule.constructor | src/org/zamia/instgraph/IGModule.java:40-44 | A new module has an empty structure, no generics and is not elaborated. |
| IGModules.IGModule.Record | src/org/zamia/instgraph/IGModule.java:40-56 | The stored record carries the module's unit, structure, generics and flag. |
| IGModules.IGModule.IsStatementsElaborated | src/org/zamia/instgraph/IGModule.java:50-52 | The flag. |
| IGModules.IGModule.SetStatementsElaborated | src/org/zamia/instgraph/IGModule.java:54-56 | Sets the flag. The structure and the generics stay as they were. |
| IGModules.IGModule.NumActualGenerics | src/org/zamia/instgraph/IGModule.java:155-157 | The number of generics. |
| IGModules.IGModule.AddActualGeneric | src/org/zamia/instgraph/IGModule.java:159-161 | Appends one generic: the count grows by one, earlier positions keep their values and the new one is at the end. |
| IGModules.IGModule.GetActualGeneric | src/org/zamia/instgraph/IGModule.java:163-165 | Succeeds exactly for 0 <= idx < count, giving the generic at that position. |
| IGModules.IGModule.GetChild | src/org/zamia/instgraph/IGModule.java:141-143 | The structure, whatever the index. |
| IGModules.IGModule.NumChildren | src/org/zamia/instgraph/IGModule.java:146-148 | Always 1. |
| IGModules.IGModule.Accept | src/org/zamia/instgraph/IGModule.java:86-133 | The visits made, and the error that ends the walk early, are those of the recursive reference traversal. No visit is deeper than maxDepth. The first visit is the module's own structure. An error names a signature that findModule misses or whose module is not elaborated. |
| IGModules.Children | src/org/zamia/instgraph/IGModule.java:107-131 | A child job is either a nested structure under the same path or one level deeper. A failure names a bad signature. |
| IGModules.Trav | src/org/zamia/instgraph/IGModule.java:86-133 | The reference walk. Visits stay within the depth bound and below the start path. A visit within the bound starts with the job itself, and a job beyond the bound visits nothing. |
| IGModules.ExpandJob | src/org/zamia/instgraph/IGModule.java:107-131 | The push loop over one structure's statements equals the reference children. |
| IGModules.Instances | src/org/zamia/instgraph/IGModule.java:107-124 | Every statement it lists is an instantiation. |
| Manager.AddTo | src/org/zamia/instgraph/IGManager.java:521-535 | Adds a member to the set stored under a key, creating the set when there is none. No other key changes. |
| Manager.RemovedFrom | src/org/zamia/instgraph/IGManager.java:842-848 | Removes a member from the sets under the given keys that are present. The key set and the other sets are unchanged. |
| Manager.IGManager.constructor | src/org/zamia/instgraph/IGManager.java:116-126 | An empty store with empty indices, no jobs and no errors. The store is consistent. |
| Manager.IGManager.Fetch | src/org/zamia/instgraph/IGManager.java:470-514 | A stored signature gives the stored module. getOrCreateIGModule returns null exactly when the signature is not stored and the unit is not an architecture. |
| Manager.IGManager.FindModule | src/org/zamia/instgraph/IGManager.java:580-590 | Finds a module exactly when MODULE_IDX has the signature. The module found is the record stored under its id. |
| Manager.IGManager.Modules | src/org/zamia/instgraph/IGManager.java:580-590 | Maps every signature findModule finds, and no other, to what findModule returns for it. |
| Manager.IGManager.FindInstantiators | src/org/zamia/instgraph/IGManager.java:646-654 | INSTANTIATORS_IDX's set for the unit, and null exactly when there is no entry. |
| Manager.IGManager.InitIGBuild | src/org/zamia/instgraph/IGManager.java:353-366 | The todo set and the job stack are empty. Afterwards every stored module is elaborated or queued exactly when every stored module is elaborated. |
| Manager.IGManager.LoadOrCreate | src/org/zamia/instgraph/IGManager.java:470-514 | A stored signature is loaded and nothing changes. An architecture whose entity elaborates gets a new module stored under the next id. A failing entity gives an unstored module and a report. Otherwise the answer is null with a report. |
| Manager.IGManager.Schedule | src/org/zamia/instgraph/IGManager.java:517-549 | A requested elaboration of an unelaborated module adds the signature to its unit's SIGNATURES_IDX set. It pushes one job, unless the signature is already in the todo set. |
| Manager.IGManager.RegisterInstantiator | src/org/zamia/instgraph/IGManager.java:551-571 | Adds the parent unit to the instantiator set of the unit, once. |
| Manager.IGManager.GetOrCreateIGModule | src/org/zamia/instgraph/IGManager.java:451-578 | Memoised by signature: a stored module is returned and nothing is created. Otherwise the module is created as Fetch says. Each signature is queued at most once. The instantiator is registered whatever became of the module. The store stays consistent, and the set of elaborated signatures is unchanged. |
| Manager.IGManager.StoreOrUpdate | src/org/zamia/instgraph/IGManager.java:319 | A record never stored gets the next id. A stored record is overwritten under its own id. |
| Manager.IGManager.ElaborateStatements | src/org/zamia/instgraph/IGManager.java:295-300 | The requests made while elaborating statements only push jobs for the signatures the statements instantiate. The elaborated signatures stay the same, and earlier reports are kept. |
| Manager.IGManager.Request | src/org/zamia/instgraph/IGManager.java:300 | One instantiation's request pushes at most a job for its own signature and keeps earlier reports. |
| Manager.IGManager.RunJob | src/org/zamia/instgraph/IGManager.java:281-332 | BuildNodeJob.run ends with the job's module elaborated when it is stored. Only that signature joins the elaborated ones. Only the unit's own instantiations are pushed, and the job count grows by one. Earlier reports are kept. A job for an unstored non-architecture unit reports "not found". An architecture whose statements fail ends with that failure reported. A job whose module was already elaborated reports nothing. |
| Manager.IGManager.BeginJob | src/org/zamia/instgraph/IGManager.java:287-289 | Getting the module without elaboration changes neither the elaborated signatures nor the jobs. The module is null exactly for an unstored non-architecture unit, is elaborated exactly when its signature was, and the reports are exactly getOrCreateIGModule's. |
| Manager.IGManager.FinishJob | src/org/zamia/instgraph/IGManager.java:291-327 | The module ends elaborated, even after an error. The signature leaves the todo set. The diagnostics are those of ElaborateModule: "not found" for a non-architecture, the statements' failure, or nothing for an elaborated or absent module. |
| Manager.IGManager.FinishModule | src/org/zamia/instgraph/IGManager.java:291-325 | Elaborates and stores a module that is at hand, with ElaborateModule's diagnostics. Nothing happens without a module. |
| Manager.IGManager.ElaborateModule | src/org/zamia/instgraph/IGManager.java:293-305 | An architecture's unelaborated module gets its structure. An elaborated one is kept as it is and nothing is reported. An unelaborated module of a unit that is no architecture is reported as not found. When the statements fail, the last report is that failure. Earlier reports are never removed. |
| Manager.IGManager.MarkElaborated | src/org/zamia/instgraph/IGManager.java:317-319 | The stored module is now elaborated. Only that signature joins the elaborated ones. |
| Manager.IGManager.Release | src/org/zamia/instgraph/IGManager.java:327 | The job's signature leaves the todo set. |
| Manager.IGManager.RunIGBuild | src/org/zamia/instgraph/IGManager.java:368-402 | When not canceled, the job stack and the todo set end empty and every job queued at the start ends elaborated. When every stored module was elaborated or queued at the start, every stored module ends elaborated. When canceled, no job runs. Nothing is ever un-elaborated or unstored, and no report is removed. |
| Manager.IGManager.RunNext | src/org/zamia/instgraph/IGManager.java:398-399 | Pops the most recently pushed job and runs it. Its signature goes from unelaborated to elaborated, the new jobs are only instantiated signatures, and no report is removed. |
| Manager.IGManager.BuildIG | src/org/zamia/instgraph/IGManager.java:404-448 | An unresolvable toplevel is reported and gives null; the store, the indices, the todo set and stack, the counter and the next id are unchanged. Otherwise the result is the toplevel's module, and an uncanceled run leaves it elaborated with no jobs left. |
| Manager.IGManager.BuildToplevel | src/org/zamia/instgraph/IGManager.java:419-427 | A fresh run for one toplevel. An uncanceled run leaves the toplevel module elaborated and keeps a fully elaborated store fully elaborated. |
| Manager.IGManager.RequestToplevel | src/org/zamia/instgraph/IGManager.java:786-798 | The toplevel module ends elaborated or queued. An architecture whose entity elaborates ends stored. One whose entity fails is reported, stays unstored, and its module (database id 0) is queued all the same. |
| Manager.IGManager.RebuildNodes | src/org/zamia/instgraph/IGManager.java:663-824 | The answer counts the deleted and the invalidated signatures. An uncanceled rebuild ends with no jobs left and every found architecture toplevel stored and elaborated, since a deleted toplevel is built again. It keeps a fully elaborated store fully elaborated. |
| Manager.IGManager.Invalidate | src/org/zamia/instgraph/IGManager.java:671-753 | Exactly the signatures of the changed units' architectures leave MODULE_IDX and the elaborated set. The count is as stated. |
| Manager.IGManager.Rebuild | src/org/zamia/instgraph/IGManager.java:755-819 | A fresh todo set and stack, every toplevel requested, and the jobs run. Uncanceled, every found toplevel is stored and elaborated, and a fully elaborated store stays so. |
| Manager.IGManager.CollectAffected | src/org/zamia/instgraph/IGManager.java:671-729 | The sets to delete and to invalidate are those read from SIGNATURES_IDX for the changed units' architectures and for their instantiators. |
| Manager.IGManager.DeleteModules | src/org/zamia/instgraph/IGManager.java:731-753 | Exactly the given signatures leave MODULE_IDX and their records leave the store. INSTANTIATORS_IDX loses the deleted units' entries and their membership in the sets of what they instantiate. |
| Manager.IGManager.DeleteModule | src/org/zamia/instgraph/IGManager.java:734-752 | One signature: a missing one changes nothing. A present one loses its index entry, its record and its unit's links. |
| Manager.IGManager.RemoveFromInstantiators | src/org/zamia/instgraph/IGManager.java:827-858 | The unit leaves the instantiator set of every unit instantiated anywhere in the structure tree, when that set exists. Nothing else changes. |
| Manager.IGManager.RequestToplevels | src/org/zamia/instgraph/IGManager.java:776-812 | Uncanceled, every toplevel found whose unit is an architecture with an elaborating entity ends stored, and elaborated or queued. No module's elaboration changes. A store whose modules were all elaborated or queued stays so. Toplevels whose entity fails are accepted. |
| TimedWakeup.Execute | src/org/zamia/instgraph/interpreter/IGScheduleTimedWakeupStmt.java:35-52 | The statement succeeds exactly when the top of the stack is an integer. On success the top is replaced by now + duration, that time is appended to the wakeups, and the clock is unchanged. An empty stack changes nothing. A non-integer is popped with nothing scheduled. |
| TimedWakeup.ExecutePushesWakeupTime | src/org/zamia/instgraph/interpreter/IGScheduleTimedWakeupStmt.java:40-50 | The number pushed is the wakeup registered. A non-negative duration never schedules into the past. |
| TimedWakeup.RuntimeEnv.ScheduleTimedWakeup | src/org/zamia/instgraph/interpreter/IGScheduleTimedWakeupStmt.java:35-52 | The runtime's new state and the returned status are what Execute gives for the old state. |

## Left out

- Multithreading: the thread pool, the job count that decides between threaded and single-threaded runs, and the synchronisation. Only the single-threaded path of `runIGBuild` is modelled.
- The search indices behind `ENABLE_NEW_INDICES` and `index()`, and `countNodes`. The model has no use for them.
- `updateInstantiations` in the invalidate loop of `rebuildNodes`. The invalidated signatures are only counted, because that method is not part of this model.
- `findPackage` and `findItem`, which are lookups outside the elaboration core.
- `toHRString`, and the hex, decimal, octal and binary renderings. `toLongNumber` takes the rendered string as its input.
- StaticValueOps.RealResult: every operator whose result type is PHYSICAL gives `Err(Unmodelled)`, ADD, SUB, MUL, MAX and MIN included. The source computes the decimal and then builds an INT-class value whose number is null, which has no counterpart among the modelled values.
- StaticValueOps.RealResult: DIV and POWER with a REAL result give `Err(Unmodelled)`. Reals are exact rationals, not BigDecimal with a scale and a rounding mode.
- StaticValueOps.IntegerResult: the decimal route of an INTEGER result with a non-INTEGER operand gives `Err(Unmodelled)`.
- BitStrings.Convert: width 0 (minimal width from a floating-point logarithm) gives `Err(Unmodelled)`.
- StaticValues.GenerateZ: an ACCESS type gives `Err(Unmodelled)`. The null value it would build has no counterpart among the modelled values.
- StaticValues.DefaultValueEnum: only states the STD_LOGIC case when the type has a 'Z' literal. Without one, the source returns null from generateZ. The model gives `Err(NoSuchLiteral)` instead, which also ends an enclosing array or record default.
- StdLogic.InvertedGates: the gates are the source's left-operand-first rules, which differ from the IEEE 1164 gate tables. The model does not relate them to IEEE.
- OperationLaws.RemIsMod: REM is computed with `mod`, as the source does, not with `rem`.
- StaticValues.EqualsValue: INT values compare through getOrd, modulo 2^64, as the source does.
- StaticValues.EqualsValue: array offsets, sizes and the positions `i + offset` are unbounded integers. The source holds the offset in an `int` set by a cast at construction, and its index arithmetic wraps at 2^32.
- StaticValues.MkArray: the offset (the index type's low bound) and the cardinality are unbounded integers. The source casts both to `int`, which wraps for index ranges beyond 32 bits.
- StaticValueOps.ArrayResult: the cardinalities and low bounds of the operands' index types are unbounded integers, not the source's `int` casts, and the loop index `i + off` does not wrap.
- StaticValueOps.ComputeUnary: the cardinality and low bound of an array operand's index type are unbounded integers, not the source's `int` casts.
- BitStrings.AdjustIdx: computed on unbounded integers. The source computes it in `int`, which wraps when the index, offset or count is near 2^31.
- OperationLaws.PhysicalUnaryDereferencesNull: ABS and NEG on PHYSICAL read a null decimal, as the source does.
- Resolution.ResolveFrom: after a missing literal the fold restarts with the next driver, as the source's null check does.
- Source locations, toplevel paths and error messages are left out. A report records only its kind and unit.
- `computeEntityIG` and `computeStatementsIG` are not part of this model. A design unit says whether its entity elaborates, which structure its statements give, and whether that elaboration finishes without an exception.
- The progress monitor is a fixed `canceled` answer passed to a run.
- `computeSignature` and `getArchDUUID` are not part of this model. Signatures, architectures and toplevels are parameters.
- The order of HashSetArray contents is not kept: indices hold sets.
- Module records returned by the manager are snapshots. The aliasing of IGModule objects between the cache and callers is not modelled.
- Manager.IGManager.RunIGBuild: requires that every architecture's entity elaborates. A failing entity leaves its module unstored, so a requeued job could run forever, and the model needs this for termination. What a build does with such an entity is not stated.
- Manager.IGManager.RunNext: requires that every architecture's entity elaborates, as RunIGBuild does. The job's module is then stored, which its "ends elaborated" clause needs.
- Manager.IGManager.BuildIG: requires that every architecture's entity elaborates, because it runs RunIGBuild. A build over a failing entity is not modelled.
- Manager.IGManager.BuildToplevel: requires that every architecture's entity elaborates, because it runs RunIGBuild. A build over a failing entity is not modelled.
- Manager.IGManager.RebuildNodes: requires that every architecture's entity elaborates, because it runs RunIGBuild. A rebuild over a failing entity is not modelled.
- Manager.IGManager.Rebuild: requires that every architecture's entity elaborates, because it runs RunIGBuild. A rebuild over a failing entity is not modelled.
- Manager.IGManager.RunIGBuild: a unit's statements give one structure, the same for every signature of the unit. In the source, computeStatementsIG elaborates each signature with its own actual generics, so two signatures of one unit can instantiate different children, and recursive generics can produce new signatures without bound. The set of signatures a build can reach is therefore finite in the model but not in general, and RunIGBuild's termination and its "stack ends empty" clause are properties of the model, not of the source.
- Manager.IGManager.RequestToplevels: the report for a toplevel that is not found is made but not stated in the contract.
- Manager.IGManager.RunIGBuild: when canceled, the contract only states that the job stack is unchanged.
- IGInterpreterRuntimeEnv is not part of this model:
  - popping an empty stack is a `StackUnderflow` fault;
  - wakeups are an appended list;
  - the pushed INT keeps the popped value's type;
  - stack entries other than values are left out.
- Manager.IGManager.FinishModule: a null module at line 291 would throw inside the job's catch-all. The model treats it as doing nothing.
- Logging, including the progress message `updateStats` prints. Its counter `fNumDone` is modelled as `numDone`.

=== FILE: BitStrings.dfy ===
/**
 * The bit-string helpers of IGStaticValue: getLong of a bit character, convert of a number
 * to a '0'/'1' string of a given width (BigInteger.testBit, most significant bit first),
 * toLongNumber of a rendered bit string (a long accumulator that wraps at 64 bits), and
 * adjustIdx, which mirrors a position inside an ascending index range.
 */
module BitStrings {
  import opened Wrappers
  import opened StaticValues

  const BIT_0: char := '0'
  const BIT_1: char := '1'

  function Pow2(n: nat): (r: nat)
    ensures r >= 1
  {
    if n == 0 then 1 else 2 * Pow2(n - 1)
  }

  /** getLong(char): 1 for the character '1', 0 for every other character. */
  function GetLong(c: char): (r: nat)
    ensures r <= 1
    ensures r == 1 <==> c == BIT_1
  {
    if c == BIT_1 then 1 else 0
  }

  /**
   * The number a most-significant-first string denotes: position i carries the weight
   * 2^(|s| - 1 - i), and only the character '1' contributes it.
   */
  function BitsValue(s: seq<char>): nat {
    if |s| == 0 then 0 else GetLong(s[0]) * Pow2(|s| - 1) + BitsValue(s[1..])
  }

  // ---------------------------------------------------------------
  // Arithmetic facts
  // ---------------------------------------------------------------

  /** Euclidean division is unique: the quotient and the remainder are determined. */
  lemma DivModUnique(y: int, m: int, q: int, r: int)
    requires m > 0 && y == m * q + r && 0 <= r < m
    ensures y % m == r && y / m == q
  {
    var d := q - y / m;
    assert m * d == y % m - r;
    if d > 0 {
      MulAtLeast(m, d);
    } else if d < 0 {
      MulAtLeast(m, -d);
    }
  }

  lemma MulAtLeast(m: int, d: int)
    requires m > 0 && d >= 1
    ensures m * d >= m
  {
  }

  /** Numbers that differ by a multiple of 2^64 wrap to the same long. */
  lemma Wrap64Shift(x: int, y: int, k: int)
    requires x == y + k * TWO_64
    ensures Wrap64(x) == Wrap64(y)
  {
    var h := TWO_64 / 2;
    var q := (y + h) / TWO_64;
    var r := (y + h) % TWO_64;
    assert x + h == TWO_64 * (q + k) + r;
    DivModUnique(x + h, TWO_64, q + k, r);
  }

  /** Doubling and adding a bit commute with wrapping: the long accumulator tracks the exact value mod 2^64. */
  lemma Wrap64Step(x: int, b: int)
    ensures Wrap64(Wrap64(Wrap64(x) * 2) + b) == Wrap64(x * 2 + b)
  {
    var w := Wrap64(x);
    var k1 := (w - x) / TWO_64;
    assert w - x == TWO_64 * k1;
    var w2 := Wrap64(w * 2);
    var k2 := (w2 - w * 2) / TWO_64;
    assert w2 - w * 2 == TWO_64 * k2;
    Wrap64Shift(w2 + b, x * 2 + b, k2 + 2 * k1);
  }

  // ---------------------------------------------------------------
  // toLongNumber
  // ---------------------------------------------------------------

  /** Appending a character doubles the value and adds the character's bit. */
  lemma {:induction false} BitsValueAppend(s: seq<char>, c: char)
    ensures BitsValue(s + [c]) == 2 * BitsValue(s) + GetLong(c)
  {
    if |s| == 0 {
      assert [] + [c] == [c];
      assert [c][1..] == [];
    } else {
      assert (s + [c])[1..] == s[1..] + [c];
      BitsValueAppend(s[1..], c);
      assert (s + [c])[0] == s[0];
    }
  }

  /** A string of n characters denotes a number below 2^n. */
  lemma {:induction false} BitsValueBound(s: seq<char>)
    ensures BitsValue(s) < Pow2(|s|)
  {
    if |s| > 0 {
      BitsValueBound(s[1..]);
    }
  }

  /** One character of toLongNumber keeps the accumulator equal to the wrapped value of the prefix read so far. */
  lemma LongStep(prefix: seq<char>, c: char, v: int)
    requires v == Wrap64(BitsValue(prefix))
    ensures (if c == BIT_1 then Wrap64(Wrap64(v * 2) + 1) else Wrap64(v * 2)) == Wrap64(BitsValue(prefix + [c]))
  {
    Wrap64Step(BitsValue(prefix), GetLong(c));
    assert Wrap64(v * 2) == Wrap64(Wrap64(v * 2) + 0);
    BitsValueAppend(prefix, c);
  }

  /**
   * toLongNumber on the rendered string `s`: '1' doubles the accumulator and adds one,
   * every other character only doubles it, in Java long arithmetic. The result is the
   * string's value wrapped to a signed long, so exact for strings of at most 63 characters.
   */
  method ToLongNumber(s: seq<char>) returns (v: int)
    ensures v == Wrap64(BitsValue(s))
    ensures |s| <= 63 ==> v == BitsValue(s)
  {
    v := 0;
    var i := 0;
    while i < |s|
      invariant 0 <= i <= |s|
      invariant v == Wrap64(BitsValue(s[..i]))
    {
      var c := s[i];
      LongStep(s[..i], c, v);
      if c == BIT_0 {
        v := Wrap64(v * 2);
      } else if c == BIT_1 {
        v := Wrap64(Wrap64(v * 2) + 1);
      } else {
        v := Wrap64(v * 2);
      }
      assert s[..i + 1] == s[..i] + [c];
      i := i + 1;
    }
    assert s[..i] == s;
    if |s| <= 63 {
      BitsValueBound(s);
      Pow2Monotone(|s|, 63);
      Pow2SixtyThree();
    }
  }

  lemma {:induction false} Pow2Add(a: nat, b: nat)
    ensures Pow2(a + b) == Pow2(a) * Pow2(b)
    decreases a
  {
    if a > 0 {
      Pow2Add(a - 1, b);
    }
  }

  /** 2^63 is the bound of a signed long. */
  lemma Pow2SixtyThree()
    ensures Pow2(63) == TWO_64 / 2
  {
    assert Pow2(2) == 4;
    Pow2Add(2, 2);
    assert Pow2(4) == 0x10;
    Pow2Add(4, 4);
    assert Pow2(8) == 0x100;
    Pow2Add(8, 8);
    assert Pow2(16) == 0x1_0000;
    Pow2Add(16, 16);
    assert Pow2(32) == 0x1_0000_0000;
    Pow2Add(32, 16);
    assert Pow2(48) == 0x1_0000_0000_0000;
    Pow2Add(48, 8);
    assert Pow2(56) == 0x100_0000_0000_0000;
    Pow2Add(56, 4);
    assert Pow2(60) == 0x1000_0000_0000_0000;
    Pow2Add(60, 2);
    assert Pow2(62) == 0x4000_0000_0000_0000;
    Pow2Add(62, 1);
  }

  lemma {:induction false} Pow2Monotone(m: nat, n: nat)
    requires m <= n
    ensures Pow2(m) <= Pow2(n)
    decreases n
  {
    if m < n {
      Pow2Monotone(m, n - 1);
    }
  }

  // ---------------------------------------------------------------
  // convert
  // ---------------------------------------------------------------

  /** BigInteger.testBit: bit i of the two's complement representation of n. */
  predicate TestBit(n: int, i: nat) {
    (n / Pow2(i)) % 2 == 1
  }

  /** The w-character string of bits w-1 down to 0 of n. */
  function BitString(n: int, w: nat): (r: seq<char>)
    ensures |r| == w
  {
    if w == 0 then [] else [if TestBit(n, w - 1) then BIT_1 else BIT_0] + BitString(n, w - 1)
  }

  /**
   * convert(aNum, aWidth): the aWidth low bits of aNum, most significant first. A negative
   * width is the StringBuffer's negative capacity; width 0 asks for the minimal width,
   * computed with a floating-point logarithm, which is not modelled.
   */
  method Convert(n: int, width: int) returns (r: Result<seq<char>, Error>)
    ensures width < 0 ==> r == Err(NegativeSize)
    ensures width == 0 ==> r == Err(Unmodelled)
    ensures width > 0 ==> r == Ok(BitString(n, width))
  {
    if width < 0 {
      return Err(NegativeSize);
    }
    if width == 0 {
      return Err(Unmodelled);
    }
    var ret: seq<char> := [];
    var i := width - 1;
    while i >= 0
      invariant -1 <= i < width
      invariant ret + BitString(n, i + 1) == BitString(n, width)
    {
      assert BitString(n, i + 1) == [if TestBit(n, i) then BIT_1 else BIT_0] + BitString(n, i);
      if TestBit(n, i) {
        ret := ret + [BIT_1];
      } else {
        ret := ret + [BIT_0];
      }
      i := i - 1;
    }
    assert BitString(n, 0) == [];
    assert ret + [] == ret;
    r := Ok(ret);
  }

  /** n mod 2^(w+1) splits into bit w of n and n mod 2^w. */
  lemma ModSplit(n: int, w: nat)
    ensures n % Pow2(w + 1) == (if TestBit(n, w) then Pow2(w) else 0) + n % Pow2(w)
  {
    var p := Pow2(w);
    var q := n / p;
    var r := n % p;
    var b := q % 2;
    var q2 := q / 2;
    assert n == p * q + r;
    assert q == 2 * q2 + b;
    assert n == (2 * p) * q2 + (p * b + r) by {
      assert p * q == p * (2 * q2 + b) == (2 * p) * q2 + p * b;
    }
    assert 0 <= p * b + r < 2 * p by {
      if b == 1 {
        assert p * b == p;
      } else {
        assert p * b == 0;
      }
    }
    DivModUnique(n, 2 * p, q2, p * b + r);
  }

  /** The string convert builds denotes n modulo 2^width: the two's complement low bits, also for negative n. */
  lemma {:induction false} BitStringValue(n: int, w: nat)
    ensures BitsValue(BitString(n, w)) == n % Pow2(w)
  {
    if w > 0 {
      var s := BitString(n, w);
      assert s[1..] == BitString(n, w - 1);
      BitStringValue(n, w - 1);
      ModSplit(n, w - 1);
      assert GetLong(s[0]) == (if TestBit(n, w - 1) then 1 else 0);
    }
  }

  /** Reading back what convert wrote: toLongNumber(convert(n, w)) is n mod 2^w, wrapped to a long. */
  lemma ConvertRoundTrip(n: int, w: nat)
    requires 0 < w <= 63
    ensures BitsValue(BitString(n, w)) == n % Pow2(w)
    ensures Wrap64(BitsValue(BitString(n, w))) == n % Pow2(w)
    ensures 0 <= n < Pow2(w) ==> BitsValue(BitString(n, w)) == n
  {
    BitStringValue(n, w);
    BitsValueBound(BitString(n, w));
    Pow2Monotone(w, 63);
    Pow2SixtyThree();
    if 0 <= n < Pow2(w) {
      DivModUnique(n, Pow2(w), 0, n);
    }
  }

  // ---------------------------------------------------------------
  // adjustIdx
  // ---------------------------------------------------------------

  /** adjustIdx: mirrors an index of an ascending range of num positions starting at offset; descending indices are kept. */
  function AdjustIdx(idx: int, asc: bool, num: int, offset: int): (r: int)
    ensures asc ==> r - offset == (num - 1) - (idx - offset)
    ensures !asc ==> r == idx
  {
    if asc then (num - 1) - (idx - offset) + offset else idx
  }

  /** Mirroring twice gives the index back. */
  lemma AdjustIdxInvolution(idx: int, asc: bool, num: int, offset: int)
    ensures AdjustIdx(AdjustIdx(idx, asc, num, offset), asc, num, offset) == idx
  {
  }

  /** Mirroring keeps an index inside the range [offset, offset + num). */
  lemma AdjustIdxInRange(idx: int, asc: bool, num: int, offset: int)
    requires offset <= idx < offset + num
    ensures offset <= AdjustIdx(idx, asc, num, offset) < offset + num
  {
  }
}

=== FILE: IGManager.dfy ===
/**
 * IGManager: the bookkeeping of instantiation-graph elaboration. The persistent store is
 * a set of maps: stored module records by database id, MODULE_IDX (signature to id),
 * SIGNATURES_IDX (design-unit uid to the signatures elaborated from it) and
 * INSTANTIATORS_IDX (design-unit uid to the units that instantiate it). Module creation is
 * memoised by signature; statement elaboration runs as build jobs on a LIFO todo stack,
 * each signature queued at most once.
 */
module Manager {
  import opened Wrappers
  import opened StaticValues
  import opened IGModules

  /**
   * A design unit as the elaboration sees it. For an architecture, `entityOk` says whether
   * computeEntityIG succeeds, `body` is the structure computeStatementsIG elaborates (its
   * instantiations are the modules it asks for, in order) and `bodyOk` whether it finishes
   * without an exception.
   */
  datatype DesignUnit =
    | Architecture(entityOk: bool, body: Structure, bodyOk: bool)
    | OtherUnit

  /** A build job: elaborate the statements of the module with this signature. */
  datatype Job = Job(parent: Option<string>, uid: string, signature: string, generics: seq<(string, Value)>)

  /** The errors reported to the error manager. */
  datatype Report =
    | UnitNotFound(uid: string)
    | EntityFailed(uid: string)
    | StatementsFailed(uid: string)
    | ToplevelNotFound

  /** The values of a list of (name, value) generics, in order. */
  function Seconds(gs: seq<(string, Value)>): (r: seq<Value>)
    ensures |r| == |gs| && forall k | 0 <= k < |gs| :: r[k] == gs[k].1
  {
    seq(|gs|, k requires 0 <= k < |gs| => gs[k].1)
  }

  /** Adding `v` to the set stored under `k`, creating the set when there is none. */
  function AddTo(m: map<string, set<string>>, k: string, v: string): (r: map<string, set<string>>)
    ensures r.Keys == m.Keys + {k}
    ensures v in r[k] && r[k] == (if k in m then m[k] else {}) + {v}
    ensures forall u | u in m && u != k :: r[u] == m[u]
  {
    m[k := (if k in m then m[k] else {}) + {v}]
  }

  /** Removing `d` from the sets stored under the keys `ks` that are present. */
  function RemovedFrom(m: map<string, set<string>>, d: string, ks: set<string>): (r: map<string, set<string>>)
    ensures r.Keys == m.Keys
    ensures forall u | u in m :: r[u] == (if u in ks then m[u] - {d} else m[u])
  {
    map u | u in m :: if u in ks then m[u] - {d} else m[u]
  }

  /** The units instantiated by the first i statements of s, nested structures included. */
  function UnitsBefore(s: Structure, i: nat): set<string>
    requires i <= |s.stmts|
    decreases s, i
  {
    if i == 0 then {}
    else UnitsBefore(s, i - 1) + (match s.stmts[i - 1]
                                  case Instantiation(_, _, child, _) => {child}
                                  case SubStructure(_, b) => UnitsBefore(b, |b.stmts|)
                                  case OtherStmt => {})
  }

  /** The units a structure instantiates anywhere in its tree. */
  function InstantiatedUnits(s: Structure): set<string> {
    UnitsBefore(s, |s.stmts|)
  }

  /** Removing `d` under `a` and then under `b` is removing it under both. */
  lemma RemovedFromTwice(m: map<string, set<string>>, d: string, a: set<string>, b: set<string>)
    ensures RemovedFrom(RemovedFrom(m, d, a), d, b) == RemovedFrom(m, d, a + b)
  {
    var l, r := RemovedFrom(RemovedFrom(m, d, a), d, b), RemovedFrom(m, d, a + b);
    forall u | u in l ensures l[u] == r[u] {
    }
  }

  /** Removing under one key is updating that key's set, when it has one. */
  lemma RemovedFromOne(m: map<string, set<string>>, d: string, k: string)
    ensures RemovedFrom(m, d, {k}) == if k in m then m[k := m[k] - {d}] else m
  {
    var l := RemovedFrom(m, d, {k});
    forall u | u in l ensures l[u] == (if k in m then m[k := m[k] - {d}] else m)[u] {
    }
  }

  /** The signatures a list of instantiations asks for. */
  function InstSigs(insts: seq<Stmt>): set<string> {
    set k | 0 <= k < |insts| && insts[k].Instantiation? :: insts[k].signature
  }

  /** The signatures of a list of jobs. */
  function Sigs(jobs: seq<Job>): set<string>
    decreases |jobs|
  {
    if jobs == [] then {} else Sigs(jobs[..|jobs| - 1]) + {jobs[|jobs| - 1].signature}
  }

  /** No signature occurs twice in a list of jobs. */
  predicate Distinct(jobs: seq<Job>)
    decreases |jobs|
  {
    jobs == [] || (Distinct(jobs[..|jobs| - 1]) && jobs[|jobs| - 1].signature !in Sigs(jobs[..|jobs| - 1]))
  }

  /** Pushing a job adds its signature; the list stays free of repeats iff the signature is new. */
  lemma SigsAppend(jobs: seq<Job>, j: Job)
    ensures Sigs(jobs + [j]) == Sigs(jobs) + {j.signature}
    ensures Distinct(jobs + [j]) <==> Distinct(jobs) && j.signature !in Sigs(jobs)
  {
    assert (jobs + [j])[..|jobs|] == jobs;
  }

  /** Every architecture's entity elaborates. */
  predicate EntitiesOk(units: map<string, DesignUnit>) {
    forall u | u in units && units[u].Architecture? :: units[u].entityOk
  }

  /** The signatures the statements of unit `uid` instantiate. */
  function UnitSigs(units: map<string, DesignUnit>, uid: string): set<string> {
    if uid in units && units[uid].Architecture? then InstSigs(Instances(units[uid].body, 0)) else {}
  }

  /** Every signature some architecture's statements instantiate. */
  function InstanceSigs(units: map<string, DesignUnit>): set<string> {
    set u, k | u in units && units[u].Architecture? && 0 <= k < |Instances(units[u].body, 0)|
             :: Instances(units[u].body, 0)[k].signature
  }

  /** The signatures indexed in `idx` whose stored record in `db` is elaborated. */
  function DoneOf(idx: map<string, int>, db: map<int, ModuleRec>): set<string> {
    set s | s in idx && idx[s] in db && db[idx[s]].elaborated
  }

  /** Storing under an id no signature maps to changes no signature's elaboration. */
  lemma DoneUnindexedStore(idx: map<string, int>, db: map<int, ModuleRec>, id: int, rec: ModuleRec)
    requires forall s | s in idx :: idx[s] != id
    ensures DoneOf(idx, db[id := rec]) == DoneOf(idx, db)
  {
    forall s | s in idx ensures (s in DoneOf(idx, db[id := rec])) == (s in DoneOf(idx, db)) {
      assert idx[s] != id;
    }
  }

  /** Indexing a fresh signature under a fresh id with an unelaborated record changes nothing either. */
  lemma DoneUnelaboratedInsert(idx: map<string, int>, db: map<int, ModuleRec>, sig: string, id: int, rec: ModuleRec)
    requires forall s | s in idx :: idx[s] != id
    requires !rec.elaborated
    ensures DoneOf(idx[sig := id], db[id := rec]) == DoneOf(idx, db) - {sig}
  {
    forall s ensures (s in DoneOf(idx[sig := id], db[id := rec])) == (s in DoneOf(idx, db) - {sig}) {
      if s in idx && s != sig {
        assert idx[s] != id;
      }
    }
  }

  /** Overwriting the record of `sig` with an elaborated one adds exactly `sig`, ids being unique. */
  lemma DoneElaboratedStore(idx: map<string, int>, owner: map<int, string>, db: map<int, ModuleRec>, sig: string, rec: ModuleRec)
    requires sig in idx && rec.elaborated
    requires forall s | s in idx :: idx[s] in owner && owner[idx[s]] == s
    ensures DoneOf(idx, db[idx[sig] := rec]) == DoneOf(idx, db) + {sig}
  {
    forall s | s in idx && s != sig ensures (s in DoneOf(idx, db[idx[sig] := rec])) == (s in DoneOf(idx, db)) {
      assert idx[s] != idx[sig];
    }
  }

  class IGManager {
    /** The design-unit manager: what getDU answers for each uid. */
    const units: map<string, DesignUnit>
    /** Stored module records by database id; ids are allocated from nextId upwards. */
    var db: map<int, ModuleRec>
    var nextId: int
    var moduleIdx: map<string, int>
    var signaturesIdx: map<string, set<string>>
    var instantiatorsIdx: map<string, set<string>>
    var todo: set<string>
    var todoStack: seq<Job>
    var numDone: int
    var errors: seq<Report>
    /** The signature whose build job is running, if any. */
    ghost var running: set<string>
    /** The signature MODULE_IDX maps to each indexed id. */
    ghost var owner: map<int, string>

    /**
     * The store's consistency: indexed ids are stored, records know their id, and no two
     * signatures share an id (each indexed id has one owning signature).
     */
    ghost predicate Valid()
      reads this`nextId, this`moduleIdx, this`db, this`owner
    {
      nextId >= 1
      && (forall s | s in moduleIdx :: moduleIdx[s] in db)
      && (forall id | id in db :: 0 < id < nextId && db[id].dbid == id)
      && (forall s | s in moduleIdx :: moduleIdx[s] in owner && owner[moduleIdx[s]] == s)
    }

    /** The module stored under signature s has its statements elaborated. */
    predicate Elaborated(s: string)
      reads this`moduleIdx, this`db
    {
      s in moduleIdx && moduleIdx[s] in db && db[moduleIdx[s]].elaborated
    }

    /** The signatures whose stored module is elaborated. */
    function Done(): (r: set<string>)
      reads this`moduleIdx, this`db
      ensures forall s :: s in r <==> Elaborated(s)
    {
      DoneOf(moduleIdx, db)
    }

    /** fTodo holds exactly the signatures on the stack and the one being run, each once. */
    ghost predicate Queued()
      reads this`todo, this`todoStack, this`running
    {
      todo == Sigs(todoStack) + running && Distinct(todoStack) && Sigs(todoStack) !! running
    }

    /** Every queued job is for a stored module whose statements are still to be elaborated. */
    predicate Live()
      reads this`todoStack, this`moduleIdx, this`db
    {
      Sigs(todoStack) <= moduleIdx.Keys && Sigs(todoStack) !! Done()
    }

    /** Every stored module is elaborated or queued. */
    predicate Complete()
      reads this`moduleIdx, this`db, this`todo
    {
      moduleIdx.Keys <= Done() + todo
    }

    predicate IsArchitecture(uid: string) {
      uid in units && units[uid].Architecture?
    }

    constructor (units: map<string, DesignUnit>)
      ensures this.units == units && Valid() && Queued() && Live() && Complete()
      ensures db == map[] && moduleIdx == map[] && signaturesIdx == map[] && instantiatorsIdx == map[]
      ensures todo == {} && todoStack == [] && numDone == 0 && errors == []
    {
      this.units := units;
      db := map[];
      nextId := 1;
      moduleIdx := map[];
      signaturesIdx := map[];
      instantiatorsIdx := map[];
      todo := {};
      todoStack := [];
      numDone := 0;
      errors := [];
      running := {};
      owner := map[];
    }

    /**
     * What getOrCreateIGModule answers for a signature: the stored module when MODULE_IDX
     * has it; otherwise a new module for an architecture (stored under the next id when its
     * entity elaborates, unstored with id 0 when it does not); otherwise null.
     */
    function Fetch(uid: string, sig: string, generics: seq<(string, Value)>): (r: Option<ModuleRec>)
      reads this`moduleIdx, this`db, this`nextId
      ensures sig in moduleIdx && moduleIdx[sig] in db ==> r == Some(db[moduleIdx[sig]])
      ensures r.None? <==> !(sig in moduleIdx && moduleIdx[sig] in db) && !IsArchitecture(uid)
    {
      if sig in moduleIdx && moduleIdx[sig] in db then Some(db[moduleIdx[sig]])
      else if IsArchitecture(uid) then
        Some(ModuleRec(if units[uid].entityOk then nextId else 0, uid, Structure([]), Seconds(generics), false))
      else None
    }

    /** findModule: the stored module for a signature, null when MODULE_IDX has none. */
    function FindModule(sig: string): (r: Option<ModuleRec>)
      reads this`nextId, this`moduleIdx, this`db, this`owner
      requires Valid()
      ensures r.Some? <==> sig in moduleIdx
      ensures r.Some? ==> r.value.dbid == moduleIdx[sig] && r.value == db[moduleIdx[sig]]
      ensures r.Some? ==> (r.value.elaborated <==> Elaborated(sig))
    {
      if sig in moduleIdx then Some(db[moduleIdx[sig]]) else None
    }

    /** Every module findModule can find, by signature: what accept looks instantiations up in. */
    function Modules(): (r: map<string, ModuleRec>)
      reads this`nextId, this`moduleIdx, this`db, this`owner
      requires Valid()
      ensures forall s :: (s in r <==> FindModule(s).Some?) && (s in r ==> FindModule(s) == Some(r[s]))
    {
      map s | s in moduleIdx :: db[moduleIdx[s]]
    }

    /** findInstantiators: the units instantiating `uid`, null when INSTANTIATORS_IDX has no entry. */
    function FindInstantiators(uid: string): (r: Option<set<string>>)
      reads this`instantiatorsIdx
      ensures r.Some? <==> uid in instantiatorsIdx
      ensures r.Some? ==> r.value == instantiatorsIdx[uid]
    {
      if uid in instantiatorsIdx then Some(instantiatorsIdx[uid]) else None
    }

    /** initIGBuild on the single-threaded path: an empty todo set and an empty job stack. */
    method InitIGBuild()
      modifies this`todo, this`todoStack
      requires running == {}
      ensures todo == {} && todoStack == [] && Queued() && Live()
      ensures Complete() <==> moduleIdx.Keys <= Done()
    {
      todo := {};
      todoStack := [];
    }

    // ---------------------------------------------------------------
    // getOrCreateIGModule
    // ---------------------------------------------------------------

    /**
     * Lines 478-512: a new IGModule for an architecture, its actual generics added in order,
     * as the record that is stored under `id`.
     */
    static method NewModule(uid: string, generics: seq<(string, Value)>, id: int) returns (rec: ModuleRec)
      ensures rec == ModuleRec(id, uid, Structure([]), Seconds(generics), false)
    {
      var created := new IGModule(uid);
      var i := 0;
      while i < |generics|
        modifies created
        invariant 0 <= i <= |generics|
        invariant created.actualGenerics == Seconds(generics[..i])
        invariant created.structure == Structure([]) && !created.statementsElaborated && created.duuid == uid
      {
        created.AddActualGeneric(generics[i].1);
        assert generics[..i + 1] == generics[..i] + [generics[i]];
        i := i + 1;
      }
      assert generics[..i] == generics;
      rec := created.Record(id);
    }

    /** Lines 470-515: load the module stored under the signature or create one. */
    method LoadOrCreate(uid: string, sig: string, generics: seq<(string, Value)>) returns (m: Option<ModuleRec>)
      modifies this`db, this`moduleIdx, this`owner, this`nextId, this`errors
      requires Valid()
      ensures Valid()
      ensures m == old(Fetch(uid, sig, generics))
      ensures Done() == old(Done())
      ensures m.Some? && m.value.dbid != 0 ==>
                sig in moduleIdx && moduleIdx[sig] == m.value.dbid && m.value.dbid < nextId
                && (m.value.elaborated <==> Elaborated(sig))
      ensures m.Some? && m.value.dbid == 0 ==> sig !in moduleIdx && IsArchitecture(uid) && !units[uid].entityOk
      ensures moduleIdx.Keys <= old(moduleIdx).Keys + {sig}
      ensures nextId >= old(nextId)
      ensures forall s | s in old(moduleIdx) :: s in moduleIdx && moduleIdx[s] == old(moduleIdx)[s]
      ensures old(sig in moduleIdx) || !IsArchitecture(uid) || !units[uid].entityOk ==>
                db == old(db) && moduleIdx == old(moduleIdx) && nextId == old(nextId)
      ensures !old(sig in moduleIdx) && IsArchitecture(uid) && units[uid].entityOk ==>
                db == old(db)[old(nextId) := m.value] && moduleIdx == old(moduleIdx)[sig := old(nextId)]
                && nextId == old(nextId) + 1
      ensures errors == old(errors) + (if old(sig in moduleIdx) then []
                                       else if !IsArchitecture(uid) then [UnitNotFound(uid)]
                                       else if !units[uid].entityOk then [EntityFailed(uid)]
                                       else [])
    {
      if sig in moduleIdx {
        var id := moduleIdx[sig];
        assert id in db && db[id].dbid == id && id > 0;
        m := Some(db[id]);
        return;
      }
      if !IsArchitecture(uid) {
        errors := errors + [UnitNotFound(uid)];
        return None;
      }
      if units[uid].entityOk {
        var id := nextId;
        var rec := NewModule(uid, generics, id);
        m := Some(rec);
        DoneUnelaboratedInsert(moduleIdx, db, sig, id, m.value);
        db := db[id := m.value];
        moduleIdx := moduleIdx[sig := id];
        owner := owner[id := sig];
        nextId := nextId + 1;
      } else {
        errors := errors + [EntityFailed(uid)];
        var rec := NewModule(uid, generics, 0);
        m := Some(rec);
      }
    }

    /** The module just obtained asks for statement elaboration. */
    static predicate Requested(m: Option<ModuleRec>, elaborate: bool) {
      m.Some? && !m.value.elaborated && elaborate
    }

    /** Lines 519-547: record the signature for its unit and queue a build job unless one is queued. */
    method Schedule(m: Option<ModuleRec>, parent: Option<string>, uid: string, sig: string,
                    generics: seq<(string, Value)>, elaborate: bool)
      modifies this`signaturesIdx, this`todo, this`todoStack
      ensures signaturesIdx == if Requested(m, elaborate) then AddTo(old(signaturesIdx), uid, sig) else old(signaturesIdx)
      ensures todo == if Requested(m, elaborate) then old(todo) + {sig} else old(todo)
      ensures todoStack == old(todoStack) + (if Requested(m, elaborate) && sig !in old(todo)
                                             then [Job(parent, uid, sig, generics)] else [])
      ensures old(Queued()) ==> Queued()
      ensures old(Live()) && (Requested(m, elaborate) ==> sig in moduleIdx && sig !in Done()) ==> Live()
    {
      if Requested(m, elaborate) {
        signaturesIdx := AddTo(signaturesIdx, uid, sig);
        if sig !in todo {
          ghost var stack0 := todoStack;
          todo := todo + {sig};
          todoStack := todoStack + [Job(parent, uid, sig, generics)];
          SigsAppend(stack0, Job(parent, uid, sig, generics));
        }
      }
    }

    /** Lines 551-571: register the parent unit as an instantiator of `uid`, once. */
    method RegisterInstantiator(parent: Option<string>, uid: string)
      modifies this`instantiatorsIdx
      ensures instantiatorsIdx == if parent.Some? then AddTo(old(instantiatorsIdx), uid, parent.value) else old(instantiatorsIdx)
    {
      if parent.Some? {
        instantiatorsIdx := AddTo(instantiatorsIdx, uid, parent.value);
      }
    }

    /**
     * getOrCreateIGModule: memoised by signature (a stored module is returned and nothing is
     * created); a requested elaboration queues one job per signature; the instantiator is
     * registered whatever became of the module.
     */
    method GetOrCreateIGModule(parent: Option<string>, uid: string, sig: string,
                               generics: seq<(string, Value)>, elaborate: bool) returns (m: Option<ModuleRec>)
      modifies this`db, this`moduleIdx, this`owner, this`nextId, this`errors, this`signaturesIdx, this`instantiatorsIdx, this`todo, this`todoStack
      requires Valid()
      ensures Valid()
      ensures m == old(Fetch(uid, sig, generics))
      ensures old(sig in moduleIdx) || !IsArchitecture(uid) || !units[uid].entityOk ==>
                db == old(db) && moduleIdx == old(moduleIdx) && nextId == old(nextId)
      ensures !old(sig in moduleIdx) && IsArchitecture(uid) && units[uid].entityOk ==>
                db == old(db)[old(nextId) := m.value] && moduleIdx == old(moduleIdx)[sig := old(nextId)]
                && nextId == old(nextId) + 1
      ensures signaturesIdx == if Requested(m, elaborate) then AddTo(old(signaturesIdx), uid, sig) else old(signaturesIdx)
      ensures todo == if Requested(m, elaborate) then old(todo) + {sig} else old(todo)
      ensures todoStack == old(todoStack) + (if Requested(m, elaborate) && sig !in old(todo)
                                             then [Job(parent, uid, sig, generics)] else [])
      ensures instantiatorsIdx == if parent.Some? then AddTo(old(instantiatorsIdx), uid, parent.value) else old(instantiatorsIdx)
      ensures errors == old(errors) + (if old(sig in moduleIdx) then []
                                       else if !IsArchitecture(uid) then [UnitNotFound(uid)]
                                       else if !units[uid].entityOk then [EntityFailed(uid)]
                                       else [])
      ensures Done() == old(Done())
      ensures m.Some? && m.value.dbid != 0 ==>
                sig in moduleIdx && m.value.dbid == moduleIdx[sig] && m.value.dbid < nextId
                && (m.value.elaborated <==> Elaborated(sig))
      ensures m.Some? && m.value.dbid == 0 ==> sig !in moduleIdx
      ensures nextId >= old(nextId)
      ensures forall s | s in old(moduleIdx) :: s in moduleIdx && moduleIdx[s] == old(moduleIdx)[s]
      ensures old(Queued()) ==> Queued()
      ensures old(Live()) && EntitiesOk(units) ==> Live()
      ensures old(Complete()) && (elaborate || sig in old(todo)) ==> Complete()
    {
      m := LoadOrCreate(uid, sig, generics);
      Schedule(m, parent, uid, sig, generics, elaborate);
      RegisterInstantiator(parent, uid);
    }

    // ---------------------------------------------------------------
    // Build jobs
    // ---------------------------------------------------------------

    /** storeOrUpdate: a record never stored gets the next id; a stored one is overwritten under its id. */
    method StoreOrUpdate(rec: ModuleRec) returns (id: int)
      modifies this`db, this`nextId
      requires Valid() && (rec.dbid == 0 || 0 < rec.dbid < nextId)
      ensures Valid()
      ensures rec.dbid == 0 ==> id == old(nextId) && db == old(db)[id := rec.(dbid := id)] && nextId == old(nextId) + 1
      ensures rec.dbid != 0 ==> id == rec.dbid && db == old(db)[id := rec] && nextId == old(nextId)
    {
      if rec.dbid == 0 {
        id := nextId;
        db := db[id := rec.(dbid := id)];
        nextId := nextId + 1;
      } else {
        id := rec.dbid;
        db := db[id := rec];
      }
    }

    /**
     * The module requests computeStatementsIG makes: getOrCreateIGModule with elaboration
     * for each instantiation, in order, with the elaborating unit as parent.
     */
    method ElaborateStatements(uid: string, insts: seq<Stmt>)
      modifies this`db, this`moduleIdx, this`owner, this`nextId, this`errors, this`signaturesIdx, this`instantiatorsIdx, this`todo, this`todoStack
      requires Valid() && forall k | 0 <= k < |insts| :: insts[k].Instantiation?
      ensures Valid()
      ensures Done() == old(Done())
      ensures nextId >= old(nextId)
      ensures forall s | s in old(moduleIdx) :: s in moduleIdx && moduleIdx[s] == old(moduleIdx)[s]
      ensures old(Queued()) ==> Queued()
      ensures old(Live()) && EntitiesOk(units) ==> Live()
      ensures old(Complete()) ==> Complete()
      ensures Extends(old(todoStack), todoStack, InstSigs(insts))
      ensures old(errors) <= errors
    {
      var i := 0;
      while i < |insts|
        invariant 0 <= i <= |insts|
        invariant Valid()
        invariant Done() == old(Done())
        invariant nextId >= old(nextId)
        invariant forall s | s in old(moduleIdx) :: s in moduleIdx && moduleIdx[s] == old(moduleIdx)[s]
        invariant old(Queued()) ==> Queued()
        invariant old(Live()) && EntitiesOk(units) ==> Live()
        invariant old(Complete()) ==> Complete()
        invariant Extends(old(todoStack), todoStack, InstSigs(insts))
        invariant old(errors) <= errors
      {
        ghost var stack0 := todoStack;
        Request(uid, insts[i]);
        assert insts[i].signature in InstSigs(insts);
        ExtendsTrans(old(todoStack), stack0, todoStack, InstSigs(insts), {insts[i].signature});
        i := i + 1;
      }
    }

    /** One instantiation's request: getOrCreateIGModule with elaboration and the unit as parent. */
    method Request(uid: string, inst: Stmt)
      modifies this`db, this`moduleIdx, this`owner, this`nextId, this`errors, this`signaturesIdx, this`instantiatorsIdx, this`todo, this`todoStack
      requires Valid() && inst.Instantiation?
      ensures Valid()
      ensures Done() == old(Done())
      ensures nextId >= old(nextId)
      ensures forall s | s in old(moduleIdx) :: s in moduleIdx && moduleIdx[s] == old(moduleIdx)[s]
      ensures old(Queued()) ==> Queued()
      ensures old(Live()) && EntitiesOk(units) ==> Live()
      ensures old(Complete()) ==> Complete()
      ensures Extends(old(todoStack), todoStack, {inst.signature})
      ensures old(errors) <= errors
    {
      ghost var stack0 := todoStack;
      var _ := GetOrCreateIGModule(Some(uid), inst.child, inst.signature, inst.generics, true);
      if todoStack != stack0 {
        SigsAppend(stack0, Job(Some(uid), inst.child, inst.signature, inst.generics));
      }
    }

    /**
     * BuildNodeJob.run: fetch the module without elaboration, elaborate its statements
     * unless already done, then mark it elaborated and store it even when elaboration
     * reported an error, and take the signature off the todo set.
     */
    method RunJob(job: Job)
      modifies this`db, this`moduleIdx, this`owner, this`nextId, this`errors, this`signaturesIdx, this`instantiatorsIdx, this`todo, this`todoStack, this`running, this`numDone
      requires Valid() && running == {} && Distinct(todoStack)
      requires job.signature !in Sigs(todoStack) && todo == Sigs(todoStack) + {job.signature}
      ensures Valid() && Queued() && running == {}
      ensures old(job.signature in moduleIdx) ==> Elaborated(job.signature)
      ensures old(Done()) <= Done() <= old(Done()) + {job.signature}
      ensures forall s | s in old(moduleIdx) :: s in moduleIdx && moduleIdx[s] == old(moduleIdx)[s]
      ensures old(Live()) && EntitiesOk(units) ==> Live()
      ensures old(Complete()) && old(job.signature in moduleIdx) ==> Complete()
      ensures Extends(old(todoStack), todoStack, UnitSigs(units, job.uid))
      ensures numDone == old(numDone) + 1
      ensures old(errors) <= errors
      ensures old(Elaborated(job.signature)) ==> errors == old(errors)
      ensures old(job.signature !in moduleIdx) && !IsArchitecture(job.uid) ==> errors == old(errors) + [UnitNotFound(job.uid)]
      ensures IsArchitecture(job.uid) && !units[job.uid].bodyOk && !old(Elaborated(job.signature)) ==>
                |errors| > 0 && errors[|errors| - 1] == StatementsFailed(job.uid)
    {
      var m := BeginJob(job);
      FinishJob(job.uid, job.signature, m);
    }

    /** Lines 291-329: elaborate and store the module, then take the signature off the todo set. */
    method FinishJob(uid: string, sig: string, m: Option<ModuleRec>)
      modifies this`db, this`moduleIdx, this`owner, this`nextId, this`errors, this`signaturesIdx, this`instantiatorsIdx, this`todo, this`todoStack, this`running
      requires Valid() && Queued() && running == {sig}
      requires m.Some? && m.value.dbid != 0 ==>
                 sig in moduleIdx && moduleIdx[sig] == m.value.dbid && m.value.dbid < nextId
                 && (m.value.elaborated <==> Elaborated(sig))
      requires m.Some? && m.value.dbid == 0 ==> sig !in moduleIdx
      requires m.None? ==> sig !in moduleIdx
      ensures Valid() && Queued() && running == {}
      ensures m.Some? && m.value.dbid != 0 ==> Elaborated(sig)
      ensures old(Done()) <= Done() <= old(Done()) + {sig}
      ensures forall s | s in old(moduleIdx) :: s in moduleIdx && moduleIdx[s] == old(moduleIdx)[s]
      ensures old(Live()) && EntitiesOk(units) ==> Live()
      ensures old(Complete()) && (m.Some? ==> m.value.dbid != 0) ==> Complete()
      ensures Extends(old(todoStack), todoStack, UnitSigs(units, uid))
      ensures old(errors) <= errors
      ensures m.None? || m.value.elaborated ==> errors == old(errors)
      ensures m.Some? && !m.value.elaborated && !IsArchitecture(uid) ==> errors == old(errors) + [UnitNotFound(uid)]
      ensures m.Some? && !m.value.elaborated && IsArchitecture(uid) && !units[uid].bodyOk ==>
                |errors| > 0 && errors[|errors| - 1] == StatementsFailed(uid)
    {
      FinishModule(uid, sig, m);
      Release(sig);
    }

    /**
     * Lines 286-289: the job's signature is being run; getOrCreateIGModule without
     * elaboration, then the statistics count one more module.
     */
    method BeginJob(job: Job) returns (m: Option<ModuleRec>)
      modifies this`db, this`moduleIdx, this`owner, this`nextId, this`errors, this`signaturesIdx, this`instantiatorsIdx, this`todo, this`todoStack, this`running, this`numDone
      requires Valid() && running == {} && Distinct(todoStack)
      requires job.signature !in Sigs(todoStack) && todo == Sigs(todoStack) + {job.signature}
      ensures Valid() && Queued() && running == {job.signature}
      ensures m.Some? && m.value.dbid != 0 ==>
                job.signature in moduleIdx && m.value.dbid == moduleIdx[job.signature] && m.value.dbid < nextId
                && (m.value.elaborated <==> Elaborated(job.signature))
      ensures m.Some? && m.value.dbid == 0 ==> job.signature !in moduleIdx
      ensures m.None? ==> job.signature !in moduleIdx
      ensures old(job.signature in moduleIdx) ==> m.Some? && m.value.dbid != 0
      ensures Done() == old(Done())
      ensures forall s | s in old(moduleIdx) :: s in moduleIdx && moduleIdx[s] == old(moduleIdx)[s]
      ensures todo == old(todo) && todoStack == old(todoStack)
      ensures old(Live()) ==> Live()
      ensures old(Complete()) ==> Complete()
      ensures numDone == old(numDone) + 1
      ensures m.None? <==> old(job.signature !in moduleIdx) && !IsArchitecture(job.uid)
      ensures m.Some? ==> (m.value.elaborated <==> old(Elaborated(job.signature)))
      ensures errors == old(errors) + (if old(job.signature in moduleIdx) then []
                                       else if !IsArchitecture(job.uid) then [UnitNotFound(job.uid)]
                                       else if !units[job.uid].entityOk then [EntityFailed(job.uid)]
                                       else [])
    {
      running := {job.signature};
      m := GetOrCreateIGModule(job.parent, job.uid, job.signature, job.generics, false);
      numDone := numDone + 1;
    }

    /**
     * Lines 291-320 once the module is at hand: elaborate its statements unless that was
     * done, then mark it elaborated and store it; nothing happens without a module.
     */
    method FinishModule(uid: string, sig: string, m: Option<ModuleRec>)
      modifies this`db, this`moduleIdx, this`owner, this`nextId, this`errors, this`signaturesIdx, this`instantiatorsIdx, this`todo, this`todoStack
      requires Valid() && Queued() && running == {sig}
      requires m.Some? && m.value.dbid != 0 ==>
                 sig in moduleIdx && moduleIdx[sig] == m.value.dbid && m.value.dbid < nextId
                 && (m.value.elaborated <==> Elaborated(sig))
      ensures Valid() && Queued()
      ensures m.Some? && m.value.dbid != 0 ==> Elaborated(sig)
      ensures old(Done()) <= Done() <= old(Done()) + {sig}
      ensures forall s | s in old(moduleIdx) :: s in moduleIdx && moduleIdx[s] == old(moduleIdx)[s]
      ensures old(Live()) && EntitiesOk(units) ==> Live()
      ensures old(Complete()) ==> Complete()
      ensures Extends(old(todoStack), todoStack, UnitSigs(units, uid))
      ensures m.None? ==> moduleIdx == old(moduleIdx)
      ensures old(errors) <= errors
      ensures m.None? || m.value.elaborated ==> errors == old(errors)
      ensures m.Some? && !m.value.elaborated && !IsArchitecture(uid) ==> errors == old(errors) + [UnitNotFound(uid)]
      ensures m.Some? && !m.value.elaborated && IsArchitecture(uid) && !units[uid].bodyOk ==>
                |errors| > 0 && errors[|errors| - 1] == StatementsFailed(uid)
    {
      if m.None? {
        return;
      }
      var r := ElaborateModule(uid, m.value);
      MarkElaborated(sig, r);
    }

    /**
     * Lines 293-305: computeStatementsIG for a module whose statements are not elaborated yet;
     * a unit that is no architecture is reported instead.
     */
    method ElaborateModule(uid: string, rec: ModuleRec) returns (r: ModuleRec)
      modifies this`db, this`moduleIdx, this`owner, this`nextId, this`errors, this`signaturesIdx, this`instantiatorsIdx, this`todo, this`todoStack
      requires Valid() && Queued()
      ensures r == if !rec.elaborated && IsArchitecture(uid) then rec.(structure := units[uid].body) else rec
      ensures Valid() && Queued()
      ensures Done() == old(Done())
      ensures nextId >= old(nextId)
      ensures forall s | s in old(moduleIdx) :: s in moduleIdx && moduleIdx[s] == old(moduleIdx)[s]
      ensures old(Live()) && EntitiesOk(units) ==> Live()
      ensures old(Complete()) ==> Complete()
      ensures Extends(old(todoStack), todoStack, UnitSigs(units, uid))
      ensures old(errors) <= errors
      ensures rec.elaborated ==> errors == old(errors)
      ensures !rec.elaborated && !IsArchitecture(uid) ==> errors == old(errors) + [UnitNotFound(uid)]
      ensures !rec.elaborated && IsArchitecture(uid) && !units[uid].bodyOk ==>
                |errors| > 0 && errors[|errors| - 1] == StatementsFailed(uid)
    {
      r := rec;
      if !r.elaborated {
        if IsArchitecture(uid) {
          var unit := units[uid];
          ElaborateStatements(uid, Instances(unit.body, 0));
          r := r.(structure := unit.body);
          if !unit.bodyOk {
            errors := errors + [StatementsFailed(uid)];
          }
        } else {
          errors := errors + [UnitNotFound(uid)];
        }
      }
    }

    /** Lines 316-319: setStatementsElaborated(true) and storeOrUpdate. */
    method MarkElaborated(sig: string, rec: ModuleRec)
      modifies this`db, this`nextId
      requires Valid() && Queued() && running == {sig}
      requires rec.dbid != 0 ==> sig in moduleIdx && moduleIdx[sig] == rec.dbid && rec.dbid < nextId
      ensures Valid()
      ensures rec.dbid != 0 ==> Elaborated(sig)
      ensures old(Done()) <= Done() <= old(Done()) + {sig}
      ensures old(Live()) ==> Live()
      ensures old(Complete()) ==> Complete()
    {
      var r := rec.(elaborated := true);
      ghost var idx, own, db0, id0 := moduleIdx, owner, db, nextId;
      var _ := StoreOrUpdate(r);
      if r.dbid == 0 {
        DoneUnindexedStore(idx, db0, id0, r.(dbid := id0));
      } else {
        DoneElaboratedStore(idx, own, db0, sig, r);
      }
    }

    /** Line 329: the finished job's signature leaves the todo set. */
    method Release(sig: string)
      modifies this`todo, this`running
      requires Queued() && running == {sig}
      ensures Queued() && running == {} && todo == old(todo) - {sig}
      ensures old(Complete()) && (sig in moduleIdx ==> Elaborated(sig)) ==> Complete()
    {
      todo := todo - {sig};
      running := {};
    }

    // ---------------------------------------------------------------
    // Build runs
    // ---------------------------------------------------------------

    /**
     * runIGBuild on the single-threaded path: pop the most recently pushed job and run it
     * until the stack is empty, stopping before the next job when the monitor cancels.
     * Every job that was queued at the start ends elaborated; so does every stored module
     * when each one was elaborated or queued at the start.
     */
    method RunIGBuild(canceled: bool)
      modifies this`db, this`moduleIdx, this`owner, this`nextId, this`errors, this`signaturesIdx, this`instantiatorsIdx, this`todo, this`todoStack, this`running, this`numDone
      requires Valid() && Queued() && running == {} && Live() && EntitiesOk(units)
      ensures Valid() && Queued() && running == {}
      ensures old(Done()) <= Done()
      ensures old(moduleIdx).Keys <= moduleIdx.Keys
      ensures canceled ==> todoStack == old(todoStack)
      ensures !canceled ==> todoStack == [] && todo == {} && old(Sigs(todoStack)) <= Done()
      ensures !canceled && old(Complete()) ==> moduleIdx.Keys <= Done()
      ensures old(errors) <= errors
    {
      ghost var universe := InstanceSigs(units) + Sigs(todoStack);
      ghost var listed := Listed(universe);
      while todoStack != []
        invariant Valid() && Queued() && running == {} && Live()
        invariant Sigs(todoStack) <= universe
        invariant old(Done()) <= Done()
        invariant old(moduleIdx).Keys <= moduleIdx.Keys
        invariant old(Sigs(todoStack)) <= Sigs(todoStack) + Done()
        invariant old(Complete()) ==> Complete()
        invariant canceled ==> todoStack == old(todoStack)
        invariant old(errors) <= errors
        decreases Unfinished(listed, Done())
      {
        if canceled {
          break;
        }
        ghost var done0 := Done();
        var job := RunNext();
        UnfinishedShrinks(listed, done0, Done(), job.signature);
      }
    }

    /** One round of runIGBuild's loop: pop the last pushed job and run it. */
    method RunNext() returns (job: Job)
      modifies this`db, this`moduleIdx, this`owner, this`nextId, this`errors, this`signaturesIdx, this`instantiatorsIdx, this`todo, this`todoStack, this`running, this`numDone
      requires Valid() && Queued() && running == {} && Live() && EntitiesOk(units) && todoStack != []
      ensures job == old(todoStack[|todoStack| - 1])
      ensures Valid() && Queued() && running == {} && Live()
      ensures job.signature in old(Sigs(todoStack)) && job.signature !in old(Done()) && job.signature in Done()
      ensures old(Done()) <= Done()
      ensures forall s | s in old(moduleIdx) :: s in moduleIdx && moduleIdx[s] == old(moduleIdx)[s]
      ensures old(Sigs(todoStack)) <= Sigs(todoStack) + Done()
      ensures Sigs(todoStack) <= old(Sigs(todoStack)) + InstanceSigs(units)
      ensures old(Complete()) ==> Complete()
      ensures old(errors) <= errors
    {
      job := todoStack[|todoStack| - 1];
      var rest := todoStack[..|todoStack| - 1];
      assert todoStack == rest + [job];
      SigsAppend(rest, job);
      todoStack := rest;
      RunJob(job);
      UnitSigsAreInstanceSigs(units, job.uid);
      SigsPrefix(todoStack, |rest|);
      assert todoStack[..|rest|] == rest;
    }

    /**
     * buildIG: an unresolvable toplevel is reported and yields null; otherwise the counter is
     * reset, the todo set and stack are fresh, the toplevel module is requested with
     * elaboration and the jobs are run. A run the monitor does not cancel leaves the toplevel
     * module elaborated.
     */
    method BuildIG(arch: Option<string>, sig: string, canceled: bool) returns (m: Option<ModuleRec>)
      modifies this`db, this`moduleIdx, this`owner, this`nextId, this`errors, this`signaturesIdx, this`instantiatorsIdx, this`todo, this`todoStack, this`running, this`numDone
      requires Valid() && Queued() && running == {} && EntitiesOk(units)
      ensures Valid() && Queued() && running == {}
      ensures arch.None? ==> m.None? && errors == old(errors) + [ToplevelNotFound]
                             && db == old(db) && moduleIdx == old(moduleIdx) && todo == old(todo)
                             && todoStack == old(todoStack) && signaturesIdx == old(signaturesIdx)
                             && instantiatorsIdx == old(instantiatorsIdx) && numDone == old(numDone)
                             && nextId == old(nextId)
      ensures arch.Some? ==> m == old(Fetch(arch.value, sig, []))
      ensures arch.Some? && !canceled ==> todo == {} && todoStack == []
                                          && (m.Some? && m.value.dbid != 0 ==> Elaborated(sig))
                                          && (old(moduleIdx.Keys <= Done()) ==> moduleIdx.Keys <= Done())
      ensures old(errors) <= errors
    {
      if arch.None? {
        errors := errors + [ToplevelNotFound];
        return None;
      }
      m := BuildToplevel(arch.value, sig, canceled);
    }

    /** Lines 419-427: reset the counter, start a fresh todo set and stack, request the toplevel, run the jobs. */
    method BuildToplevel(uid: string, sig: string, canceled: bool) returns (m: Option<ModuleRec>)
      modifies this`db, this`moduleIdx, this`owner, this`nextId, this`errors, this`signaturesIdx, this`instantiatorsIdx, this`todo, this`todoStack, this`running, this`numDone
      requires Valid() && Queued() && running == {} && EntitiesOk(units)
      ensures Valid() && Queued() && running == {}
      ensures m == old(Fetch(uid, sig, []))
      ensures !canceled ==> todo == {} && todoStack == []
      ensures !canceled && m.Some? && m.value.dbid != 0 ==> Elaborated(sig)
      ensures !canceled && old(moduleIdx.Keys <= Done()) ==> moduleIdx.Keys <= Done()
      ensures old(errors) <= errors
    {
      numDone := 0;
      InitIGBuild();
      m := RequestToplevel(uid, sig);
      RunIGBuild(canceled);
    }

    /**
     * A toplevel's module request: getOrCreateIGModule with elaboration and no parent. The
     * module ends elaborated or queued, and a store whose modules were all elaborated or
     * queued stays so. A toplevel whose entity fails is reported and queued unstored.
     */
    method RequestToplevel(uid: string, sig: string) returns (m: Option<ModuleRec>)
      modifies this`db, this`moduleIdx, this`owner, this`nextId, this`errors, this`signaturesIdx, this`instantiatorsIdx, this`todo, this`todoStack
      requires Valid() && Queued() && running == {}
      ensures Valid() && Queued()
      ensures old(Live()) && EntitiesOk(units) ==> Live()
      ensures m == old(Fetch(uid, sig, []))
      ensures m.Some? ==> Elaborated(sig) || sig in Sigs(todoStack)
      ensures IsArchitecture(uid) && units[uid].entityOk ==> sig in moduleIdx
      ensures IsArchitecture(uid) && !units[uid].entityOk && old(sig !in moduleIdx) ==>
                sig !in moduleIdx && m.value.dbid == 0 && errors == old(errors) + [EntityFailed(uid)]
      ensures old(Done()) == Done() && old(moduleIdx).Keys <= moduleIdx.Keys
      ensures old(Complete()) ==> Complete()
      ensures Sigs(old(todoStack)) <= Sigs(todoStack)
      ensures old(errors) <= errors
    {
      ghost var stack0 := todoStack;
      m := GetOrCreateIGModule(None, uid, sig, [], true);
      if todoStack != stack0 {
        SigsAppend(stack0, Job(None, uid, sig, []));
      }
    }

    // ---------------------------------------------------------------
    // rebuildNodes
    // ---------------------------------------------------------------

    /**
     * rebuildNodes: the modules elaborated from the changed units are deleted, the todo set
     * and stack start afresh, every toplevel is requested again and the jobs are run. The
     * answer counts the deleted and the invalidated signatures.
     */
    method RebuildNodes(changed: seq<string>, archOf: map<string, string>,
                        toplevels: seq<Option<(string, string)>>, canceled: bool) returns (n: int)
      modifies this`db, this`moduleIdx, this`owner, this`nextId, this`errors, this`signaturesIdx, this`instantiatorsIdx, this`todo, this`todoStack, this`running, this`numDone
      requires Valid() && Queued() && running == {} && EntitiesOk(units)
      ensures Valid() && Queued() && running == {}
      ensures n == |DeleteSet(changed, archOf, old(signaturesIdx))|
                   + |InvalidateSet(changed, archOf, old(signaturesIdx), old(instantiatorsIdx))|
      ensures !canceled ==> todo == {} && todoStack == []
      ensures !canceled ==> ToplevelSigs(units, toplevels) <= moduleIdx.Keys
      ensures !canceled ==> ToplevelSigs(units, toplevels) <= Done()
      ensures !canceled && old(moduleIdx.Keys <= Done()) ==> moduleIdx.Keys <= Done()
      ensures old(errors) <= errors
    {
      n := Invalidate(changed, archOf);
      Rebuild(toplevels, canceled);
    }

    /** Lines 666-753: collect the affected signatures, delete the modules, count both sets. */
    method Invalidate(changed: seq<string>, archOf: map<string, string>) returns (n: int)
      modifies this`db, this`moduleIdx, this`instantiatorsIdx
      requires Valid()
      ensures Valid()
      ensures n == |DeleteSet(changed, archOf, signaturesIdx)|
                   + |InvalidateSet(changed, archOf, signaturesIdx, old(instantiatorsIdx))|
      ensures moduleIdx == old(moduleIdx) - DeleteSet(changed, archOf, signaturesIdx)
      ensures Done() == old(Done()) - DeleteSet(changed, archOf, signaturesIdx)
      ensures old(moduleIdx.Keys <= Done()) ==> moduleIdx.Keys <= Done()
    {
      var del, inv := CollectAffected(changed, archOf);
      DeleteModules(del);
      n := |del| + |inv|;
    }

    /** Lines 755-819: a fresh todo set and stack, every toplevel requested, the jobs run. */
    method Rebuild(toplevels: seq<Option<(string, string)>>, canceled: bool)
      modifies this`db, this`moduleIdx, this`owner, this`nextId, this`errors, this`signaturesIdx, this`instantiatorsIdx, this`todo, this`todoStack, this`running, this`numDone
      requires Valid() && Queued() && running == {} && EntitiesOk(units)
      ensures Valid() && Queued() && running == {}
      ensures !canceled ==> todo == {} && todoStack == []
      ensures !canceled ==> ToplevelSigs(units, toplevels) <= moduleIdx.Keys
      ensures !canceled ==> ToplevelSigs(units, toplevels) <= Done()
      ensures !canceled && old(moduleIdx.Keys <= Done()) ==> moduleIdx.Keys <= Done()
      ensures old(errors) <= errors
    {
      InitIGBuild();
      RequestToplevels(toplevels, canceled);
      numDone := 0;
      RunIGBuild(canceled);
    }

    /**
     * Lines 671-728: delete collects the SIGNATURES_IDX sets of the changed units'
     * architectures, invalidate those of their instantiators; units without an architecture
     * are skipped.
     */
    method CollectAffected(changed: seq<string>, archOf: map<string, string>) returns (del: set<string>, inv: set<string>)
      ensures del == DeleteSet(changed, archOf, signaturesIdx)
      ensures inv == InvalidateSet(changed, archOf, signaturesIdx, instantiatorsIdx)
    {
      del, inv := {}, {};
      var i := 0;
      while i < |changed|
        invariant 0 <= i <= |changed|
        invariant del == DeleteSet(changed[..i], archOf, signaturesIdx)
        invariant inv == InvalidateSet(changed[..i], archOf, signaturesIdx, instantiatorsIdx)
      {
        AffectedStep(changed, i, archOf, signaturesIdx, instantiatorsIdx);
        if changed[i] in archOf {
          var uid := archOf[changed[i]];
          del := del + SignaturesOf(signaturesIdx, uid);
          if uid in instantiatorsIdx {
            inv := inv + InstantiatorSignatures(signaturesIdx, instantiatorsIdx[uid]);
          }
        }
        i := i + 1;
      }
      assert changed[..i] == changed;
    }

    /**
     * Lines 731-753: every signature of `del` that MODULE_IDX has loses its module: the
     * module's unit leaves the instantiator sets of the units it instantiates, and the
     * MODULE_IDX entry, the unit's own INSTANTIATORS_IDX entry and the record are deleted.
     */
    method DeleteModules(del: set<string>)
      modifies this`db, this`moduleIdx, this`instantiatorsIdx
      requires Valid()
      ensures Valid()
      ensures moduleIdx == old(moduleIdx) - del
      ensures db == old(db) - IdsOf(old(moduleIdx), del)
      ensures instantiatorsIdx == Unlinked(old(instantiatorsIdx), old(moduleIdx), old(db), del)
      ensures Done() == old(Done()) - del
    {
      var rest := del;
      UnlinkedNothing(instantiatorsIdx, moduleIdx, db);
      assert del - rest == {};
      while rest != {}
        invariant rest <= del
        invariant Valid() && owner == old(owner)
        invariant moduleIdx == old(moduleIdx) - (del - rest)
        invariant db == old(db) - IdsOf(old(moduleIdx), del - rest)
        invariant instantiatorsIdx == Unlinked(old(instantiatorsIdx), old(moduleIdx), old(db), del - rest)
        invariant Done() == old(Done()) - (del - rest)
        decreases rest
      {
        var s :| s in rest;
        ghost var gone := del - rest;
        DeleteStepDone(old(moduleIdx), owner, old(db), gone, s);
        if s in old(moduleIdx) {
          DeleteStepIds(old(moduleIdx), owner, old(db), gone, s);
          DeleteStepUnlinked(old(instantiatorsIdx), old(moduleIdx), old(db), gone, s);
        } else {
          DeleteStepAbsent(old(instantiatorsIdx), old(moduleIdx), old(db), gone, s);
        }
        DeleteModule(s);
        assert (del - rest) + {s} == del - (rest - {s});
        rest := rest - {s};
      }
      assert del - rest == del;
    }

    /** Lines 734-753 for one signature. */
    method DeleteModule(sig: string)
      modifies this`db, this`moduleIdx, this`instantiatorsIdx
      requires Valid()
      ensures Valid()
      ensures sig !in old(moduleIdx) ==> db == old(db) && moduleIdx == old(moduleIdx) && instantiatorsIdx == old(instantiatorsIdx)
      ensures sig in old(moduleIdx) ==>
                var id := old(moduleIdx)[sig];
                id in old(db) && moduleIdx == old(moduleIdx) - {sig} && db == old(db) - {id}
                && instantiatorsIdx == RemovedFrom(old(instantiatorsIdx), old(db)[id].duuid, InstantiatedUnits(old(db)[id].structure))
                                       - {old(db)[id].duuid}
    {
      if sig !in moduleIdx {
        return;
      }
      var id := moduleIdx[sig];
      var rec := db[id];
      RemoveFromInstantiators(rec.duuid, rec.structure);
      moduleIdx := moduleIdx - {sig};
      instantiatorsIdx := instantiatorsIdx - {rec.duuid};
      db := db - {id};
    }

    /**
     * removeFromInstantiators: unit `d` leaves the instantiator set of every unit that an
     * instantiation anywhere in the structure tree names, when that set exists.
     */
    method RemoveFromInstantiators(d: string, s: Structure)
      modifies this`instantiatorsIdx
      ensures instantiatorsIdx == RemovedFrom(old(instantiatorsIdx), d, InstantiatedUnits(s))
      decreases s
    {
      var i := 0;
      while i < |s.stmts|
        invariant 0 <= i <= |s.stmts|
        invariant instantiatorsIdx == RemovedFrom(old(instantiatorsIdx), d, UnitsBefore(s, i))
      {
        ghost var before := instantiatorsIdx;
        match s.stmts[i] {
          case Instantiation(_, _, child, _) =>
            RemovedFromOne(before, d, child);
            if child in instantiatorsIdx {
              instantiatorsIdx := instantiatorsIdx[child := instantiatorsIdx[child] - {d}];
            }
            RemovedFromTwice(old(instantiatorsIdx), d, UnitsBefore(s, i), {child});
          case SubStructure(_, b) =>
            RemoveFromInstantiators(d, b);
            RemovedFromTwice(old(instantiatorsIdx), d, UnitsBefore(s, i), InstantiatedUnits(b));
          case OtherStmt =>
        }
        i := i + 1;
      }
    }

    /**
     * Lines 775-813: each toplevel found is requested with elaboration, each one not found is
     * reported; the monitor is asked before each.
     */
    method RequestToplevels(toplevels: seq<Option<(string, string)>>, canceled: bool)
      modifies this`db, this`moduleIdx, this`owner, this`nextId, this`errors, this`signaturesIdx, this`instantiatorsIdx, this`todo, this`todoStack
      requires Valid() && Queued() && running == {}
      ensures Valid() && Queued()
      ensures old(Live()) && EntitiesOk(units) ==> Live()
      ensures old(Complete()) ==> Complete()
      ensures !canceled ==> ToplevelSigs(units, toplevels) <= moduleIdx.Keys
      ensures !canceled ==> ToplevelSigs(units, toplevels) <= Done() + Sigs(todoStack)
      ensures Done() == old(Done())
      ensures old(errors) <= errors
    {
      var i := 0;
      while i < |toplevels|
        invariant 0 <= i <= |toplevels|
        invariant Valid() && Queued()
        invariant old(Live()) && EntitiesOk(units) ==> Live()
        invariant old(Complete()) ==> Complete()
        invariant !canceled ==> ToplevelSigs(units, toplevels[..i]) <= moduleIdx.Keys
        invariant !canceled ==> ToplevelSigs(units, toplevels[..i]) <= Done() + Sigs(todoStack)
        invariant Done() == old(Done())
        invariant old(errors) <= errors
      {
        if canceled {
          break;
        }
        ToplevelSigsStep(units, toplevels, i);
        match toplevels[i] {
          case None =>
            errors := errors + [ToplevelNotFound];
          case Some((uid, sig)) =>
            var _ := RequestToplevel(uid, sig);
        }
        i := i + 1;
      }
      assert toplevels[..i] == toplevels || canceled;
    }
  }

  /** The jobs pushed after `before` all have their signature in `sigs`. */
  predicate Extends(before: seq<Job>, after: seq<Job>, sigs: set<string>) {
    |after| >= |before| && after[..|before|] == before && Sigs(after) <= Sigs(before) + sigs
  }

  /** Pushes that each stay within their signatures stay within both. */
  lemma ExtendsTrans(a: seq<Job>, b: seq<Job>, c: seq<Job>, s: set<string>, t: set<string>)
    requires Extends(a, b, s) && Extends(b, c, t) && t <= s
    ensures Extends(a, c, s)
  {
    assert c[..|a|] == c[..|b|][..|a|];
  }

  /** The jobs of a prefix are among the jobs of the whole list. */
  lemma {:induction false} SigsPrefix(jobs: seq<Job>, n: nat)
    requires n <= |jobs|
    ensures Sigs(jobs[..n]) <= Sigs(jobs)
    decreases |jobs|
  {
    if n < |jobs| {
      SigsPrefix(jobs[..|jobs| - 1], n);
      assert jobs[..|jobs| - 1][..n] == jobs[..n];
    } else {
      assert jobs[..n] == jobs;
    }
  }

  /** The elements of a finite set, listed in some order. */
  ghost function Listed(s: set<string>): (r: seq<string>)
    ensures forall x | x in s :: x in r
    decreases |s|
  {
    if s == {} then [] else var x :| x in s; [x] + Listed(s - {x})
  }

  /** How many entries of `us` are not in `done`. */
  function Unfinished(us: seq<string>, done: set<string>): nat {
    if us == [] then 0 else Unfinished(us[1..], done) + (if us[0] in done then 0 else 1)
  }

  /** Finishing more leaves no more unfinished. */
  lemma {:induction false} UnfinishedMonotone(us: seq<string>, before: set<string>, after: set<string>)
    requires before <= after
    ensures Unfinished(us, after) <= Unfinished(us, before)
  {
    if us != [] {
      UnfinishedMonotone(us[1..], before, after);
    }
  }

  /** Finishing one more listed entry leaves fewer unfinished. */
  lemma {:induction false} UnfinishedShrinks(us: seq<string>, before: set<string>, after: set<string>, s: string)
    requires before <= after && s in us && s !in before && s in after
    ensures Unfinished(us, after) < Unfinished(us, before)
  {
    if us[0] == s {
      UnfinishedMonotone(us[1..], before, after);
    } else {
      UnfinishedShrinks(us[1..], before, after, s);
    }
  }

  /** The signatures a unit's statements instantiate are among all instantiated signatures. */
  lemma UnitSigsAreInstanceSigs(units: map<string, DesignUnit>, uid: string)
    ensures UnitSigs(units, uid) <= InstanceSigs(units)
  {
  }

  /** The signatures SIGNATURES_IDX holds for a unit, none when it has no entry. */
  function SignaturesOf(sigIdx: map<string, set<string>>, uid: string): set<string> {
    if uid in sigIdx then sigIdx[uid] else {}
  }

  /** The signatures SIGNATURES_IDX holds for any of the given units. */
  function InstantiatorSignatures(sigIdx: map<string, set<string>>, uids: set<string>): set<string> {
    set u, s | u in uids && s in SignaturesOf(sigIdx, u) :: s
  }

  /** The signatures to delete: those elaborated from the architecture of a changed unit. */
  function DeleteSet(changed: seq<string>, archOf: map<string, string>, sigIdx: map<string, set<string>>): set<string> {
    set d, s | d in changed && d in archOf && s in SignaturesOf(sigIdx, archOf[d]) :: s
  }

  /** The signatures to invalidate: those elaborated from a unit instantiating such an architecture. */
  function InvalidateSet(changed: seq<string>, archOf: map<string, string>, sigIdx: map<string, set<string>>,
                         instIdx: map<string, set<string>>): set<string> {
    set d, s | d in changed && d in archOf && archOf[d] in instIdx
               && s in InstantiatorSignatures(sigIdx, instIdx[archOf[d]]) :: s
  }

  /** One more changed unit adds its architecture's signatures and those of its instantiators. */
  lemma AffectedStep(changed: seq<string>, i: nat, archOf: map<string, string>,
                     sigIdx: map<string, set<string>>, instIdx: map<string, set<string>>)
    requires i < |changed|
    ensures DeleteSet(changed[..i + 1], archOf, sigIdx)
            == DeleteSet(changed[..i], archOf, sigIdx)
               + (if changed[i] in archOf then SignaturesOf(sigIdx, archOf[changed[i]]) else {})
    ensures InvalidateSet(changed[..i + 1], archOf, sigIdx, instIdx)
            == InvalidateSet(changed[..i], archOf, sigIdx, instIdx)
               + (if changed[i] in archOf && archOf[changed[i]] in instIdx
                  then InstantiatorSignatures(sigIdx, instIdx[archOf[changed[i]]]) else {})
  {
    assert changed[..i + 1] == changed[..i] + [changed[i]];
  }

  /** The ids MODULE_IDX gives the signatures of `sigs` it has. */
  function IdsOf(idx: map<string, int>, sigs: set<string>): set<int> {
    set s | s in sigs && s in idx :: idx[s]
  }

  /** The units of the stored modules of the signatures `sigs`. */
  function DeletedUnits(idx: map<string, int>, db: map<int, ModuleRec>, sigs: set<string>): set<string> {
    set s | s in sigs && s in idx && idx[s] in db :: db[idx[s]].duuid
  }

  /** The units of those modules whose structure instantiates unit u. */
  function Instantiating(idx: map<string, int>, db: map<int, ModuleRec>, sigs: set<string>, u: string): set<string> {
    set s | s in sigs && s in idx && idx[s] in db && u in InstantiatedUnits(db[idx[s]].structure) :: db[idx[s]].duuid
  }

  /**
   * INSTANTIATORS_IDX once the modules of `sigs` are deleted: the entries of their own units
   * are gone, and every other entry has lost the units of the deleted modules instantiating it.
   */
  function Unlinked(inst: map<string, set<string>>, idx: map<string, int>, db: map<int, ModuleRec>,
                    sigs: set<string>): (r: map<string, set<string>>)
    ensures r.Keys == inst.Keys - DeletedUnits(idx, db, sigs)
  {
    map u | u in inst && u !in DeletedUnits(idx, db, sigs) :: inst[u] - Instantiating(idx, db, sigs, u)
  }

  /** With nothing deleted, INSTANTIATORS_IDX is as it was. */
  lemma UnlinkedNothing(inst: map<string, set<string>>, idx: map<string, int>, db: map<int, ModuleRec>)
    ensures Unlinked(inst, idx, db, {}) == inst
  {
    assert DeletedUnits(idx, db, {}) == {};
    forall u | u in inst ensures Unlinked(inst, idx, db, {})[u] == inst[u] {
      assert Instantiating(idx, db, {}, u) == {};
    }
  }

  /** MODULE_IDX maps no two signatures to the same id. */
  predicate Injective(idx: map<string, int>, owner: map<int, string>) {
    forall t | t in idx :: idx[t] in owner && owner[idx[t]] == t
  }

  /** Deleting a signature MODULE_IDX does not have changes nothing. */
  lemma DeleteStepAbsent(inst: map<string, set<string>>, idx: map<string, int>, db: map<int, ModuleRec>,
                         gone: set<string>, s: string)
    requires s !in idx
    ensures idx - (gone + {s}) == idx - gone && IdsOf(idx, gone + {s}) == IdsOf(idx, gone)
    ensures Unlinked(inst, idx, db, gone + {s}) == Unlinked(inst, idx, db, gone)
  {
    assert DeletedUnits(idx, db, gone + {s}) == DeletedUnits(idx, db, gone);
    forall u | u in Unlinked(inst, idx, db, gone)
      ensures Unlinked(inst, idx, db, gone + {s})[u] == Unlinked(inst, idx, db, gone)[u]
    {
      assert Instantiating(idx, db, gone + {s}, u) == Instantiating(idx, db, gone, u);
    }
  }

  /**
   * The record of a signature not yet deleted is still stored under its id, ids being
   * unique, and deleting it and its index entry is deleting one more signature.
   */
  lemma DeleteStepIds(idx: map<string, int>, owner: map<int, string>, db: map<int, ModuleRec>, gone: set<string>, s: string)
    requires s !in gone && s in idx && idx[s] in db && Injective(idx, owner)
    ensures idx[s] in db - IdsOf(idx, gone)
    ensures (idx - gone) - {s} == idx - (gone + {s})
    ensures (db - IdsOf(idx, gone)) - {idx[s]} == db - IdsOf(idx, gone + {s})
  {
    forall t | t in gone && t in idx ensures idx[t] != idx[s] {
      assert owner[idx[t]] == t && owner[idx[s]] == s;
    }
    assert IdsOf(idx, gone + {s}) == IdsOf(idx, gone) + {idx[s]};
  }

  /** Unlinking the module of one more signature from the instantiator sets. */
  lemma DeleteStepUnlinked(inst: map<string, set<string>>, idx: map<string, int>, db: map<int, ModuleRec>,
                           gone: set<string>, s: string)
    requires s !in gone && s in idx && idx[s] in db
    ensures RemovedFrom(Unlinked(inst, idx, db, gone), db[idx[s]].duuid, InstantiatedUnits(db[idx[s]].structure))
              - {db[idx[s]].duuid}
            == Unlinked(inst, idx, db, gone + {s})
  {
    var rec := db[idx[s]];
    DeletedUnitsStep(idx, db, gone, s);
    var l := RemovedFrom(Unlinked(inst, idx, db, gone), rec.duuid, InstantiatedUnits(rec.structure)) - {rec.duuid};
    forall u | u in l ensures l[u] == Unlinked(inst, idx, db, gone + {s})[u] {
      InstantiatingStep(idx, db, gone, s, u);
    }
  }

  /** Deleting one more stored module adds its unit to the deleted units. */
  lemma DeletedUnitsStep(idx: map<string, int>, db: map<int, ModuleRec>, gone: set<string>, s: string)
    requires s in idx && idx[s] in db
    ensures DeletedUnits(idx, db, gone + {s}) == DeletedUnits(idx, db, gone) + {db[idx[s]].duuid}
  {
  }

  /** Deleting one more stored module adds its unit to the instantiators of what it instantiates. */
  lemma InstantiatingStep(idx: map<string, int>, db: map<int, ModuleRec>, gone: set<string>, s: string, u: string)
    requires s in idx && idx[s] in db
    ensures Instantiating(idx, db, gone + {s}, u)
            == Instantiating(idx, db, gone, u)
               + (if u in InstantiatedUnits(db[idx[s]].structure) then {db[idx[s]].duuid} else {})
  {
  }

  /** Deleting the module of one more signature takes exactly it out of the elaborated ones. */
  lemma DeleteStepDone(idx: map<string, int>, owner: map<int, string>, db: map<int, ModuleRec>, gone: set<string>, s: string)
    requires s !in gone && Injective(idx, owner)
    ensures DoneOf(idx - (gone + {s}), db - IdsOf(idx, gone + {s})) == DoneOf(idx - gone, db - IdsOf(idx, gone)) - {s}
  {
    var idx1, db1 := idx - (gone + {s}), db - IdsOf(idx, gone + {s});
    forall t ensures (t in DoneOf(idx1, db1)) == (t in DoneOf(idx - gone, db - IdsOf(idx, gone)) - {s}) {
      if t in idx && t != s && t !in gone {
        forall t2 | t2 in gone + {s} && t2 in idx ensures idx[t2] != idx[t] {
          assert owner[idx[t2]] == t2 && owner[idx[t]] == t;
        }
      }
    }
  }

  /** The signatures of the toplevels found whose unit is an architecture with an elaborating entity. */
  function ToplevelSigs(units: map<string, DesignUnit>, toplevels: seq<Option<(string, string)>>): set<string> {
    set k | 0 <= k < |toplevels| && toplevels[k].Some? && toplevels[k].value.0 in units
                                 && units[toplevels[k].value.0].Architecture?
                                 && units[toplevels[k].value.0].entityOk :: toplevels[k].value.1
  }

  /** One more toplevel adds its signature when it is found and is an architecture. */
  lemma ToplevelSigsStep(units: map<string, DesignUnit>, toplevels: seq<Option<(string, string)>>, i: nat)
    requires i < |toplevels|
    ensures ToplevelSigs(units, toplevels[..i + 1])
            == ToplevelSigs(units, toplevels[..i])
               + (if toplevels[i].Some? && toplevels[i].value.0 in units && units[toplevels[i].value.0].Architecture?
                     && units[toplevels[i].value.0].entityOk
                  then {toplevels[i].value.1} else {})
  {
    var a, b := toplevels[..i + 1], toplevels[..i];
    assert forall k | 0 <= k < i :: a[k] == b[k];
  }
}

=== FILE: IGModules.dfy ===
/**
 * IGModule: an elaborated design unit of the instantiation graph. It owns a structure
 * (a tree of concurrent statements), the ordered list of its actual generic values and the
 * flag telling whether its statements have been elaborated. `accept` walks the structure
 * tree depth first with an explicit stack, descending into the modules that instantiations
 * refer to by signature.
 */
module IGModules {
  import opened Wrappers
  import opened StaticValues

  /** A concurrent statement of a structure. */
  datatype Stmt =
      /** An instantiation of the module with signature `signature`, elaborated from the design unit `child`. */
    | Instantiation(name: string, signature: string, child: string, generics: seq<(string, Value)>)
      /** A nested structure (a generate or block statement); its label may be null. */
    | SubStructure(blockName: Option<string>, body: Structure)
      /** Any other statement (a process, an assignment); it has no children. */
    | OtherStmt

  datatype Structure = Structure(stmts: seq<Stmt>)

  /** A module as the database stores it: `dbid` is 0 while it has never been stored. */
  datatype ModuleRec = ModuleRec(dbid: int, duuid: string, structure: Structure,
                                 generics: seq<Value>, elaborated: bool)

  /** The number of nodes of a structure: itself, its statements, and nested structures counted with their own statements. */
  function Size(s: Structure): (r: nat)
    ensures r >= 1
    decreases s, |s.stmts| + 1
  {
    1 + SizeFrom(s, 0)
  }

  function SizeFrom(s: Structure, i: nat): (r: nat)
    decreases s, |s.stmts| - i
  {
    if i >= |s.stmts| then 0
    else (match s.stmts[i] case SubStructure(_, b) => 1 + Size(b) case _ => 1) + SizeFrom(s, i + 1)
  }

  lemma {:induction false} SizeFromBound(s: Structure, i: nat, k: nat)
    requires i <= k < |s.stmts| && s.stmts[k].SubStructure?
    ensures Size(s.stmts[k].body) < SizeFrom(s, i)
    decreases k - i
  {
    if i < k {
      SizeFromBound(s, i + 1, k);
    }
  }

  /** A nested structure is smaller than the structure holding it. */
  lemma SubStructureSmaller(s: Structure, k: nat)
    requires k < |s.stmts| && s.stmts[k].SubStructure?
    ensures Size(s.stmts[k].body) < Size(s)
  {
    SizeFromBound(s, 0, k);
  }

  /** The instantiations of s.stmts[i..], in statement order, nested structures included. */
  function Instances(s: Structure, i: nat): (r: seq<Stmt>)
    ensures forall k | 0 <= k < |r| :: r[k].Instantiation?
    decreases s, |s.stmts| - i
  {
    if i >= |s.stmts| then []
    else (match s.stmts[i]
          case Instantiation(_, _, _, _) => [s.stmts[i]]
          case SubStructure(_, b) => Instances(b, 0)
          case OtherStmt => [])
         + Instances(s, i + 1)
  }

  // ---------------------------------------------------------------
  // The in-memory module object
  // ---------------------------------------------------------------

  class IGModule {
    const duuid: string
    var structure: Structure
    var actualGenerics: seq<Value>
    var statementsElaborated: bool

    /** A new module: an empty top structure, no generics, statements not elaborated. */
    constructor (duuid: string)
      ensures this.duuid == duuid
      ensures structure == Structure([])
      ensures actualGenerics == [] && !statementsElaborated
    {
      this.duuid := duuid;
      structure := Structure([]);
      actualGenerics := [];
      statementsElaborated := false;
    }

    /** The record that storing this module writes to the database under `dbid`. */
    function Record(dbid: int): (r: ModuleRec)
      reads this
      ensures r.dbid == dbid && r.duuid == duuid && r.structure == structure
      ensures r.generics == actualGenerics && r.elaborated == statementsElaborated
    {
      ModuleRec(dbid, duuid, structure, actualGenerics, statementsElaborated)
    }

    function IsStatementsElaborated(): (r: bool)
      reads this
      ensures r == statementsElaborated
    {
      statementsElaborated
    }

    method SetStatementsElaborated(b: bool)
      modifies this
      ensures statementsElaborated == b
      ensures structure == old(structure) && actualGenerics == old(actualGenerics)
    {
      statementsElaborated := b;
    }

    function NumActualGenerics(): (r: nat)
      reads this
      ensures r == |actualGenerics|
    {
      |actualGenerics|
    }

    /** addActualGeneric: appends; earlier generics keep their positions. */
    method AddActualGeneric(v: Value)
      modifies this
      ensures actualGenerics == old(actualGenerics) + [v]
      ensures NumActualGenerics() == old(NumActualGenerics()) + 1
      ensures forall k | 0 <= k < old(NumActualGenerics()) :: GetActualGeneric(k) == old(GetActualGeneric(k))
      ensures GetActualGeneric(old(NumActualGenerics())) == Ok(v)
      ensures structure == old(structure) && statementsElaborated == old(statementsElaborated)
    {
      actualGenerics := actualGenerics + [v];
    }

    /** getActualGeneric: ArrayList.get, which throws outside [0, size). */
    function GetActualGeneric(idx: int): (r: Result<Value, Error>)
      reads this
      ensures r.Ok? <==> 0 <= idx < |actualGenerics|
      ensures r.Ok? ==> r.value == actualGenerics[idx]
    {
      if 0 <= idx < |actualGenerics| then Ok(actualGenerics[idx]) else Err(IndexOutOfBounds)
    }

    /** getChild: the structure, whatever the index. */
    function GetChild(idx: int): (r: Structure)
      reads this
      ensures r == structure
    {
      structure
    }

    /** getNumChildren: a module has exactly one child, its structure. */
    function NumChildren(): (r: nat)
      ensures r == 1
    {
      1
    }

    /**
     * accept(visitor, maxDepth): the visits the visitor receives, in order, and the error
     * that ends the walk early, if any. `modules` is what findModule answers for each
     * signature. It is the reference traversal Trav started at the module's structure
     * with the empty path.
     */
    method Accept(modules: map<string, ModuleRec>, maxDepth: int) returns (visits: seq<VisitJob>, error: Option<AcceptError>)
      ensures Outcome(visits, error) == Trav(VisitJob([], structure), modules, maxDepth)
      ensures forall v | v in visits :: |v.path| <= maxDepth
      ensures maxDepth >= 0 ==> |visits| > 0 && visits[0] == VisitJob([], structure)
      ensures error.Some? ==> BadSignature(error.value, modules)
    {
      var root := VisitJob([], structure);
      var stack := [root];
      visits := [];
      assert Pending(stack[..0], modules, maxDepth) == Outcome([], None);
      while stack != []
        invariant Then(Outcome(visits, None), Pending(stack, modules, maxDepth)) == Trav(root, modules, maxDepth)
        decreases |Pending(stack, modules, maxDepth).visits|, |stack|
      {
        var job := stack[|stack| - 1];
        var rest := stack[..|stack| - 1];
        assert stack == rest + [job];
        stack := rest;
        if |job.path| > maxDepth {
          SkipStep(job, rest, modules, maxDepth);
          continue;
        }
        visits := visits + [job];
        var cs := ExpandJob(job, modules, maxDepth);
        if cs.Err? {
          error := Some(cs.error);
          VisitFails(visits, job, rest, modules, maxDepth);
          return;
        }
        VisitStep(visits, job, rest, cs.value, modules, maxDepth);
        stack := rest + cs.value;
      }
      error := None;
      ThenIdentity(Outcome(visits, None));
    }
  }

  // ---------------------------------------------------------------
  // The reference traversal
  // ---------------------------------------------------------------

  /** A visit: the structure handed to the visitor and its path of labels. */
  datatype VisitJob = VisitJob(path: seq<string>, structure: Structure)

  datatype AcceptError = MissingModule(signature: string) | UninstantiatedModule(signature: string)

  /** The visits made and the error that stopped the walk, if any. */
  datatype Outcome = Outcome(visits: seq<VisitJob>, error: Option<AcceptError>)

  /** An error names an instantiated signature that findModule misses or whose module is not elaborated. */
  predicate BadSignature(e: AcceptError, modules: map<string, ModuleRec>) {
    match e
    case MissingModule(s) => s !in modules
    case UninstantiatedModule(s) => s in modules && !modules[s].elaborated
  }

  /** Running `a` and then `b`: an error in `a` stops the walk. */
  function Then(a: Outcome, b: Outcome): Outcome {
    if a.error.Some? then a else Outcome(a.visits + b.visits, b.error)
  }

  /** How many more path segments the depth bound allows. */
  function Budget(path: seq<string>, maxDepth: int): nat {
    if |path| > maxDepth then 0 else maxDepth + 1 - |path|
  }

  /** Child jobs are below their parent: a longer path, or the same path and a smaller structure. */
  predicate Below(c: VisitJob, p: VisitJob, maxDepth: int) {
    p.path <= c.path
    && (Budget(c.path, maxDepth) < Budget(p.path, maxDepth)
        || (Budget(c.path, maxDepth) == Budget(p.path, maxDepth) && Size(c.structure) < Size(p.structure)))
  }

  /**
   * The jobs pushed for a list of statements, in push order: an instantiation pushes the
   * structure of the module it names under path + label, after checking the module is
   * found and elaborated; a nested structure is pushed under path + label, or under path
   * itself when it has no label; other statements push nothing.
   */
  function Children(s: Structure, i: nat, path: seq<string>, modules: map<string, ModuleRec>): (r: Result<seq<VisitJob>, AcceptError>)
    ensures r.Ok? ==> forall k | 0 <= k < |r.value| ::
              (r.value[k].path == path && Size(r.value[k].structure) < Size(s))
              || (|r.value[k].path| == |path| + 1 && path <= r.value[k].path)
    ensures r.Err? ==> BadSignature(r.error, modules)
    decreases |s.stmts| - i
  {
    if i >= |s.stmts| then Ok([])
    else
      var here: Result<seq<VisitJob>, AcceptError> := (
        match s.stmts[i]
        case Instantiation(name, sig, _, _) =>
          if sig !in modules then Err(MissingModule(sig))
          else if !modules[sig].elaborated then Err(UninstantiatedModule(sig))
          else Ok([VisitJob(path + [name], modules[sig].structure)])
        case SubStructure(name, b) =>
          SubStructureSmaller(s, i);
          Ok([VisitJob(if name.None? then path else path + [name.value], b)])
        case OtherStmt => Ok([]));
      if here.Err? then Err(here.error)
      else match Children(s, i + 1, path, modules)
        case Err(e) => Err(e)
        case Ok(cs) => Ok(here.value + cs)
  }

  /**
   * The walk from job `j`: nothing when its path is deeper than the bound; otherwise the
   * visit of j, then (unless its statements hold a bad instantiation) the walks of its
   * children, the last pushed first.
   */
  function Trav(j: VisitJob, modules: map<string, ModuleRec>, maxDepth: int): (r: Outcome)
    ensures forall v | v in r.visits :: |v.path| <= maxDepth && j.path <= v.path
    ensures |j.path| <= maxDepth ==> |r.visits| > 0 && r.visits[0] == j
    ensures |j.path| > maxDepth ==> r == Outcome([], None)
    ensures r.error.Some? ==> BadSignature(r.error.value, modules)
    decreases Budget(j.path, maxDepth), Size(j.structure), 1, 0
  {
    if |j.path| > maxDepth then Outcome([], None)
    else match Children(j.structure, 0, j.path, modules)
      case Err(e) => Outcome([j], Some(e))
      case Ok(cs) =>
        var r := RunJobs(cs, j, modules, maxDepth);
        Outcome([j] + r.visits, r.error)
  }

  /** The walks of the jobs `cs`, last first, stopping at the first error. */
  function RunJobs(cs: seq<VisitJob>, parent: VisitJob, modules: map<string, ModuleRec>, maxDepth: int): (r: Outcome)
    requires forall k | 0 <= k < |cs| :: Below(cs[k], parent, maxDepth)
    ensures forall v | v in r.visits :: |v.path| <= maxDepth && parent.path <= v.path
    ensures r.error.Some? ==> BadSignature(r.error.value, modules)
    decreases Budget(parent.path, maxDepth), Size(parent.structure), 0, |cs|
  {
    if |cs| == 0 then Outcome([], None)
    else
      var last := cs[|cs| - 1];
      assert Below(last, parent, maxDepth);
      var a := Trav(last, modules, maxDepth);
      var b := RunJobs(cs[..|cs| - 1], parent, modules, maxDepth);
      assert forall v | v in a.visits :: parent.path <= v.path by {
        forall v | v in a.visits ensures parent.path <= v.path {
          PrefixTransitive(parent.path, last.path, v.path);
        }
      }
      Then(a, b)
  }

  /** The walks of a whole stack, top (last) first. */
  function Pending(stack: seq<VisitJob>, modules: map<string, ModuleRec>, maxDepth: int): Outcome
    decreases |stack|
  {
    if |stack| == 0 then Outcome([], None)
    else Then(Trav(stack[|stack| - 1], modules, maxDepth), Pending(stack[..|stack| - 1], modules, maxDepth))
  }

  lemma PrefixTransitive(a: seq<string>, b: seq<string>, c: seq<string>)
    requires a <= b && b <= c
    ensures a <= c
  {
    assert c[..|a|] == b[..|a|];
  }

  /** A job's children lie below it, so the walk of them is RunJobs. */
  lemma ChildrenBelow(j: VisitJob, modules: map<string, ModuleRec>, maxDepth: int)
    requires |j.path| <= maxDepth && Children(j.structure, 0, j.path, modules).Ok?
    ensures forall k | 0 <= k < |Children(j.structure, 0, j.path, modules).value| ::
              Below(Children(j.structure, 0, j.path, modules).value[k], j, maxDepth)
  {
  }

  // ---------------------------------------------------------------
  // Laws of the walk used by Accept
  // ---------------------------------------------------------------

  lemma ThenIdentity(a: Outcome)
    ensures Then(a, Outcome([], None)) == a
  {
    assert a.visits + [] == a.visits;
  }

  lemma ThenAssociative(a: Outcome, b: Outcome, c: Outcome)
    ensures Then(Then(a, b), c) == Then(a, Then(b, c))
  {
    if a.error.None? && b.error.None? {
      assert (a.visits + b.visits) + c.visits == a.visits + (b.visits + c.visits);
    }
  }

  /** Pending over a stack with jobs pushed on top: the pushed jobs' walks come first. */
  lemma {:induction false} PendingAppend(rest: seq<VisitJob>, cs: seq<VisitJob>, modules: map<string, ModuleRec>, maxDepth: int)
    ensures Pending(rest + cs, modules, maxDepth) == Then(Pending(cs, modules, maxDepth), Pending(rest, modules, maxDepth))
    decreases |cs|
  {
    if |cs| == 0 {
      assert rest + cs == rest;
    } else {
      var last := cs[|cs| - 1];
      assert (rest + cs)[..|rest + cs| - 1] == rest + cs[..|cs| - 1];
      PendingAppend(rest, cs[..|cs| - 1], modules, maxDepth);
      ThenAssociative(Trav(last, modules, maxDepth), Pending(cs[..|cs| - 1], modules, maxDepth), Pending(rest, modules, maxDepth));
    }
  }

  /** For jobs below a common parent, Pending and RunJobs agree. */
  lemma {:induction false} PendingIsRunJobs(cs: seq<VisitJob>, parent: VisitJob, modules: map<string, ModuleRec>, maxDepth: int)
    requires forall k | 0 <= k < |cs| :: Below(cs[k], parent, maxDepth)
    ensures Pending(cs, modules, maxDepth) == RunJobs(cs, parent, modules, maxDepth)
    decreases |cs|
  {
    if |cs| > 0 {
      PendingIsRunJobs(cs[..|cs| - 1], parent, modules, maxDepth);
    }
  }

  /** Popping the top of a stack. */
  lemma PendingPop(rest: seq<VisitJob>, job: VisitJob, modules: map<string, ModuleRec>, maxDepth: int)
    ensures Pending(rest + [job], modules, maxDepth) == Then(Trav(job, modules, maxDepth), Pending(rest, modules, maxDepth))
  {
    assert (rest + [job])[..|rest|] == rest;
  }

  /** A job deeper than the bound is popped without a visit. */
  lemma SkipStep(job: VisitJob, rest: seq<VisitJob>, modules: map<string, ModuleRec>, maxDepth: int)
    requires |job.path| > maxDepth
    ensures Pending(rest + [job], modules, maxDepth) == Pending(rest, modules, maxDepth)
  {
    PendingPop(rest, job, modules, maxDepth);
    assert [] + Pending(rest, modules, maxDepth).visits == Pending(rest, modules, maxDepth).visits;
  }

  /** The walk from a job that passes the depth check and whose children are cs. */
  lemma TravUnfold(job: VisitJob, cs: seq<VisitJob>, modules: map<string, ModuleRec>, maxDepth: int)
    requires |job.path| <= maxDepth
    requires Children(job.structure, 0, job.path, modules) == Ok(cs)
    ensures Trav(job, modules, maxDepth)
            == Outcome([job] + Pending(cs, modules, maxDepth).visits, Pending(cs, modules, maxDepth).error)
  {
    ChildrenBelow(job, modules, maxDepth);
    PendingIsRunJobs(cs, job, modules, maxDepth);
  }

  /** Popping a job, visiting it and pushing its children keeps the outstanding walk. */
  lemma VisitStep(visits: seq<VisitJob>, job: VisitJob, rest: seq<VisitJob>, cs: seq<VisitJob>,
                  modules: map<string, ModuleRec>, maxDepth: int)
    requires |job.path| <= maxDepth && |visits| > 0 && visits[|visits| - 1] == job
    requires Children(job.structure, 0, job.path, modules) == Ok(cs)
    ensures Then(Outcome(visits[..|visits| - 1], None), Pending(rest + [job], modules, maxDepth))
            == Then(Outcome(visits, None), Pending(rest + cs, modules, maxDepth))
    ensures |Pending(rest + cs, modules, maxDepth).visits| < |Pending(rest + [job], modules, maxDepth).visits|
  {
    PendingPop(rest, job, modules, maxDepth);
    TravUnfold(job, cs, modules, maxDepth);
    PendingAppend(rest, cs, modules, maxDepth);
    var p := Pending(rest, modules, maxDepth);
    var r := Pending(cs, modules, maxDepth);
    ThenVisit(visits[..|visits| - 1], job, r, p);
    assert visits[..|visits| - 1] + [job] == visits;
  }

  lemma ThenVisit(before: seq<VisitJob>, job: VisitJob, r: Outcome, p: Outcome)
    ensures Then(Outcome(before, None), Then(Outcome([job] + r.visits, r.error), p))
            == Then(Outcome(before + [job], None), Then(r, p))
    ensures |Then(r, p).visits| < |Then(Outcome([job] + r.visits, r.error), p).visits|
  {
    assert before + ([job] + r.visits) == before + [job] + r.visits;
    assert before + ([job] + r.visits + p.visits) == before + [job] + (r.visits + p.visits);
  }

  /** Popping a job whose statements hold a bad instantiation ends the walk with that error. */
  lemma VisitFails(visits: seq<VisitJob>, job: VisitJob, rest: seq<VisitJob>,
                   modules: map<string, ModuleRec>, maxDepth: int)
    requires |job.path| <= maxDepth && |visits| > 0 && visits[|visits| - 1] == job
    requires Children(job.structure, 0, job.path, modules).Err?
    ensures Then(Outcome(visits[..|visits| - 1], None), Pending(rest + [job], modules, maxDepth))
            == Outcome(visits, Some(Children(job.structure, 0, job.path, modules).error))
  {
    assert (rest + [job])[..|rest|] == rest;
    assert visits[..|visits| - 1] + [job] == visits;
  }

  /** The children of one job, pushed statement by statement as accept does. */
  method ExpandJob(job: VisitJob, modules: map<string, ModuleRec>, maxDepth: int) returns (r: Result<seq<VisitJob>, AcceptError>)
    ensures r == Children(job.structure, 0, job.path, modules)
  {
    var st := job.structure;
    var path := job.path;
    var pushed: seq<VisitJob> := [];
    var i := 0;
    PrependJobsEmpty(Children(st, 0, path, modules));
    while i < |st.stmts|
      invariant 0 <= i <= |st.stmts|
      invariant Children(st, 0, path, modules) == PrependJobs(pushed, Children(st, i, path, modules))
    {
      var here: seq<VisitJob>;
      match st.stmts[i] {
        case Instantiation(name, sig, _, _) =>
          if sig !in modules {
            assert Children(st, i, path, modules) == Err(MissingModule(sig));
            return Err(MissingModule(sig));
          }
          if !modules[sig].elaborated {
            assert Children(st, i, path, modules) == Err(UninstantiatedModule(sig));
            return Err(UninstantiatedModule(sig));
          }
          here := [VisitJob(path + [name], modules[sig].structure)];
        case SubStructure(name, b) =>
          var cp := if name.None? then path else path + [name.value];
          here := [VisitJob(cp, b)];
        case OtherStmt =>
          here := [];
      }
      PrependJobsStep(pushed, here, Children(st, i + 1, path, modules));
      pushed := pushed + here;
      i := i + 1;
    }
    assert pushed + [] == pushed;
    r := Ok(pushed);
  }

  function PrependJobs(vs: seq<VisitJob>, r: Result<seq<VisitJob>, AcceptError>): Result<seq<VisitJob>, AcceptError> {
    if r.Ok? then Ok(vs + r.value) else r
  }

  lemma PrependJobsEmpty(r: Result<seq<VisitJob>, AcceptError>)
    ensures PrependJobs([], r) == r
  {
    if r.Ok? {
      assert [] + r.value == r.value;
    }
  }

  lemma PrependJobsStep(vs: seq<VisitJob>, here: seq<VisitJob>, r: Result<seq<VisitJob>, AcceptError>)
    ensures PrependJobs(vs, PrependJobs(here, r)) == PrependJobs(vs + here, r)
  {
    if r.Ok? {
      assert vs + (here + r.value) == (vs + here) + r.value;
    }
  }
}

=== FILE: OperationLaws.dfy ===
/**
 * What computeUnary and computeBinary promise, proved about UnaryResult and BinaryResult:
 * exact BigInteger arithmetic, comparisons that yield the result type's literal 1 or 0,
 * enumeration ordinal arithmetic, the logic gates lifted to values and to arrays, and
 * NOT as an involution.
 */
module OperationLaws {
  import opened Wrappers
  import opened StdLogic
  import opened StaticValues
  import opened StaticValueOps

  /** A result type that is neither INTEGER, REAL nor PHYSICAL, so the operand types decide. */
  predicate NonNumeric(rt: Ty) {
    !rt.IntegerTy? && !rt.RealTy? && !rt.PhysicalTy?
  }

  /** A BOOLEAN-like result type: an enumeration with at least the literals 0 and 1. */
  predicate TruthType(rt: Ty) {
    rt.EnumTy? && |rt.lits| >= 2
  }

  // ---------------------------------------------------------------
  // Integer arithmetic
  // ---------------------------------------------------------------

  /** BigInteger.divide truncates toward zero: x = y * q + rem with |rem| < |y| and rem of x's sign. */
  lemma JavaDivTruncates(x: int, y: int)
    requires y != 0
    ensures var q := JavaDiv(x, y);
            var rem := x - y * q;
            Abs(rem) < Abs(y) && (rem == 0 || (rem < 0 <==> x < 0))
  {
    var q0 := Abs(x) / Abs(y);
    var m0 := Abs(x) % Abs(y);
    assert Abs(x) == Abs(y) * q0 + m0;
    if x >= 0 && y > 0 {
      assert x - y * JavaDiv(x, y) == m0;
    } else if x < 0 && y > 0 {
      assert y * JavaDiv(x, y) == -(y * q0);
      assert x - y * JavaDiv(x, y) == -m0;
    } else if x >= 0 && y < 0 {
      assert y * JavaDiv(x, y) == -y * q0;
      assert x - y * JavaDiv(x, y) == m0;
    } else {
      assert y * JavaDiv(x, y) == y * q0;
      assert x - y * JavaDiv(x, y) == -m0;
    }
  }

  lemma IntegerDispatch(a: Value, b: Value, op: BinOp, rt: Ty)
    requires rt.IntegerTy?
    ensures BinaryResult(a, b, op, rt) == IntegerResult(a, b, op, rt)
  {
  }

  lemma EnumDispatch(a: Value, b: Value, op: BinOp, rt: Ty)
    requires NonNumeric(rt) && !a.BoolDup? && a.ty.EnumTy?
    ensures BinaryResult(a, b, op, rt) == EnumResult(a, b, op, rt)
  {
  }

  /** Two INTEGER values under an INTEGER result type: the arithmetic is BigInteger's. */
  lemma IntegerOperands(x: int, y: int, op: BinOp)
    requires IsIntArith(op)
    ensures BinaryResult(IntVal(IntegerTy, x), IntVal(IntegerTy, y), op, IntegerTy)
            == (var n := IntArith(x, y, op); if n.Err? then Err(n.error) else Ok(IntVal(IntegerTy, n.value)))
  {
    IntegerDispatch(IntVal(IntegerTy, x), IntVal(IntegerTy, y), op, IntegerTy);
  }

  /** ADD, SUB and MUL on INTEGER values are exact: there is no wrap-around. */
  lemma IntegerExact(x: int, y: int)
    ensures BinaryResult(IntVal(IntegerTy, x), IntVal(IntegerTy, y), ADD, IntegerTy) == Ok(IntVal(IntegerTy, x + y))
    ensures BinaryResult(IntVal(IntegerTy, x), IntVal(IntegerTy, y), SUB, IntegerTy) == Ok(IntVal(IntegerTy, x - y))
    ensures BinaryResult(IntVal(IntegerTy, x), IntVal(IntegerTy, y), MUL, IntegerTy) == Ok(IntVal(IntegerTy, x * y))
  {
    IntegerOperands(x, y, ADD);
    IntegerOperands(x, y, SUB);
    IntegerOperands(x, y, MUL);
  }

  /** DIV fails exactly on a zero divisor and otherwise truncates toward zero. */
  lemma IntegerDivision(x: int, y: int)
    ensures var r := BinaryResult(IntVal(IntegerTy, x), IntVal(IntegerTy, y), DIV, IntegerTy);
            (r.Ok? <==> y != 0)
            && (r.Ok? ==> r.value.IntVal? && Abs(x - y * r.value.num) < Abs(y)
                          && (x - y * r.value.num == 0 || (x - y * r.value.num < 0 <==> x < 0)))
  {
    IntegerOperands(x, y, DIV);
    if y != 0 {
      JavaDivTruncates(x, y);
    }
  }

  /** MOD and REM fail exactly on a non-positive modulus and otherwise give the residue in [0, y). */
  lemma IntegerModulus(x: int, y: int, op: BinOp)
    requires op == MOD || op == REM
    ensures var r := BinaryResult(IntVal(IntegerTy, x), IntVal(IntegerTy, y), op, IntegerTy);
            (r.Ok? <==> y > 0)
            && (r.Ok? ==> r.value.IntVal? && 0 <= r.value.num < y && (x - r.value.num) % y == 0)
  {
    IntegerOperands(x, y, op);
    if y > 0 {
      assert x - x % y == y * (x / y);
      MultipleHasNoResidue(y, x / y);
    }
  }

  lemma MultipleHasNoResidue(y: int, k: int)
    requires y > 0
    ensures (y * k) % y == 0
  {
    var m := y * k;
    var d := k - m / y;
    assert y * d == m % y;
  }

  /** MAX and MIN pick the larger and the smaller operand. */
  lemma IntegerExtrema(x: int, y: int)
    ensures var r := BinaryResult(IntVal(IntegerTy, x), IntVal(IntegerTy, y), MAX, IntegerTy);
            r.Ok? && r.value.IntVal? && r.value.num >= x && r.value.num >= y && (r.value.num == x || r.value.num == y)
    ensures var r := BinaryResult(IntVal(IntegerTy, x), IntVal(IntegerTy, y), MIN, IntegerTy);
            r.Ok? && r.value.IntVal? && r.value.num <= x && r.value.num <= y && (r.value.num == x || r.value.num == y)
  {
    IntegerOperands(x, y, MAX);
    IntegerOperands(x, y, MIN);
  }

  /**
   * POWER raises to the exponent's int value (its low 32 bits, read as signed) and fails when
   * that is negative: an exponent of 2^32 gives x^0, one of 2^31 fails.
   */
  lemma IntegerPower(x: int, y: int)
    ensures BinaryResult(IntVal(IntegerTy, x), IntVal(IntegerTy, y), POWER, IntegerTy)
            == if Wrap32(y) < 0 then Err(ArithmeticError) else Ok(IntVal(IntegerTy, Pow(x, Wrap32(y))))
    ensures -TWO_32 / 2 <= y < TWO_32 / 2 ==> Wrap32(y) == y
  {
    IntegerOperands(x, y, POWER);
  }

  /** REM is computed exactly like MOD, for every pair of operands and every result type. */
  lemma RemIsMod(a: Value, b: Value, rt: Ty)
    ensures BinaryResult(a, b, REM, rt) == BinaryResult(a, b, MOD, rt)
  {
    if rt.IntegerTy? {
      IntegerRemIsMod(a, b, rt);
    } else if rt.RealTy? || rt.PhysicalTy? {
      RealRemIsMod(a, b, rt);
    } else if !a.BoolDup? && a.ty.ArrayTy? {
      ArrayRemIsMod(a, b, rt);
    } else if !a.BoolDup? && a.ty.EnumTy? {
      EnumRemIsMod(a, b, rt);
    } else {
      OtherRemIsMod(a, b, rt);
    }
  }

  lemma IntegerRemIsMod(a: Value, b: Value, rt: Ty)
    requires rt.IntegerTy?
    ensures BinaryResult(a, b, REM, rt) == BinaryResult(a, b, MOD, rt)
  {
    IntegerDispatch(a, b, REM, rt);
    IntegerDispatch(a, b, MOD, rt);
    assert IntegerResult(a, b, REM, rt) == IntegerResult(a, b, MOD, rt);
  }

  lemma RealRemIsMod(a: Value, b: Value, rt: Ty)
    requires rt.RealTy? || rt.PhysicalTy?
    ensures BinaryResult(a, b, REM, rt) == BinaryResult(a, b, MOD, rt)
  {
    assert BinaryResult(a, b, REM, rt) == Err(Unsupported) == BinaryResult(a, b, MOD, rt);
  }

  lemma ArrayRemIsMod(a: Value, b: Value, rt: Ty)
    requires NonNumeric(rt) && !a.BoolDup? && a.ty.ArrayTy?
    ensures BinaryResult(a, b, REM, rt) == BinaryResult(a, b, MOD, rt)
  {
    ArrayDispatch(a, b, REM, rt);
    ArrayDispatch(a, b, MOD, rt);
    assert ArrayResult(a, b, REM, rt) == ArrayResult(a, b, MOD, rt);
  }

  lemma EnumRemIsMod(a: Value, b: Value, rt: Ty)
    requires NonNumeric(rt) && !a.BoolDup? && a.ty.EnumTy?
    ensures BinaryResult(a, b, REM, rt) == BinaryResult(a, b, MOD, rt)
  {
    EnumDispatch(a, b, REM, rt);
    EnumDispatch(a, b, MOD, rt);
    assert EnumResult(a, b, REM, rt) == EnumResult(a, b, MOD, rt);
  }

  lemma OtherRemIsMod(a: Value, b: Value, rt: Ty)
    requires NonNumeric(rt) && (a.BoolDup? || !(a.ty.ArrayTy? || a.ty.EnumTy?))
    ensures BinaryResult(a, b, REM, rt) == BinaryResult(a, b, MOD, rt)
  {
    OtherOperands(a, b, REM, rt);
    OtherOperands(a, b, MOD, rt);
  }

  /** Operands that are neither arrays nor enumerations admit only comparisons under a non-numeric result type. */
  lemma OtherOperands(a: Value, b: Value, op: BinOp, rt: Ty)
    requires NonNumeric(rt) && (a.BoolDup? || !(a.ty.ArrayTy? || a.ty.EnumTy?)) && !IsComparison(op)
    ensures BinaryResult(a, b, op, rt) == if a.BoolDup? then Err(NullValue) else Err(Unsupported)
  {
  }

  /** Operators outside the integer switch are refused on INTEGER results. */
  lemma IntegerRefusesOtherOps(x: int, y: int, op: BinOp)
    requires !IsIntArith(op)
    ensures BinaryResult(IntVal(IntegerTy, x), IntVal(IntegerTy, y), op, IntegerTy) == Err(Unsupported)
  {
  }

  // ---------------------------------------------------------------
  // Comparisons
  // ---------------------------------------------------------------

  /** The meaning of each comparison operator, independently of compareTo. */
  predicate IntRelation(op: BinOp, x: int, y: int)
    requires IsComparison(op)
  {
    match op
    case EQUAL => x == y
    case NEQUAL => x != y
    case GREATER => x > y
    case GREATEREQ => x >= y
    case LESS => x < y
    case LESSEQ => x <= y
  }

  predicate RealRelation(op: BinOp, x: real, y: real)
    requires IsComparison(op)
  {
    match op
    case EQUAL => x == y
    case NEQUAL => x != y
    case GREATER => x > y
    case GREATEREQ => x >= y
    case LESS => x < y
    case LESSEQ => x <= y
  }

  /** Comparing two INTEGER values yields literal 1 of the result type when the relation holds and literal 0 otherwise. */
  lemma IntegerComparison(a: Value, b: Value, op: BinOp, rt: Ty)
    requires IsComparison(op) && NonNumeric(rt) && TruthType(rt)
    requires HasType(a, IntegerTy) && HasType(b, IntegerTy)
    ensures BinaryResult(a, b, op, rt).Ok?
    ensures HasType(BinaryResult(a, b, op, rt).value, rt)
    ensures BinaryResult(a, b, op, rt).value.ord == (if IntRelation(op, a.num, b.num) then 1 else 0)
  {
  }

  /** Comparing two REAL values yields literal 1 of the result type when the relation holds and literal 0 otherwise. */
  lemma RealComparison(a: Value, b: Value, op: BinOp, rt: Ty)
    requires IsComparison(op) && NonNumeric(rt) && TruthType(rt)
    requires HasType(a, RealTy) && HasType(b, RealTy)
    ensures BinaryResult(a, b, op, rt).Ok?
    ensures HasType(BinaryResult(a, b, op, rt).value, rt)
    ensures BinaryResult(a, b, op, rt).value.ord == (if RealRelation(op, a.r, b.r) then 1 else 0)
  {
  }

  /** An enumeration type whose literal positions fit in a Java int. */
  predicate SmallEnum(t: Ty) {
    t.EnumTy? && |t.lits| <= TWO_32 / 4
  }

  /** Enumeration literals compare by position, yielding literal 1 or 0 of the result type. */
  lemma EnumComparison(a: Value, b: Value, t: Ty, op: BinOp, rt: Ty)
    requires IsComparison(op) && NonNumeric(rt) && TruthType(rt) && SmallEnum(t)
    requires HasType(a, t) && HasType(b, t)
    ensures BinaryResult(a, b, op, rt).Ok?
    ensures BinaryResult(a, b, op, rt).value.ord == (if IntRelation(op, a.ord, b.ord) then 1 else 0)
  {
    LiteralsOfSmallEnum(a, b, t);
    EnumDispatch(a, b, op, rt);
    EnumCompareOrdinals(a, b, op, rt);
  }

  /** The enumeration branch on two literals whose positions fit in an int. */
  predicate SmallLiterals(a: Value, b: Value) {
    !a.BoolDup? && a.ty.EnumTy? && (a.EnumVal? || a.CharVal?) && (b.EnumVal? || b.CharVal?)
    && 0 <= a.ord < TWO_32 / 4 && 0 <= b.ord < TWO_32 / 4
  }

  lemma LiteralsOfSmallEnum(a: Value, b: Value, t: Ty)
    requires SmallEnum(t) && HasType(a, t) && HasType(b, t)
    ensures SmallLiterals(a, b) && a.ty == t
  {
  }

  lemma EnumAddOrdinals(a: Value, b: Value, rt: Ty)
    requires SmallLiterals(a, b)
    ensures EnumResult(a, b, ADD, rt) == EnumLiteral(rt, Wrap32(a.ord + b.ord))
  {
    assert GetOrd(a) == Ok(a.ord) && GetOrd(b) == Ok(b.ord);
    assert EnumResult(a, b, ADD, rt) == EnumLiteral(rt, Wrap32(Wrap32(a.ord) + Wrap32(b.ord)));
    assert Wrap32(a.ord) == a.ord && Wrap32(b.ord) == b.ord;
  }

  lemma EnumSubOrdinals(a: Value, b: Value, rt: Ty)
    requires SmallLiterals(a, b)
    ensures EnumResult(a, b, SUB, rt) == EnumLiteral(rt, Wrap32(a.ord - b.ord))
  {
    assert GetOrd(a) == Ok(a.ord) && GetOrd(b) == Ok(b.ord);
    assert EnumResult(a, b, SUB, rt) == EnumLiteral(rt, Wrap32(Wrap32(a.ord) - Wrap32(b.ord)));
    assert Wrap32(a.ord) == a.ord && Wrap32(b.ord) == b.ord;
  }

  lemma EnumCompareOrdinals(a: Value, b: Value, op: BinOp, rt: Ty)
    requires SmallLiterals(a, b) && IsComparison(op)
    ensures EnumResult(a, b, op, rt) == TruthLiteral(rt, Holds(op, IntCompare(a.ord, b.ord)))
  {
    assert GetOrd(a) == Ok(a.ord) && GetOrd(b) == Ok(b.ord);
    assert EnumResult(a, b, op, rt) == TruthLiteral(rt, Holds(op, IntCompare(Wrap32(a.ord), Wrap32(b.ord))));
    assert Wrap32(a.ord) == a.ord && Wrap32(b.ord) == b.ord;
  }

  /** ADD on enumeration literals adds positions and selects that literal of the result type. */
  lemma EnumOrdinalAdd(a: Value, b: Value, t: Ty, rt: Ty)
    requires NonNumeric(rt) && SmallEnum(t)
    requires HasType(a, t) && HasType(b, t)
    ensures BinaryResult(a, b, ADD, rt) == EnumLiteral(rt, a.ord + b.ord)
  {
    LiteralsOfSmallEnum(a, b, t);
    EnumDispatch(a, b, ADD, rt);
    EnumAddOrdinals(a, b, rt);
    assert Wrap32(a.ord + b.ord) == a.ord + b.ord;
  }

  /** SUB on enumeration literals subtracts positions and selects that literal of the result type. */
  lemma EnumOrdinalSub(a: Value, b: Value, t: Ty, rt: Ty)
    requires NonNumeric(rt) && SmallEnum(t)
    requires HasType(a, t) && HasType(b, t)
    ensures BinaryResult(a, b, SUB, rt) == EnumLiteral(rt, a.ord - b.ord)
  {
    LiteralsOfSmallEnum(a, b, t);
    EnumDispatch(a, b, SUB, rt);
    EnumSubOrdinals(a, b, rt);
    assert Wrap32(a.ord - b.ord) == a.ord - b.ord;
  }

  // ---------------------------------------------------------------
  // Gates on BOOLEAN and logic literals
  // ---------------------------------------------------------------

  /** A BOOLEAN type: two identifier literals, FALSE then TRUE. */
  predicate BooleanType(t: Ty) {
    t.EnumTy? && t.isBool && |t.lits| == 2 && t.lits[0].IdLit? && t.lits[1].IdLit?
  }

  /** On BOOLEAN operands the gates are the boolean operators, giving literal TRUE or FALSE of the operand type. */
  lemma BooleanGates(a: Value, b: Value, t: Ty, op: BinOp, rt: Ty)
    requires IsGate(op) && NonNumeric(rt) && BooleanType(t)
    requires HasType(a, t) && HasType(b, t)
    ensures BinaryResult(a, b, op, rt) == Ok(EnumVal(t, if BoolGate(op, a.ord == 1, b.ord == 1) then 1 else 0))
  {
    LiteralsOfBoolean(a, b, t);
    EnumDispatch(a, b, op, rt);
    BooleanGateOrdinals(a, b, op, rt);
  }

  lemma LiteralsOfBoolean(a: Value, b: Value, t: Ty)
    requires BooleanType(t) && HasType(a, t) && HasType(b, t)
    ensures a.EnumVal? && b.EnumVal? && a.ty == t && b.ty == t
    ensures 0 <= a.ord < 2 && 0 <= b.ord < 2
  {
  }

  lemma BooleanGateOrdinals(a: Value, b: Value, op: BinOp, rt: Ty)
    requires IsGate(op) && a.EnumVal? && b.EnumVal? && BooleanType(a.ty) && 0 <= a.ord < 2 && 0 <= b.ord < 2
    ensures EnumResult(a, b, op, rt) == Ok(EnumVal(a.ty, if BoolGate(op, a.ord == 1, b.ord == 1) then 1 else 0))
  {
    assert GetOrd(a) == Ok(a.ord) && GetOrd(b) == Ok(b.ord);
    assert IsTrue(a) == (a.ord == 1) && IsTrue(b) == (b.ord == 1);
    assert EnumResult(a, b, op, rt) == TruthLiteral(a.ty, BoolGate(op, IsTrue(a), IsTrue(b)));
  }

  /** A logic enumeration type (std_logic, std_ulogic) that has the literals '0', '1' and 'X'. */
  predicate LogicType(t: Ty) {
    t.EnumTy? && t.isLogic && !t.isBool && SmallEnum(t)
    && CharLit('0') in t.lits && CharLit('1') in t.lits && CharLit('X') in t.lits
  }

  /** Every gate answers one of its operands, '0', '1' or 'X'. */
  lemma CharGateRange(op: BinOp, x: char, y: char)
    requires IsGate(op)
    ensures CharGate(op, x, y) in {x, y, '0', '1', 'X'}
  {
  }

  /**
   * On character literals of a logic type the gates apply the 9-valued rules and return
   * the literal of the operand type for the resulting character.
   */
  lemma LogicGates(a: Value, b: Value, t: Ty, op: BinOp, rt: Ty)
    requires IsGate(op) && NonNumeric(rt) && LogicType(t)
    requires HasType(a, t) && HasType(b, t) && a.CharVal? && b.CharVal?
    ensures BinaryResult(a, b, op, rt).Ok?
    ensures HasType(BinaryResult(a, b, op, rt).value, t)
    ensures BinaryResult(a, b, op, rt).value.CharVal?
    ensures BinaryResult(a, b, op, rt).value.ch == CharGate(op, a.ch, b.ch)
  {
    LiteralsOfLogic(a, b, t);
    EnumDispatch(a, b, op, rt);
    LogicGateCharacters(a, b, op, rt);
  }

  /**
   * The other side of the logic gates: when the 9-valued rules give a character that is not
   * a literal of the left operand's type, the answer is that type's first literal
   * (getStaticLow), or getStaticLow's error when the type has no literals.
   */
  lemma LogicGateFallback(a: Value, b: Value, op: BinOp, rt: Ty)
    requires IsGate(op) && NonNumeric(rt)
    requires (a.EnumVal? || a.CharVal?) && a.ty.EnumTy? && a.ty.isLogic && !a.ty.isBool
    requires b.EnumVal? || b.CharVal? || b.IntVal?
    requires CharLit(CharGate(op, CharLiteralOf(a), CharLiteralOf(b))) !in a.ty.lits
    ensures BinaryResult(a, b, op, rt) == StaticLow(a.ty)
    ensures BinaryResult(a, b, op, rt).Ok? <==> |a.ty.lits| > 0
    ensures BinaryResult(a, b, op, rt).Ok? ==>
              LiteralOf(BinaryResult(a, b, op, rt).value, a.ty) && BinaryResult(a, b, op, rt).value.ord == 0
  {
    EnumDispatch(a, b, op, rt);
  }

  lemma LiteralsOfLogic(a: Value, b: Value, t: Ty)
    requires LogicType(t) && HasType(a, t) && HasType(b, t) && a.CharVal? && b.CharVal?
    ensures a.ty == t && b.ty == t && 0 <= a.ord < TWO_32 / 4 && 0 <= b.ord < TWO_32 / 4
    ensures CharLit(a.ch) in t.lits && CharLit(b.ch) in t.lits
  {
    assert t.lits[a.ord] == CharLit(a.ch);
    assert t.lits[b.ord] == CharLit(b.ch);
  }

  lemma LogicGateCharacters(a: Value, b: Value, op: BinOp, rt: Ty)
    requires IsGate(op) && a.CharVal? && b.CharVal? && LogicType(a.ty)
    requires 0 <= a.ord < TWO_32 / 4 && 0 <= b.ord < TWO_32 / 4
    requires CharLit(a.ch) in a.ty.lits && CharLit(b.ch) in a.ty.lits
    ensures EnumResult(a, b, op, rt) == Ok(FindEnumLiteral(a.ty, CharGate(op, a.ch, b.ch)).value)
  {
    assert GetOrd(a) == Ok(a.ord) && GetOrd(b) == Ok(b.ord);
    assert Wrap32(a.ord) == a.ord && Wrap32(b.ord) == b.ord;
    CharGateRange(op, a.ch, b.ch);
  }

  /** Consequence on std_logic values: AND('Z', '0') is 'Z' but AND('0', 'Z') is '0'. */
  lemma LogicAndNotCommutative(z: Value, zero: Value, t: Ty, rt: Ty)
    requires NonNumeric(rt) && LogicType(t)
    requires HasType(z, t) && HasType(zero, t) && z.CharVal? && zero.CharVal? && z.ch == 'Z' && zero.ch == '0'
    ensures BinaryResult(z, zero, AND, rt).Ok? && BinaryResult(z, zero, AND, rt).value.ch == 'Z'
    ensures BinaryResult(zero, z, AND, rt).Ok? && BinaryResult(zero, z, AND, rt).value.ch == '0'
  {
    LogicGates(z, zero, t, AND, rt);
    LogicGates(zero, z, t, AND, rt);
  }

  // ---------------------------------------------------------------
  // Arrays
  // ---------------------------------------------------------------

  /** Gates on arrays whose index types have different cardinalities raise an error, whatever the elements. */
  lemma ArrayGateLengthMismatch(a: Value, b: Value, op: BinOp, rt: Ty)
    requires IsGate(op) && NonNumeric(rt)
    requires !a.BoolDup? && a.ty.ArrayTy? && !b.BoolDup? && b.ty.ArrayTy?
    requires a.ty.index.card != b.ty.index.card
    ensures BinaryResult(a, b, op, rt) == Err(LengthMismatch)
  {
    ArrayDispatch(a, b, op, rt);
  }

  /** EQUAL on arrays of different lengths is literal 0 and NEQUAL literal 1, whatever the elements. */
  lemma ArrayEqualityLengthMismatch(a: Value, b: Value, rt: Ty)
    requires NonNumeric(rt)
    requires !a.BoolDup? && a.ty.ArrayTy? && !b.BoolDup? && b.ty.ArrayTy?
    requires a.ty.index.card != b.ty.index.card
    ensures BinaryResult(a, b, EQUAL, rt) == EnumLiteral(rt, 0)
    ensures BinaryResult(a, b, NEQUAL, rt) == EnumLiteral(rt, 1)
  {
    ArrayDispatch(a, b, EQUAL, rt);
    ArrayDispatch(a, b, NEQUAL, rt);
  }

  /** The elementwise results of a gate on two element lists of equal length. */
  function Zipped(xs: seq<Value>, ys: seq<Value>, op: BinOp, et: Ty): seq<Value>
    requires |xs| == |ys|
    requires forall k | 0 <= k < |xs| :: BinaryResult(xs[k], ys[k], op, et).Ok?
  {
    seq(|xs|, k requires 0 <= k < |xs| => BinaryResult(xs[k], ys[k], op, et).value)
  }

  lemma ElementPairAt(a: Value, b: Value, i: nat)
    requires a.ArrayVal? && a.elems.Backed? && b.ArrayVal? && b.elems.Backed?
    requires i < |a.elems.vals| == |b.elems.vals|
    ensures ElementPair(a, b, a.offset, b.offset, i) == Ok((a.elems.vals[i], b.elems.vals[i]))
  {
  }

  lemma {:induction false} GateElementsZip(a: Value, b: Value, op: BinOp, et: Ty, zs: seq<Value>, i: nat)
    requires a.ArrayVal? && a.elems.Backed? && b.ArrayVal? && b.elems.Backed?
    requires |a.elems.vals| == |b.elems.vals| == |zs| && i <= |zs|
    requires forall k {:trigger BinaryResult(a.elems.vals[k], b.elems.vals[k], op, et)} | 0 <= k < |zs| ::
               BinaryResult(a.elems.vals[k], b.elems.vals[k], op, et) == Ok(zs[k])
    ensures GateElements(a, b, a.offset, b.offset, op, et, i, |zs|) == Ok(zs[i..])
    decreases |zs| - i
  {
    if i < |zs| {
      ElementPairAt(a, b, i);
      assert BinaryResult(a.elems.vals[i], b.elems.vals[i], op, et) == Ok(zs[i]);
      GateElementsStep(a, b, a.offset, b.offset, op, et, i, |zs|, a.elems.vals[i], b.elems.vals[i], zs[i]);
      GateElementsZip(a, b, op, et, zs, i + 1);
      assert zs[i..] == [zs[i]] + zs[i + 1..];
    } else {
      assert zs[i..] == [];
    }
  }

  /**
   * A gate on two well-typed constrained arrays of equal length combines them position by
   * position: element k of the result is the gate on the elements k of the operands.
   */
  lemma ArrayGateElementwise(a: Value, b: Value, ta: Ty, tb: Ty, op: BinOp, rt: Ty)
    requires IsGate(op) && NonNumeric(rt)
    requires ta.ArrayTy? && !ta.unconstrained && tb.ArrayTy? && !tb.unconstrained
    requires HasType(a, ta) && HasType(b, tb) && ta.index.card == tb.index.card
    requires forall k | 0 <= k < ta.index.card :: BinaryResult(a.elems.vals[k], b.elems.vals[k], op, ta.elem).Ok?
    ensures BinaryResult(a, b, op, rt).Ok?
    ensures var r := BinaryResult(a, b, op, rt).value;
            r.ArrayVal? && r.ty == ta && r.offset == ta.index.low && r.elems.Backed?
            && |r.elems.vals| == ta.index.card
            && forall k | 0 <= k < ta.index.card ::
                 r.elems.vals[k] == BinaryResult(a.elems.vals[k], b.elems.vals[k], op, ta.elem).value
  {
    ArrayDispatch(a, b, op, rt);
    ArrayCases(a, b, op, rt);
    var zs := Zipped(a.elems.vals, b.elems.vals, op, ta.elem);
    GateElementsZip(a, b, op, ta.elem, zs, 0);
    assert zs[0..] == zs;
  }

  /**
   * EQUAL on two well-typed constrained arrays of the same length is literal 1 exactly when
   * every pair of elements is equalsValue-true, and NEQUAL is the opposite literal.
   */
  lemma ArrayEquality(a: Value, b: Value, t: Ty, rt: Ty)
    requires NonNumeric(rt) && TruthType(rt)
    requires t.ArrayTy? && !t.unconstrained && HasType(a, t) && HasType(b, t)
    requires forall k | 0 <= k < t.index.card :: EqualsValue(a.elems.vals[k], b.elems.vals[k]).Ok?
    ensures BinaryResult(a, b, EQUAL, rt).Ok? && BinaryResult(a, b, NEQUAL, rt).Ok?
    ensures BinaryResult(a, b, EQUAL, rt)
            == TruthLiteral(rt, forall k | 0 <= k < t.index.card :: EqualsValue(a.elems.vals[k], b.elems.vals[k]).value)
    ensures BinaryResult(a, b, NEQUAL, rt)
            == TruthLiteral(rt, !forall k | 0 <= k < t.index.card :: EqualsValue(a.elems.vals[k], b.elems.vals[k]).value)
  {
    ArrayDispatch(a, b, EQUAL, rt);
    ArrayDispatch(a, b, NEQUAL, rt);
    ArrayCases(a, b, EQUAL, rt);
    ArrayCases(a, b, NEQUAL, rt);
    EqualsValueArrayElementwise(a, b, 0);
  }

  // ---------------------------------------------------------------
  // Unary operations
  // ---------------------------------------------------------------

  /** ABS and NEG on INTEGER values are exact; NOT is refused. */
  lemma IntegerUnary(x: int)
    ensures UnaryResult(IntVal(IntegerTy, x), ABS) == Ok(IntVal(IntegerTy, if x < 0 then -x else x))
    ensures UnaryResult(IntVal(IntegerTy, x), NEG) == Ok(IntVal(IntegerTy, -x))
    ensures UnaryResult(IntVal(IntegerTy, x), NOT) == Err(Unsupported)
  {
  }

  /** PHYSICAL values are INT values, which have no decimal: ABS and NEG on them dereference null. */
  lemma PhysicalUnaryDereferencesNull(x: int, op: UnaryOp)
    requires op != NOT
    ensures UnaryResult(IntVal(PhysicalTy, x), op) == Err(NullValue)
  {
  }

  /** Types on which NOT is defined and invertible: two-literal BOOLEAN/BIT types and constrained arrays of them. */
  predicate Invertible(t: Ty)
    decreases t
  {
    match t
    case EnumTy(_, lits, isBool, isBit, _) => (isBool || isBit) && |lits| == 2
    case ArrayTy(et, _, unc) => !unc && Invertible(et)
    case _ => false
  }

  /** The NOTs of a list of values on which NOT succeeds. */
  function NotAll(xs: seq<Value>): (r: seq<Value>)
    requires forall k {:trigger UnaryResult(xs[k], NOT)} | 0 <= k < |xs| :: UnaryResult(xs[k], NOT).Ok?
    ensures |r| == |xs|
  {
    seq(|xs|, k requires 0 <= k < |xs| => UnaryResult(xs[k], NOT).value)
  }

  lemma NotElementsStep(a: Value, aOff: int, i: nat, n: nat, e: Value, x: Value)
    requires i < n && GetValue(a, i + aOff) == Ok(Some(e)) && UnaryResult(e, NOT) == Ok(x)
    ensures NotElements(a, aOff, i, n) == Prepend([x], NotElements(a, aOff, i + 1, n))
  {
  }

  /** The NOT loop over an array whose elements all invert yields their NOTs in order. */
  lemma {:induction false} NotElementsAll(a: Value, i: nat)
    requires a.ArrayVal? && a.elems.Backed? && i <= |a.elems.vals|
    requires forall k {:trigger UnaryResult(a.elems.vals[k], NOT)} | 0 <= k < |a.elems.vals| ::
               UnaryResult(a.elems.vals[k], NOT).Ok?
    ensures NotElements(a, a.offset, i, |a.elems.vals|) == Ok(NotAll(a.elems.vals)[i..])
    decreases |a.elems.vals| - i
  {
    var xs := a.elems.vals;
    if i < |xs| {
      assert GetValue(a, i + a.offset) == Ok(Some(xs[i]));
      assert UnaryResult(xs[i], NOT).Ok?;
      NotElementsStep(a, a.offset, i, |xs|, xs[i], NotAll(xs)[i]);
      NotElementsAll(a, i + 1);
      assert NotAll(xs)[i..] == [NotAll(xs)[i]] + NotAll(xs)[i + 1..];
    } else {
      assert NotAll(xs)[i..] == [];
    }
  }

  /**
   * NOT on a BOOLEAN or BIT literal gives the other literal, and on an array the NOT of each
   * element in place; the result has the operand's type, and applying NOT twice gives the
   * value back.
   */
  lemma {:induction false} NotInvolution(a: Value, t: Ty)
    requires HasType(a, t) && Invertible(t)
    ensures UnaryResult(a, NOT).Ok?
    ensures HasType(UnaryResult(a, NOT).value, t)
    ensures t.EnumTy? ==> UnaryResult(a, NOT).value.ord == 1 - a.ord
    ensures t.ArrayTy? ==>
              a.ArrayVal? && a.elems.Backed?
              && UnaryResult(a, NOT).value.ArrayVal? && UnaryResult(a, NOT).value.elems.Backed?
              && |UnaryResult(a, NOT).value.elems.vals| == |a.elems.vals|
              && forall k | 0 <= k < |a.elems.vals| ::
                   UnaryResult(a.elems.vals[k], NOT) == Ok(UnaryResult(a, NOT).value.elems.vals[k])
    ensures UnaryResult(UnaryResult(a, NOT).value, NOT) == Ok(a)
    decreases t
  {
    match t
    case EnumTy(_, _, _, _, _) =>
    case ArrayTy(et, idx, _) =>
      var xs := a.elems.vals;
      forall k | 0 <= k < |xs|
        ensures UnaryResult(xs[k], NOT).Ok?
        ensures HasType(UnaryResult(xs[k], NOT).value, et)
        ensures UnaryResult(UnaryResult(xs[k], NOT).value, NOT) == Ok(xs[k])
      {
        assert xs[k] in xs;
        NotInvolution(xs[k], et);
      }
      NotElementsAll(a, 0);
      var vs := NotAll(xs);
      assert xs[0..] == xs && vs[0..] == vs;
      var na := MkArray(t, vs);
      assert UnaryResult(a, NOT) == Ok(na);
      forall e | e in vs
        ensures HasType(e, et)
      {
      }
      assert HasType(na, t);
      NotElementsAll(na, 0);
      assert NotAll(vs) == xs;
      assert UnaryResult(na, NOT) == Ok(a);
  }
}

=== FILE: Resolution.dfy ===
/**
 * resolveStdLogic: the resolution of the drivers of a std_logic signal. The first driver
 * starts the fold; every further driver is combined with the character resolved so far by
 * the step function of StdLogic, and the result is looked up again as a literal of the
 * type of the value that started the fold.
 */
module Resolution {
  import opened Wrappers
  import opened StdLogic
  import opened StaticValues

  /**
   * The fold over the drivers `vs` with `acc` resolved so far (None before the first
   * driver). The literal lookup answers null when the type has no literal for the resolved
   * character; the next driver then starts the fold afresh, as the null check at the top of
   * the loop does. Resolving anything but a character literal is refused.
   */
  function ResolveFrom(acc: Option<Value>, vs: seq<Value>): (r: Result<Option<Value>, Error>)
    ensures r.Ok? && r.value.Some? && |vs| > 0 ==>
              r.value.value == vs[|vs| - 1] || r.value.value.CharVal?
    decreases |vs|
  {
    if |vs| == 0 then Ok(acc)
    else match acc
      case None => ResolveFrom(Some(vs[0]), vs[1..])
      case Some(cur) =>
        if !cur.CharVal? then Err(UnsupportedResolution)
        else match ResolveStep(cur.ch, CharLiteralOf(vs[0]))
          case None => Err(UnsupportedResolution)
          case Some(c) => ResolveFrom(FindEnumLiteral(cur.ty, c), vs[1..])
  }

  /**
   * resolveStdLogic(values). `type` in the source is the static type of the value that
   * started the current fold; findEnumLiteral answers literals of that type, so it is always
   * the type of the character literal being resolved, which is what the model looks it up in.
   */
  method ResolveStdLogic(values: seq<Value>) returns (r: Result<Option<Value>, Error>)
    ensures r == ResolveFrom(None, values)
    ensures |values| == 0 ==> r == Ok(None)
    ensures |values| == 1 ==> r == Ok(Some(values[0]))
  {
    var resolved: Option<Value> := None;
    var i := 0;
    while i < |values|
      invariant 0 <= i <= |values|
      invariant ResolveFrom(None, values) == ResolveFrom(resolved, values[i..])
    {
      var value := values[i];
      assert values[i..][1..] == values[i + 1..];
      if resolved.None? {
        resolved := Some(value);
        i := i + 1;
        continue;
      }
      var cur := resolved.value;
      if cur.CharVal? {
        var curC := cur.ch;
        var newC := CharLiteralOf(value);
        var step := ResolveStep(curC, newC);
        if step.None? {
          return Err(UnsupportedResolution);
        }
        resolved := FindEnumLiteral(cur.ty, step.value);
      } else {
        return Err(UnsupportedResolution);
      }
      i := i + 1;
    }
    r := Ok(resolved);
  }

  // ---------------------------------------------------------------
  // Agreement with the IEEE 1164 resolution function
  // ---------------------------------------------------------------

  /** An enumeration type holding every character of the std_logic alphabet as a literal. */
  predicate StdLogicType(t: Ty) {
    t.EnumTy? && forall c :: IsLogicChar(c) ==> CharLit(c) in t.lits
  }

  /** A driver of type t: one of its character literals, inside the std_logic alphabet. */
  predicate LogicDriver(v: Value, t: Ty) {
    LiteralOf(v, t) && v.CharVal? && IsLogicChar(v.ch)
  }

  /** Every value of `vs` is a character literal inside the alphabet. */
  predicate LogicChars(vs: seq<Value>) {
    forall k | 0 <= k < |vs| :: vs[k].CharVal? && IsLogicChar(vs[k].ch)
  }

  /** Every value of `vs` is a driver of type t. */
  predicate Drivers(vs: seq<Value>, t: Ty)
    ensures Drivers(vs, t) ==> LogicChars(vs)
    ensures Drivers(vs, t) && |vs| > 0 ==> Drivers(vs[1..], t)
  {
    forall k | 0 <= k < |vs| :: LogicDriver(vs[k], t)
  }

  /** The left fold of the IEEE 1164 resolution table over the drivers' characters. */
  function IeeeFold(c: char, vs: seq<Value>): (r: char)
    requires IsLogicChar(c)
    requires LogicChars(vs)
    ensures IsLogicChar(r)
    decreases |vs|
  {
    if |vs| == 0 then c
    else
      ResolveStepCommutes(c, vs[0].ch);
      ResolveStepIsIeeeTable(c, vs[0].ch);
      IeeeFold(IeeeResolved(c, vs[0].ch), vs[1..])
  }

  /**
   * On drivers of a type holding the whole alphabet, resolveStdLogic never fails: it gives
   * the literal of the type whose character is the IEEE 1164 resolution of all drivers.
   */
  lemma {:induction false} ResolveLogicDrivers(t: Ty, acc: Value, vs: seq<Value>)
    requires StdLogicType(t) && LogicDriver(acc, t)
    requires Drivers(vs, t)
    ensures ResolveFrom(Some(acc), vs).Ok?
    ensures ResolveFrom(Some(acc), vs).value.Some?
    ensures LogicDriver(ResolveFrom(Some(acc), vs).value.value, t)
    ensures ResolveFrom(Some(acc), vs).value.value.ch == IeeeFold(acc.ch, vs)
    decreases |vs|
  {
    if |vs| > 0 {
      ResolveStepIsIeeeTable(acc.ch, vs[0].ch);
      ResolveStepCommutes(acc.ch, vs[0].ch);
      var c := IeeeResolved(acc.ch, vs[0].ch);
      assert ResolveStep(acc.ch, CharLiteralOf(vs[0])) == Some(c);
      var next := FindEnumLiteral(t, c);
      assert next.Some?;
      ResolveLogicDrivers(t, next.value, vs[1..]);
    }
  }

  /** resolveStdLogic over a non-empty list of std_logic drivers is the IEEE 1164 resolution of them all. */
  lemma ResolveIsIeeeResolution(t: Ty, vs: seq<Value>)
    requires StdLogicType(t) && |vs| > 0
    requires Drivers(vs, t)
    ensures ResolveFrom(None, vs).Ok? && ResolveFrom(None, vs).value.Some?
    ensures LogicDriver(ResolveFrom(None, vs).value.value, t)
    ensures ResolveFrom(None, vs).value.value.ch == IeeeFold(vs[0].ch, vs[1..])
  {
    ResolveLogicDrivers(t, vs[0], vs[1..]);
  }

  /** Once the fold has reached 'U' it stays there. */
  lemma {:induction false} IeeeFoldStaysUninitialized(vs: seq<Value>)
    requires LogicChars(vs)
    ensures IeeeFold('U', vs) == 'U'
    decreases |vs|
  {
    if |vs| > 0 {
      ResolveStepIsIeeeTable('U', vs[0].ch);
      IeeeFoldStaysUninitialized(vs[1..]);
    }
  }

  /** A 'U' at position k of the drivers makes the fold 'U', whatever it started from. */
  lemma {:induction false} IeeeFoldUninitialized(c: char, vs: seq<Value>, k: nat)
    requires IsLogicChar(c) && LogicChars(vs)
    requires k < |vs| && vs[k].ch == 'U'
    ensures IeeeFold(c, vs) == 'U'
    decreases |vs|
  {
    var c' := IeeeResolved(c, vs[0].ch);
    ResolveStepIsIeeeTable(c, vs[0].ch);
    if k == 0 {
      IeeeFoldStaysUninitialized(vs[1..]);
    } else {
      assert vs[1..][k - 1].ch == 'U';
      IeeeFoldUninitialized(c', vs[1..], k - 1);
    }
  }

  /** A single uninitialised driver makes the resolved signal 'U'. */
  lemma ResolveUninitializedDominates(t: Ty, vs: seq<Value>, k: nat)
    requires StdLogicType(t) && k < |vs|
    requires Drivers(vs, t)
    requires vs[k].ch == 'U'
    ensures ResolveFrom(None, vs).Ok? && ResolveFrom(None, vs).value.Some?
    ensures ResolveFrom(None, vs).value.value.ch == 'U'
  {
    ResolveIsIeeeResolution(t, vs);
    DriversFoldUninitialized(vs, k);
  }

  lemma DriversFoldUninitialized(vs: seq<Value>, k: nat)
    requires LogicChars(vs) && k < |vs| && vs[k].ch == 'U'
    ensures IeeeFold(vs[0].ch, vs[1..]) == 'U'
  {
    if k > 0 {
      assert vs[1..][k - 1].ch == 'U';
      IeeeFoldUninitialized(vs[0].ch, vs[1..], k - 1);
    } else {
      IeeeFoldStaysUninitialized(vs[1..]);
    }
  }

  /** Two drivers resolve alike whichever comes first. */
  lemma ResolveTwoDriversCommute(t: Ty, a: Value, b: Value)
    requires StdLogicType(t) && LogicDriver(a, t) && LogicDriver(b, t)
    ensures ResolveFrom(None, [a, b]) == ResolveFrom(None, [b, a])
  {
    ResolveStepCommutes(a.ch, b.ch);
    assert [a, b][1..] == [b];
    assert [b, a][1..] == [a];
    assert [b][1..] == [];
    assert [a][1..] == [];
  }

  // ---------------------------------------------------------------
  // The fold restarts after a missing literal
  // ---------------------------------------------------------------

  /**
   * When the type of the value resolved so far has no literal for the resolved character,
   * the drivers read up to that point are dropped and the next driver starts a new fold.
   */
  lemma ResolveRestartsWithoutLiteral(cur: Value, v: Value, rest: seq<Value>)
    requires cur.CharVal? && ResolveStep(cur.ch, CharLiteralOf(v)).Some?
    requires !cur.ty.EnumTy? || !(CharLit(ResolveStep(cur.ch, CharLiteralOf(v)).value) in cur.ty.lits)
    ensures ResolveFrom(Some(cur), [v] + rest) == ResolveFrom(None, rest)
  {
    assert ([v] + rest)[1..] == rest;
  }

  /** Resolving a value that is not a character literal with any further driver is refused. */
  lemma ResolveRefusesNonCharacters(cur: Value, vs: seq<Value>)
    requires !cur.CharVal? && |vs| > 0
    ensures ResolveFrom(Some(cur), vs) == Err(UnsupportedResolution)
    ensures ResolveFrom(None, [cur] + vs) == Err(UnsupportedResolution)
  {
    assert ([cur] + vs)[1..] == vs;
  }
}

=== FILE: StaticValueOps.dfy ===
/**
 * computeUnary and computeBinary of IGStaticValue: constant folding of unary and binary
 * operations over static values. UnaryResult and BinaryResult state what the operations
 * compute; the methods ComputeUnary and ComputeBinary fill the result arrays through the
 * builder loops of the source and are proved to agree with them.
 */
module StaticValueOps {
  import opened Wrappers
  import opened StdLogic
  import opened StaticValues

  datatype UnaryOp = NOT | ABS | NEG

  /** Binary operators; CONCAT stands for every operator computeBinary does not handle. */
  datatype BinOp =
    | ADD | SUB | MUL | DIV | MOD | REM | POWER | MAX | MIN
    | AND | OR | NAND | NOR | XOR | XNOR
    | EQUAL | NEQUAL | GREATER | GREATEREQ | LESS | LESSEQ
    | CONCAT

  predicate IsGate(op: BinOp) {
    op == AND || op == OR || op == NAND || op == NOR || op == XOR || op == XNOR
  }

  predicate IsComparison(op: BinOp) {
    op == EQUAL || op == NEQUAL || op == GREATER || op == GREATEREQ || op == LESS || op == LESSEQ
  }

  /** The operators of the INTEGER-result switch. */
  predicate IsIntArith(op: BinOp) {
    op == ADD || op == SUB || op == MUL || op == DIV || op == MOD || op == POWER || op == REM
    || op == MAX || op == MIN
  }

  /** The operators of the REAL/PHYSICAL-result switch. */
  predicate IsRealArith(op: BinOp) {
    op == ADD || op == SUB || op == MUL || op == DIV || op == POWER || op == MAX || op == MIN
  }

  // ---------------------------------------------------------------
  // Arithmetic of BigInteger and of exact decimals
  // ---------------------------------------------------------------

  function Abs(x: int): nat {
    if x < 0 then -x else x
  }

  function RealAbs(x: real): real {
    if x < 0.0 then -x else x
  }

  /** BigInteger.divide: the quotient truncated toward zero. */
  function JavaDiv(x: int, y: int): int
    requires y != 0
  {
    var q := Abs(x) / Abs(y);
    if (x < 0) == (y < 0) then q else -q
  }

  function Pow(x: int, e: nat): int {
    if e == 0 then 1 else x * Pow(x, e - 1)
  }

  /**
   * The INTEGER-result arithmetic on two BigIntegers. DIV by zero, MOD/REM by a
   * non-positive modulus and a negative exponent throw ArithmeticException; REM is
   * computed with BigInteger.mod, like MOD; POWER takes the exponent's intValue.
   */
  function IntArith(x: int, y: int, op: BinOp): Result<int, Error>
    requires IsIntArith(op)
  {
    match op
    case ADD => Ok(x + y)
    case SUB => Ok(x - y)
    case MUL => Ok(x * y)
    case DIV => if y == 0 then Err(ArithmeticError) else Ok(JavaDiv(x, y))
    case MOD => if y <= 0 then Err(ArithmeticError) else Ok(x % y)
    case REM => if y <= 0 then Err(ArithmeticError) else Ok(x % y)
    case POWER => var e := Wrap32(y); if e < 0 then Err(ArithmeticError) else Ok(Pow(x, e))
    case MAX => Ok(if x > y then x else y)
    case MIN => Ok(if x < y then x else y)
  }

  /** The REAL-result arithmetic; DIV (rounded to the dividend's scale) and POWER are not modelled. */
  function RealArith(x: real, y: real, op: BinOp): Result<real, Error>
    requires IsRealArith(op)
  {
    match op
    case ADD => Ok(x + y)
    case SUB => Ok(x - y)
    case MUL => Ok(x * y)
    case MAX => Ok(if x > y then x else y)
    case MIN => Ok(if x < y then x else y)
    case DIV => Err(Unmodelled)
    case POWER => Err(Unmodelled)
  }

  /** compareTo as -1, 0 or 1. */
  function IntCompare(x: int, y: int): int {
    if x < y then -1 else if x == y then 0 else 1
  }

  function RealCompare(x: real, y: real): int {
    if x < y then -1 else if x == y then 0 else 1
  }

  /** Whether a comparison operator holds for a compareTo result `c`. */
  function Holds(op: BinOp, c: int): bool
    requires IsComparison(op)
  {
    match op
    case EQUAL => c == 0
    case NEQUAL => c != 0
    case GREATER => c > 0
    case GREATEREQ => c >= 0
    case LESS => c < 0
    case LESSEQ => c <= 0
  }

  /** The gates on BOOLEAN truth values. */
  function BoolGate(op: BinOp, x: bool, y: bool): bool
    requires IsGate(op)
  {
    match op
    case AND => x && y
    case NAND => !(x && y)
    case NOR => !(x || y)
    case OR => x || y
    case XOR => x != y
    case XNOR => x == y
  }

  /** The gates on logic characters. */
  function CharGate(op: BinOp, x: char, y: char): char
    requires IsGate(op)
  {
    match op
    case AND => And(x, y)
    case NAND => Nand(x, y)
    case NOR => Nor(x, y)
    case OR => Or(x, y)
    case XOR => Xor(x, y)
    case XNOR => Xnor(x, y)
  }

  /** The literal 1 (true) or 0 (false) of a result type. */
  function TruthLiteral(rt: Ty, b: bool): Result<Value, Error> {
    EnumLiteral(rt, if b then 1 else 0)
  }

  // ---------------------------------------------------------------
  // computeUnary
  // ---------------------------------------------------------------

  /**
   * computeUnary: NOT elementwise on arrays; ABS/NEG on INTEGER (BigInteger) and on
   * REAL/PHYSICAL values read through getReal (null for INT values, so PHYSICAL values,
   * which are INTs, dereference null); NOT on BOOLEAN and BIT literals; anything else
   * is unsupported.
   */
  function UnaryResult(a: Value, op: UnaryOp): Result<Value, Error>
    decreases a, 1
  {
    if a.BoolDup? then Err(NullValue)
    else
      var t := a.ty;
      match t
      case ArrayTy(_, idx, _) =>
        if op != NOT then Err(Unsupported)
        else
          var vs :- NotElements(a, idx.low, 0, idx.card);
          Ok(MkArray(t, vs))
      case IntegerTy =>
        if op == NOT then Err(Unsupported)
        else if !a.IntVal? then Err(NullValue)
        else Ok(IntVal(t, if op == ABS then Abs(a.num) else -a.num))
      case RealTy =>
        if op == NOT then Err(Unsupported)
        else if !a.RealVal? then Err(NullValue)
        else Ok(RealVal(t, if op == ABS then RealAbs(a.r) else -a.r))
      case PhysicalTy =>
        if op == NOT then Err(Unsupported)
        else if !a.RealVal? then Err(NullValue)
        else Ok(RealVal(t, if op == ABS then RealAbs(a.r) else -a.r))
      case EnumTy(_, _, isBool, isBit, _) =>
        if (isBool || isBit) && op == NOT then EnumLiteral(t, if IsTrue(a) then 0 else 1)
        else Err(Unsupported)
      case _ => Err(Unsupported)
  }

  /** The NOT loop over positions i..n-1 of an array read from index aOff + i. */
  function NotElements(a: Value, aOff: int, i: nat, n: nat): Result<seq<Value>, Error>
    decreases a, 0, n - i
  {
    if i >= n then Ok([])
    else
      var v :- GetValue(a, i + aOff);
      if v.None? then Err(NullValue)
      else
        var e :- UnaryResult(v.value, NOT);
        var rest :- NotElements(a, aOff, i + 1, n);
        Ok([e] + rest)
  }

  /** computeUnary, with the builder loop over the array positions. */
  method ComputeUnary(a: Value, op: UnaryOp) returns (r: Result<Value, Error>)
    ensures r == UnaryResult(a, op)
    decreases a, 1
  {
    if a.BoolDup? || !a.ty.ArrayTy? || op != NOT {
      return UnaryResult(a, op);
    }
    var t := a.ty;
    var card := t.index.card;
    var aOff := t.index.low;
    var builder: seq<Value> := [];
    var i := 0;
    PrependEmpty(NotElements(a, aOff, 0, card));
    while i < card
      invariant 0 <= i <= card
      invariant NotElements(a, aOff, 0, card) == Prepend(builder, NotElements(a, aOff, i, card))
    {
      var v := GetValue(a, i + aOff);
      if v.Err? {
        return Err(v.error);
      }
      if v.value.None? {
        return Err(NullValue);
      }
      var e := ComputeUnary(v.value.value, NOT);
      if e.Err? {
        return Err(e.error);
      }
      PrependStep(builder, e.value, NotElements(a, aOff, i + 1, card));
      builder := builder + [e.value];
      i := i + 1;
    }
    PrependEmpty2(builder);
    r := Ok(MkArray(t, builder));
  }

  lemma PrependEmpty2<T>(vs: seq<T>)
    ensures Prepend(vs, Ok([])) == Ok(vs)
  {
    assert vs + [] == vs;
  }

  lemma PrependStep<T>(vs: seq<T>, x: T, r: Result<seq<T>, Error>)
    ensures Prepend(vs, Prepend([x], r)) == Prepend(vs + [x], r)
  {
    if r.Ok? {
      assert vs + ([x] + r.value) == (vs + [x]) + r.value;
    }
  }

  // ---------------------------------------------------------------
  // computeBinary
  // ---------------------------------------------------------------

  /**
   * computeBinary(a, b, op, rt). The result type decides first: INTEGER results do exact
   * BigInteger arithmetic (operands that are not both INTEGER take the decimal route, not
   * modelled), REAL/PHYSICAL results do decimal arithmetic. Otherwise the left operand's
   * category decides: arrays combine elementwise under the gates (equal lengths required)
   * and compare under EQUAL/NEQUAL; INTEGER and REAL operands compare; enumerations add
   * and subtract ordinals, compare ordinals, and apply the gates to BOOLEAN truth values
   * or to logic characters.
   */
  function BinaryResult(a: Value, b: Value, op: BinOp, rt: Ty): Result<Value, Error>
    decreases a, 2
  {
    if rt.IntegerTy? then IntegerResult(a, b, op, rt)
    else if rt.RealTy? || rt.PhysicalTy? then RealResult(a, b, op, rt)
    else if a.BoolDup? then Err(NullValue)
    else
      match CatOf(a.ty)
      case ARRAY => ArrayResult(a, b, op, rt)
      case INTEGER =>
        if !IsComparison(op) then Err(Unsupported)
        else if !a.IntVal? || !b.IntVal? then Err(NullValue)
        else TruthLiteral(rt, Holds(op, IntCompare(a.num, b.num)))
      case REAL =>
        if !IsComparison(op) then Err(Unsupported)
        else if !a.RealVal? || !b.RealVal? then Err(NullValue)
        else TruthLiteral(rt, Holds(op, RealCompare(a.r, b.r)))
      case ENUM => EnumResult(a, b, op, rt)
      case _ => Err(Unsupported)
  }

  /** The INTEGER-result branch of computeBinary. */
  function IntegerResult(a: Value, b: Value, op: BinOp, rt: Ty): Result<Value, Error> {
    if a.BoolDup? then Err(NullValue)
    else if CatOf(a.ty) != INTEGER then Err(Unmodelled)
    else if b.BoolDup? then Err(NullValue)
    else if CatOf(b.ty) != INTEGER then Err(Unmodelled)
    else if !IsIntArith(op) then Err(Unsupported)
    else if !a.IntVal? || !b.IntVal? then Err(NullValue)
    else
      var n :- IntArith(a.num, b.num, op);
      Ok(IntVal(rt, n))
  }

  /** The REAL/PHYSICAL-result branch of computeBinary. */
  function RealResult(a: Value, b: Value, op: BinOp, rt: Ty): Result<Value, Error> {
    if !IsRealArith(op) then Err(Unsupported)
    else if !a.RealVal? || !b.RealVal? then Err(NullValue)
    else if rt.PhysicalTy? then Err(Unmodelled)
    else
      var x :- RealArith(a.r, b.r, op);
      Ok(RealVal(rt, x))
  }

  /** The branch of computeBinary for a left operand of array type. */
  function ArrayResult(a: Value, b: Value, op: BinOp, rt: Ty): Result<Value, Error>
    requires !a.BoolDup? && a.ty.ArrayTy?
    decreases a, 1
  {
    var c1 := a.ty.index.card;
    if b.BoolDup? then Err(NullValue)
    else if !b.ty.ArrayTy? then Err(NotArray)
    else
      var c2 := b.ty.index.card;
      if IsGate(op) then
        if c1 != c2 then Err(LengthMismatch)
        else
          var vs :- GateElements(a, b, a.ty.index.low, b.ty.index.low, op, a.ty.elem, 0, c1);
          Ok(MkArray(a.ty, vs))
      else if op == EQUAL || op == NEQUAL then
        if c1 != c2 then TruthLiteral(rt, op == NEQUAL)
        else
          var same :- ElementsEqual(a, b, ArrayOffset(a), ArrayOffset(b), 0, c1);
          TruthLiteral(rt, same == (op == EQUAL))
      else Err(Unsupported)
  }

  /** The branch of computeBinary for a left operand of enumeration type. */
  function EnumResult(a: Value, b: Value, op: BinOp, rt: Ty): Result<Value, Error>
    requires !a.BoolDup? && a.ty.EnumTy?
  {
    var ao :- GetOrd(a);
    var bo :- GetOrd(b);
    var aOrd := Wrap32(ao);
    var bOrd := Wrap32(bo);
    if op == ADD then EnumLiteral(rt, Wrap32(aOrd + bOrd))
    else if op == SUB then EnumLiteral(rt, Wrap32(aOrd - bOrd))
    else if IsComparison(op) then TruthLiteral(rt, Holds(op, IntCompare(aOrd, bOrd)))
    else if a.ty.isBool then
      if IsGate(op) then TruthLiteral(a.ty, BoolGate(op, IsTrue(a), IsTrue(b)))
      else Err(Unsupported)
    else if a.ty.isLogic then
      if IsGate(op) then
        match FindEnumLiteral(a.ty, CharGate(op, CharLiteralOf(a), CharLiteralOf(b)))
        case Some(lit) => Ok(lit)
        case None => StaticLow(a.ty)
      else Err(Unsupported)
    else Err(Unsupported)
  }

  /**
   * The operands of one loop step: a.getValue(aOff + i) and b.getValue(bOff + i), in that
   * order; a null element is dereferenced by the recursive call, hence Err(NullValue).
   */
  function ElementPair(a: Value, b: Value, aOff: int, bOff: int, i: int): (r: Result<(Value, Value), Error>)
    ensures r.Ok? ==> a.ArrayVal? && a.elems.Backed? && r.value.0 in a.elems.vals
    ensures r.Ok? ==> b.ArrayVal? && b.elems.Backed? && r.value.1 in b.elems.vals
  {
    var va :- GetValue(a, i + aOff);
    var vb :- GetValue(b, i + bOff);
    if va.None? || vb.None? then Err(NullValue) else Ok((va.value, vb.value))
  }

  /** The gate loop over positions i..n-1, reading a at aOff + i and b at bOff + i. */
  function GateElements(a: Value, b: Value, aOff: int, bOff: int, op: BinOp, et: Ty, i: nat, n: nat)
    : Result<seq<Value>, Error>
    decreases a, 0, n - i
  {
    if i >= n then Ok([])
    else
      var p :- ElementPair(a, b, aOff, bOff, i);
      var e :- BinaryResult(p.0, p.1, op, et);
      var rest :- GateElements(a, b, aOff, bOff, op, et, i + 1, n);
      Ok([e] + rest)
  }

  /** One step of the gate loop whose element pair and element result are known. */
  lemma GateElementsStep(a: Value, b: Value, aOff: int, bOff: int, op: BinOp, et: Ty, i: nat, n: nat,
                         x: Value, y: Value, e: Value)
    requires i < n && ElementPair(a, b, aOff, bOff, i) == Ok((x, y)) && BinaryResult(x, y, op, et) == Ok(e)
    ensures GateElements(a, b, aOff, bOff, op, et, i, n) == Prepend([e], GateElements(a, b, aOff, bOff, op, et, i + 1, n))
  {
  }

  /** computeBinary; arrays go through the builder and comparison loops of ComputeArrayBinary. */
  method ComputeBinary(a: Value, b: Value, op: BinOp, rt: Ty) returns (r: Result<Value, Error>)
    ensures r == BinaryResult(a, b, op, rt)
    decreases a, 2
  {
    if !rt.IntegerTy? && !rt.RealTy? && !rt.PhysicalTy? && !a.BoolDup? && a.ty.ArrayTy? {
      r := ComputeArrayBinary(a, b, op, rt);
      ArrayDispatch(a, b, op, rt);
    } else {
      r := BinaryResult(a, b, op, rt);
    }
  }

  lemma ArrayDispatch(a: Value, b: Value, op: BinOp, rt: Ty)
    requires !rt.IntegerTy? && !rt.RealTy? && !rt.PhysicalTy? && !a.BoolDup? && a.ty.ArrayTy?
    ensures BinaryResult(a, b, op, rt) == ArrayResult(a, b, op, rt)
  {
  }

  lemma ArrayCases(a: Value, b: Value, op: BinOp, rt: Ty)
    requires !a.BoolDup? && a.ty.ArrayTy? && !b.BoolDup? && b.ty.ArrayTy?
    requires a.ty.index.card == b.ty.index.card
    ensures IsGate(op) ==>
              ArrayResult(a, b, op, rt)
              == (var vs := GateElements(a, b, a.ty.index.low, b.ty.index.low, op, a.ty.elem, 0, a.ty.index.card);
                  if vs.Err? then Err(vs.error) else Ok(MkArray(a.ty, vs.value)))
    ensures op == EQUAL || op == NEQUAL ==>
              ArrayResult(a, b, op, rt)
              == (var same := ElementsEqual(a, b, ArrayOffset(a), ArrayOffset(b), 0, a.ty.index.card);
                  if same.Err? then Err(same.error) else TruthLiteral(rt, same.value == (op == EQUAL)))
  {
  }

  /** The array branch of computeBinary, with the builder loop of the gates and the comparison loop of EQUAL/NEQUAL. */
  method ComputeArrayBinary(a: Value, b: Value, op: BinOp, rt: Ty) returns (r: Result<Value, Error>)
    requires !a.BoolDup? && a.ty.ArrayTy?
    ensures r == ArrayResult(a, b, op, rt)
    decreases a, 1, 1
  {
    if b.BoolDup? || !b.ty.ArrayTy? || a.ty.index.card != b.ty.index.card
       || !(IsGate(op) || op == EQUAL || op == NEQUAL) {
      return ArrayResult(a, b, op, rt);
    }
    var tA := a.ty;
    var c1 := tA.index.card;
    ArrayCases(a, b, op, rt);
    if IsGate(op) {
      var vs := GateLoop(a, b, tA.index.low, b.ty.index.low, op, tA.elem, c1);
      if vs.Err? {
        return Err(vs.error);
      }
      r := Ok(MkArray(tA, vs.value));
    } else {
      var same := EqualLoop(a, b, ArrayOffset(a), ArrayOffset(b), c1);
      if same.Err? {
        return Err(same.error);
      }
      r := TruthLiteral(rt, same.value == (op == EQUAL));
    }
  }

  /** The builder loop of the array gates: combines the elements at aOff + i and bOff + i for i < n. */
  method GateLoop(a: Value, b: Value, aOff: int, bOff: int, op: BinOp, et: Ty, n: nat)
    returns (r: Result<seq<Value>, Error>)
    ensures r == GateElements(a, b, aOff, bOff, op, et, 0, n)
    decreases a, 1, 0
  {
    var builder: seq<Value> := [];
    var i := 0;
    PrependEmpty(GateElements(a, b, aOff, bOff, op, et, 0, n));
    while i < n
      invariant 0 <= i <= n
      invariant GateElements(a, b, aOff, bOff, op, et, 0, n)
                == Prepend(builder, GateElements(a, b, aOff, bOff, op, et, i, n))
    {
      var e := GateStep(a, b, aOff, bOff, op, et, i, n);
      if e.Err? {
        return Err(e.error);
      }
      PrependStep(builder, e.value, GateElements(a, b, aOff, bOff, op, et, i + 1, n));
      builder := builder + [e.value];
      i := i + 1;
    }
    PrependEmpty2(builder);
    r := Ok(builder);
  }

  /** One pass of the gate loop: the gate on the elements at aOff + i and bOff + i. */
  method GateStep(a: Value, b: Value, aOff: int, bOff: int, op: BinOp, et: Ty, i: nat, n: nat)
    returns (r: Result<Value, Error>)
    requires i < n
    ensures r.Err? ==> GateElements(a, b, aOff, bOff, op, et, i, n) == Err(r.error)
    ensures r.Ok? ==> GateElements(a, b, aOff, bOff, op, et, i, n)
                      == Prepend([r.value], GateElements(a, b, aOff, bOff, op, et, i + 1, n))
    decreases a, 0
  {
    var p := ElementPair(a, b, aOff, bOff, i);
    if p.Err? {
      GateElementsPairFails(a, b, aOff, bOff, op, et, i, n);
      return Err(p.error);
    }
    assert a.elems == Backed(a.elems.vals) && p.value.0 in a.elems.vals;
    r := ComputeBinary(p.value.0, p.value.1, op, et);
    if r.Err? {
      GateElementsElementFails(a, b, aOff, bOff, op, et, i, n, p.value.0, p.value.1);
    } else {
      GateElementsStep(a, b, aOff, bOff, op, et, i, n, p.value.0, p.value.1, r.value);
    }
  }

  lemma GateElementsPairFails(a: Value, b: Value, aOff: int, bOff: int, op: BinOp, et: Ty, i: nat, n: nat)
    requires i < n && ElementPair(a, b, aOff, bOff, i).Err?
    ensures GateElements(a, b, aOff, bOff, op, et, i, n) == Err(ElementPair(a, b, aOff, bOff, i).error)
  {
  }

  lemma GateElementsElementFails(a: Value, b: Value, aOff: int, bOff: int, op: BinOp, et: Ty, i: nat, n: nat,
                                 x: Value, y: Value)
    requires i < n && ElementPair(a, b, aOff, bOff, i) == Ok((x, y)) && BinaryResult(x, y, op, et).Err?
    ensures GateElements(a, b, aOff, bOff, op, et, i, n) == Err(BinaryResult(x, y, op, et).error)
  {
  }

  /** The comparison loop of array EQUAL/NEQUAL: stops at the first pair that is not equalsValue-true. */
  method EqualLoop(a: Value, b: Value, o1: int, o2: int, n: nat) returns (r: Result<bool, Error>)
    ensures r == ElementsEqual(a, b, o1, o2, 0, n)
  {
    var i := 0;
    while i < n
      invariant 0 <= i <= n
      invariant ElementsEqual(a, b, o1, o2, 0, n) == ElementsEqual(a, b, o1, o2, i, n)
    {
      var va := GetValue(a, i + o1);
      if va.Err? {
        return Err(va.error);
      }
      var vb := GetValue(b, i + o2);
      if vb.Err? {
        return Err(vb.error);
      }
      if va.value.None? || vb.value.None? {
        return Err(NullValue);
      }
      var e := EqualsValue(va.value.value, vb.value.value);
      if e.Err? {
        return Err(e.error);
      }
      if !e.value {
        return Ok(false);
      }
      i := i + 1;
    }
    r := Ok(true);
  }
}

=== FILE: StaticValues.dfy ===
/**
 * The static (compile-time) values of the instantiation graph: the closed family of
 * value variants of IGStaticValue, the static types they carry, the accessors every
 * variant answers (with the base-class defaults and exceptions), equalsValue and
 * generateZ.
 */
module StaticValues {
  import opened Wrappers

  /** An enumeration literal: a character literal ('0', 'Z', ...) or an identifier (FALSE, TRUE, ...). */
  datatype Lit = CharLit(c: char) | IdLit(id: string)

  /** A static index range: its low bound and its cardinality. */
  datatype IndexRange = IndexRange(low: int, card: nat)

  datatype Field = Field(id: string, ty: Ty)

  /** Static types, one constructor per type category. */
  datatype Ty =
    | IntegerTy
    | PhysicalTy
    | RealTy
    | EnumTy(id: string, lits: seq<Lit>, isBool: bool, isBit: bool, isLogic: bool)
    | ArrayTy(elem: Ty, index: IndexRange, unconstrained: bool)
    | RecordTy(fields: seq<Field>)
    | RangeTy
    | FileTy
    | AccessTy

  datatype Cat = INTEGER | PHYSICAL | REAL | ENUM | ARRAY | RECORD | RANGE | FILE | ACCESS

  function CatOf(t: Ty): Cat {
    match t
    case IntegerTy => INTEGER
    case PhysicalTy => PHYSICAL
    case RealTy => REAL
    case EnumTy(_, _, _, _, _) => ENUM
    case ArrayTy(_, _, _) => ARRAY
    case RecordTy(_) => RECORD
    case RangeTy => RANGE
    case FileTy => FILE
    case AccessTy => ACCESS
  }

  predicate IsScalar(t: Ty) {
    t.IntegerTy? || t.PhysicalTy? || t.RealTy? || t.EnumTy?
  }

  /**
   * The value variants. RealVal holds an exact rational in place of a BigDecimal.
   * An ArrayVal of an unconstrained type has no element list (`Unbacked`).
   * BoolDup is INNER_BOOLEAN_DUPLICATE, the only variant without a type.
   */
  datatype Value =
    | IntVal(ty: Ty, num: int)
    | RealVal(ty: Ty, r: real)
    | ArrayVal(ty: Ty, offset: int, elems: Elements)
    | RangeVal(ty: Ty, left: Value, right: Value, ascending: Value)
    | EnumVal(ty: Ty, ord: int)
    | CharVal(ty: Ty, ord: int, ch: char)
    | FileVal(ty: Ty, file: Option<string>)
    | RecordVal(ty: Ty, fields: seq<(string, Value)>)
    | BoolDup(truth: bool)

  /** The element list of an array value; arrays of unconstrained types have none. */
  datatype Elements = Unbacked | Backed(vals: seq<Value>)

  /** Why an operation gives up: Err(NullValue) is a null dereference in the source, the others are its exceptions. */
  datatype Error =
    | Unsupported
    | LengthMismatch
    | IndexOutOfBounds
    | NotArray
    | NotRecord
    | NotRange
    | NotDiscrete
    | ArithmeticError
    | NullValue
    | NoSuchLiteral
    | UnsupportedResolution
    | InternalError
    | NegativeSize
    | Unmodelled

  // ---------------------------------------------------------------
  // Java integer widths
  // ---------------------------------------------------------------

  const TWO_32: int := 0x1_0000_0000
  const TWO_64: int := 0x1_0000_0000_0000_0000

  /** The `(int)` narrowing of a Java integer: two's-complement wrap-around to 32 bits. */
  function Wrap32(x: int): (r: int)
    ensures -TWO_32 / 2 <= r < TWO_32 / 2
    ensures (r - x) % TWO_32 == 0
    ensures -TWO_32 / 2 <= x < TWO_32 / 2 ==> r == x
  {
    (x + TWO_32 / 2) % TWO_32 - TWO_32 / 2
  }

  /** BigInteger.longValue: the low 64 bits read as a signed long. */
  function Wrap64(x: int): (r: int)
    ensures -TWO_64 / 2 <= r < TWO_64 / 2
    ensures (r - x) % TWO_64 == 0
    ensures -TWO_64 / 2 <= x < TWO_64 / 2 ==> r == x
  {
    (x + TWO_64 / 2) % TWO_64 - TWO_64 / 2
  }

  // ---------------------------------------------------------------
  // Well-typedness of the values the builder produces
  // ---------------------------------------------------------------

  /** `v` is literal number `v.ord` of enumeration type `t`: an identifier or a character literal. */
  predicate LiteralOf(v: Value, t: Ty) {
    t.EnumTy? && (v.EnumVal? || v.CharVal?) && v.ty == t && 0 <= v.ord < |t.lits|
    && (if v.EnumVal? then t.lits[v.ord].IdLit? else t.lits[v.ord] == CharLit(v.ch))
  }

  /** `v` is a value the builder would construct for static type `t`. */
  predicate HasType(v: Value, t: Ty)
    decreases t
  {
    match t
    case IntegerTy => v.IntVal? && v.ty == t
    case PhysicalTy => v.IntVal? && v.ty == t
    case RealTy => v.RealVal? && v.ty == t
    case EnumTy(_, _, _, _, _) => LiteralOf(v, t)
    case ArrayTy(et, idx, unc) =>
      v.ArrayVal? && v.ty == t
      && (if unc then v.offset == 0 && v.elems.Unbacked?
          else v.offset == idx.low && v.elems.Backed? && |v.elems.vals| == idx.card
               && forall e | e in v.elems.vals :: HasType(e, et))
    case RecordTy(fs) =>
      v.RecordVal? && v.ty == t && |v.fields| == |fs|
      && forall i | 0 <= i < |fs| :: v.fields[i].0 == fs[i].id && HasType(v.fields[i].1, fs[i].ty)
    case RangeTy => v.RangeVal? && v.ty == t
    case FileTy => v.FileVal? && v.ty == t
    case AccessTy => false
  }

  /** The array value built for array type `t` from a builder holding `elems` at the positions of t's index range. */
  function MkArray(t: Ty, elems: seq<Value>): (r: Value)
    requires t.ArrayTy?
    ensures r.ArrayVal? && r.ty == t
    ensures t.unconstrained ==> r.offset == 0 && r.elems.Unbacked?
    ensures !t.unconstrained ==> r.offset == t.index.low && r.elems == Backed(elems)
  {
    if t.unconstrained then ArrayVal(t, 0, Unbacked) else ArrayVal(t, t.index.low, Backed(elems))
  }

  // ---------------------------------------------------------------
  // Accessors, with the base-class defaults
  // ---------------------------------------------------------------

  /** getOrd: the ordinal of an enumeration literal, BigInteger.longValue of an INT, an exception otherwise. */
  function GetOrd(v: Value): (r: Result<int, Error>)
    ensures r.Ok? <==> v.EnumVal? || v.CharVal? || v.IntVal?
    ensures (v.EnumVal? || v.CharVal?) ==> r == Ok(v.ord)
    ensures v.IntVal? ==> r.Ok? && (r.value - v.num) % TWO_64 == 0
  {
    match v
    case EnumVal(_, o) => Ok(o)
    case CharVal(_, o, _) => Ok(o)
    case IntVal(_, n) => Ok(Wrap64(n))
    case _ => Err(NotDiscrete)
  }

  /** isTrue: literal number 1 of an enumeration, the truth value of a BoolDup, false for everything else. */
  function IsTrue(v: Value): bool {
    match v
    case EnumVal(_, o) => o == 1
    case CharVal(_, o, _) => o == 1
    case BoolDup(b) => b
    case _ => false
  }

  /** getCharLiteral: the character of a character literal, the NUL character for every other value. */
  function CharLiteralOf(v: Value): char {
    if v.CharVal? then v.ch else '\0'
  }

  /** getArrayOffset: the low index of an array value, -1 for every other value. */
  function ArrayOffset(v: Value): int {
    if v.ArrayVal? then v.offset else -1
  }

  /** getNumArrayEntries: the element count; a missing element list is a null dereference, a non-array an exception. */
  function NumArrayEntries(v: Value): (r: Result<nat, Error>)
    ensures r.Ok? <==> v.ArrayVal? && v.elems.Backed?
    ensures r.Ok? ==> r.value == |v.elems.vals|
  {
    if !v.ArrayVal? then Err(NotArray)
    else if v.elems.Unbacked? then Err(NullValue)
    else Ok(|v.elems.vals|)
  }

  /**
   * ARRAY.getValue(idx): null (Ok(None)) without an element list; an exception outside
   * [offset, offset + size - 1]; otherwise element idx - offset. Non-arrays throw.
   */
  function GetValue(v: Value, idx: int): (r: Result<Option<Value>, Error>)
    ensures r == Err(NotArray) <==> !v.ArrayVal?
    ensures r == Ok(None) <==> v.ArrayVal? && v.elems.Unbacked?
    ensures r == Err(IndexOutOfBounds) <==>
              v.ArrayVal? && v.elems.Backed? && !(v.offset <= idx <= v.offset + |v.elems.vals| - 1)
    ensures r.Ok? && r.value.Some? ==>
              v.ArrayVal? && v.elems.Backed? && 0 <= idx - v.offset < |v.elems.vals|
              && r.value.value == v.elems.vals[idx - v.offset]
              && r.value.value in v.elems.vals
  {
    match v
    case ArrayVal(_, off, Unbacked) => Ok(None)
    case ArrayVal(_, off, Backed(vals)) =>
      if idx < off || idx > off + |vals| - 1 then Err(IndexOutOfBounds)
      else Ok(Some(vals[idx - off]))
    case _ => Err(NotArray)
  }

  /**
   * Position of the field `id` in a record's field list, searching from the end: the
   * record's map keeps the value put last for a name.
   */
  function FieldIndex(fields: seq<(string, Value)>, id: string): (r: Option<nat>)
    ensures r.Some? ==> r.value < |fields| && fields[r.value].0 == id
                        && forall j | r.value < j < |fields| :: fields[j].0 != id
    ensures r.None? ==> forall j | 0 <= j < |fields| :: fields[j].0 != id
  {
    if |fields| == 0 then None
    else if fields[|fields| - 1].0 == id then Some(|fields| - 1)
    else FieldIndex(fields[..|fields| - 1], id)
  }

  /** EnumType.getEnumLiteral(ord): the literal with that position; an exception when there is none. */
  function EnumLiteral(t: Ty, ord: int): (r: Result<Value, Error>)
    ensures r.Ok? <==> t.EnumTy? && 0 <= ord < |t.lits|
    ensures r.Ok? ==> LiteralOf(r.value, t) && r.value.ord == ord
  {
    if t.EnumTy? && 0 <= ord < |t.lits| then
      match t.lits[ord]
      case CharLit(c) => Ok(CharVal(t, ord, c))
      case IdLit(_) => Ok(EnumVal(t, ord))
    else Err(NoSuchLiteral)
  }

  function FindCharLit(lits: seq<Lit>, c: char): (r: Option<nat>)
    ensures r.Some? ==> r.value < |lits| && lits[r.value] == CharLit(c)
                        && forall j | 0 <= j < r.value :: lits[j] != CharLit(c)
    ensures r.None? ==> forall j | 0 <= j < |lits| :: lits[j] != CharLit(c)
  {
    if |lits| == 0 then None
    else if lits[0] == CharLit(c) then Some(0)
    else match FindCharLit(lits[1..], c)
      case None => None
      case Some(k) => Some(k + 1)
  }

  /** findEnumLiteral(c): the first character literal `c` of an enumeration type, null if there is none. */
  function FindEnumLiteral(t: Ty, c: char): (r: Option<Value>)
    ensures r.Some? <==> t.EnumTy? && CharLit(c) in t.lits
    ensures r.Some? ==> LiteralOf(r.value, t) && r.value.CharVal? && r.value.ch == c
  {
    if !t.EnumTy? then None
    else match FindCharLit(t.lits, c)
      case None => None
      case Some(k) => Some(CharVal(t, k, c))
  }

  /** getStaticLow of an enumeration type: its first literal. */
  function StaticLow(t: Ty): (r: Result<Value, Error>)
    ensures r.Ok? <==> t.EnumTy? && |t.lits| > 0
    ensures r.Ok? ==> LiteralOf(r.value, t) && r.value.ord == 0
  {
    EnumLiteral(t, 0)
  }

  // ---------------------------------------------------------------
  // Ranges
  // ---------------------------------------------------------------

  /** RANGE.getRangeMin: the left bound of an ascending range, the right bound otherwise; non-ranges throw. */
  function RangeMin(v: Value): (r: Result<Value, Error>)
    ensures r.Ok? <==> v.RangeVal?
    ensures r.Ok? ==> r.value == (if IsTrue(v.ascending) then v.left else v.right)
  {
    if v.RangeVal? then Ok(if IsTrue(v.ascending) then v.left else v.right) else Err(NotRange)
  }

  /** RANGE.getRangeMax: the right bound of an ascending range, the left bound otherwise; non-ranges throw. */
  function RangeMax(v: Value): (r: Result<Value, Error>)
    ensures r.Ok? <==> v.RangeVal?
    ensures r.Ok? ==> r.value == (if IsTrue(v.ascending) then v.right else v.left)
  {
    if v.RangeVal? then Ok(if IsTrue(v.ascending) then v.right else v.left) else Err(NotRange)
  }

  /** Min and max are the two bounds, one each, whatever the direction. */
  lemma RangeMinMaxAreBounds(v: Value)
    requires v.RangeVal?
    ensures {RangeMin(v).value, RangeMax(v).value} == {v.left, v.right}
    ensures IsTrue(v.ascending) ==> RangeMin(v).value == v.left && RangeMax(v).value == v.right
    ensures !IsTrue(v.ascending) ==> RangeMin(v).value == v.right && RangeMax(v).value == v.left
  {
  }

  // ---------------------------------------------------------------
  // equalsValue
  // ---------------------------------------------------------------

  /**
   * equalsValue: structural equality of two values. Different categories are unequal;
   * character literals compare characters, other scalars compare getOrd (so REAL values
   * throw); arrays compare offset, size and elements; records compare field names and
   * values in the type's field order; any other category throws.
   */
  function EqualsValue(a: Value, b: Value): (r: Result<bool, Error>)
    ensures !a.BoolDup? && !b.BoolDup? && CatOf(a.ty) != CatOf(b.ty) ==> r == Ok(false)
    ensures a.BoolDup? || b.BoolDup? ==> r == Err(NullValue)
    decreases a, 2, 0
  {
    if a.BoolDup? || b.BoolDup? then Err(NullValue)
    else if CatOf(a.ty) != CatOf(b.ty) then Ok(false)
    else if IsScalar(a.ty) then
      if a.CharVal? != b.CharVal? then Ok(false)
      else if a.CharVal? then Ok(a.ch == b.ch)
      else
        var o1 :- GetOrd(a);
        var o2 :- GetOrd(b);
        Ok(o1 == o2)
    else if a.ty.ArrayTy? then
      var o1 := ArrayOffset(a);
      var o2 := ArrayOffset(b);
      var n1 :- NumArrayEntries(a);
      var n2 :- NumArrayEntries(b);
      if n1 != n2 || o1 != o2 then Ok(false)
      else ElementsEqual(a, b, o1, o2, 0, n1)
    else if a.ty.RecordTy? then
      var fs1 := a.ty.fields;
      var fs2 := b.ty.fields;
      if |fs1| != |fs2| then Ok(false)
      else FieldsEqual(a, b, fs1, fs2, 0)
    else Err(Unsupported)
  }

  /** The element loop of equalsValue (and of array EQUAL/NEQUAL), from position i to n - 1. */
  function ElementsEqual(a: Value, b: Value, o1: int, o2: int, i: nat, n: nat): (r: Result<bool, Error>)
    decreases a, 1, n - i
  {
    if i >= n then Ok(true)
    else
      var v1 :- GetValue(a, i + o1);
      var v2 :- GetValue(b, i + o2);
      if v1.None? || v2.None? then Err(NullValue)
      else
        var e :- EqualsValue(v1.value, v2.value);
        if !e then Ok(false) else ElementsEqual(a, b, o1, o2, i + 1, n)
  }

  /** The field loop of equalsValue, over the two record types' field lists from position i. */
  function FieldsEqual(a: Value, b: Value, fs1: seq<Field>, fs2: seq<Field>, i: nat): (r: Result<bool, Error>)
    requires |fs1| == |fs2|
    decreases a, 1, |fs1| - i
  {
    if i >= |fs1| then Ok(true)
    else if fs1[i].id != fs2[i].id then Ok(false)
    else if !a.RecordVal? || !b.RecordVal? then Err(NotRecord)
    else
      var k1 := FieldIndex(a.fields, fs1[i].id);
      var k2 := FieldIndex(b.fields, fs2[i].id);
      if k1.None? || k2.None? then Err(NullValue)
      else
        var e :- EqualsValue(a.fields[k1.value].1, b.fields[k2.value].1);
        if !e then Ok(false) else FieldsEqual(a, b, fs1, fs2, i + 1)
  }

  /** The types on which equalsValue is defined all the way down (no REAL, range, file or access part). */
  predicate Comparable(t: Ty)
    decreases t
  {
    match t
    case IntegerTy => true
    case PhysicalTy => true
    case EnumTy(_, _, _, _, _) => true
    case ArrayTy(et, _, unc) => !unc && Comparable(et)
    case RecordTy(fs) => forall i | 0 <= i < |fs| :: Comparable(fs[i].ty)
    case _ => false
  }

  /** Two arrays of different offset or size are unequal whatever their elements. */
  lemma EqualsValueArrayShape(a: Value, b: Value)
    requires a.ArrayVal? && b.ArrayVal? && a.ty.ArrayTy? && b.ty.ArrayTy?
    requires a.elems.Backed? && b.elems.Backed?
    requires a.offset != b.offset || |a.elems.vals| != |b.elems.vals|
    ensures EqualsValue(a, b) == Ok(false)
  {
  }

  /**
   * INT values (INTEGER and PHYSICAL) compare by getOrd, that is by their low 64 bits: two
   * numbers are equal exactly when they differ by a multiple of 2^64.
   */
  lemma EqualsValueIntWraps(t: Ty, x: int, y: int)
    requires t.IntegerTy? || t.PhysicalTy?
    ensures EqualsValue(IntVal(t, x), IntVal(t, y)) == Ok(Wrap64(x) == Wrap64(y))
    ensures EqualsValue(IntVal(t, x), IntVal(t, y)) == Ok((x - y) % TWO_64 == 0)
  {
    Wrap64Congruent(x, y);
  }

  /** Two numbers have the same low 64 bits exactly when they differ by a multiple of 2^64. */
  lemma Wrap64Congruent(x: int, y: int)
    ensures Wrap64(x) == Wrap64(y) <==> (x - y) % TWO_64 == 0
  {
    var h := TWO_64 / 2;
    var qx, qy := (x + h) / TWO_64, (y + h) / TWO_64;
    assert x + h == qx * TWO_64 + (x + h) % TWO_64;
    assert y + h == qy * TWO_64 + (y + h) % TWO_64;
    assert x - y == (qx - qy) * TWO_64 + (Wrap64(x) - Wrap64(y));
    if (x - y) % TWO_64 == 0 {
      var d := Wrap64(x) - Wrap64(y);
      assert d == (x - y) - (qx - qy) * TWO_64;
      assert d % TWO_64 == 0;
      assert -TWO_64 < d < TWO_64;
    }
  }

  /** equalsValue is reflexive on every well-typed value of a comparable type. */
  lemma {:induction false} EqualsValueReflexive(v: Value, t: Ty)
    requires HasType(v, t) && Comparable(t)
    ensures EqualsValue(v, v) == Ok(true)
    decreases t, 1
  {
    match t
    case ArrayTy(et, idx, unc) =>
      ElementsEqualReflexive(v, et, 0);
    case RecordTy(fs) =>
      FieldsEqualReflexive(v, fs, 0);
    case _ =>
  }

  lemma {:induction false} ElementsEqualReflexive(v: Value, et: Ty, i: nat)
    requires v.ArrayVal? && v.elems.Backed? && Comparable(et)
    requires forall e | e in v.elems.vals :: HasType(e, et)
    ensures ElementsEqual(v, v, v.offset, v.offset, i, |v.elems.vals|) == Ok(true)
    decreases et, 2, |v.elems.vals| - i
  {
    if i < |v.elems.vals| {
      var e := v.elems.vals[i];
      assert GetValue(v, i + v.offset) == Ok(Some(e));
      EqualsValueReflexive(e, et);
      ElementsEqualReflexive(v, et, i + 1);
    }
  }

  lemma {:induction false} FieldsEqualReflexive(v: Value, fs: seq<Field>, i: nat)
    requires v.RecordVal? && v.ty == RecordTy(fs) && |v.fields| == |fs|
    requires forall j | 0 <= j < |fs| :: Comparable(fs[j].ty)
    requires forall j | 0 <= j < |fs| :: v.fields[j].0 == fs[j].id && HasType(v.fields[j].1, fs[j].ty)
    ensures FieldsEqual(v, v, fs, fs, i) == Ok(true)
    decreases RecordTy(fs), 0, |fs| - i
  {
    if i < |fs| {
      var k := FieldIndex(v.fields, fs[i].id);
      assert v.fields[i].0 == fs[i].id;
      assert k.Some?;
      var e := v.fields[k.value].1;
      assert HasType(e, fs[k.value].ty);
      assert fs[k.value] in fs;
      EqualsValueReflexive(e, fs[k.value].ty);
      FieldsEqualReflexive(v, fs, i + 1);
    }
  }

  /**
   * On two well-typed constrained arrays of the same type, equalsValue is true exactly
   * when every pair of elements is equalsValue-true, provided each pair compares without error.
   */
  lemma {:induction false} EqualsValueArrayElementwise(a: Value, b: Value, i: nat)
    requires a.ArrayVal? && b.ArrayVal? && a.elems.Backed? && b.elems.Backed?
    requires a.offset == b.offset && |a.elems.vals| == |b.elems.vals| && i <= |a.elems.vals|
    requires forall k | i <= k < |a.elems.vals| ::
               EqualsValue(a.elems.vals[k], b.elems.vals[k]).Ok?
    ensures ElementsEqual(a, b, a.offset, b.offset, i, |a.elems.vals|).Ok?
    ensures ElementsEqual(a, b, a.offset, b.offset, i, |a.elems.vals|).value <==>
            forall k | i <= k < |a.elems.vals| ::
              EqualsValue(a.elems.vals[k], b.elems.vals[k]).value
    decreases |a.elems.vals| - i
  {
    var n := |a.elems.vals|;
    if i < n {
      assert GetValue(a, i + a.offset) == Ok(Some(a.elems.vals[i]));
      assert GetValue(b, i + b.offset) == Ok(Some(b.elems.vals[i]));
      var e := EqualsValue(a.elems.vals[i], b.elems.vals[i]);
      assert ElementsEqual(a, b, a.offset, b.offset, i, n)
             == if !e.value then Ok(false) else ElementsEqual(a, b, a.offset, b.offset, i + 1, n);
      EqualsValueArrayElementwise(a, b, i + 1);
      if e.value {
        assert (forall k | i <= k < |a.elems.vals| ::
                  EqualsValue(a.elems.vals[k], b.elems.vals[k]).value)
               <==> (forall k | i + 1 <= k < |a.elems.vals| ::
                  EqualsValue(a.elems.vals[k], b.elems.vals[k]).value);
      } else {
        assert !(forall k | i <= k < |a.elems.vals| ::
                   EqualsValue(a.elems.vals[k], b.elems.vals[k]).value);
      }
    }
  }

  /**
   * equalsValue on two backed arrays with the same offset and size is the element loop; when
   * every pair compares without error, it is true exactly when every pair is equal.
   */
  lemma EqualsValueArrays(a: Value, b: Value)
    requires a.ArrayVal? && b.ArrayVal? && a.ty.ArrayTy? && b.ty.ArrayTy? && a.elems.Backed? && b.elems.Backed?
    requires a.offset == b.offset && |a.elems.vals| == |b.elems.vals|
    ensures EqualsValue(a, b) == ElementsEqual(a, b, a.offset, b.offset, 0, |a.elems.vals|)
    ensures (forall k | 0 <= k < |a.elems.vals| :: EqualsValue(a.elems.vals[k], b.elems.vals[k]).Ok?) ==>
              EqualsValue(a, b)
              == Ok(forall k | 0 <= k < |a.elems.vals| :: EqualsValue(a.elems.vals[k], b.elems.vals[k]).value)
  {
    if forall k | 0 <= k < |a.elems.vals| :: EqualsValue(a.elems.vals[k], b.elems.vals[k]).Ok? {
      EqualsValueArrayElementwise(a, b, 0);
    }
  }

  /**
   * equalsValue on same-shape arrays stops at the first unequal pair: the answer is false
   * whatever the later elements are, even ones that could not be compared.
   */
  lemma EqualsValueStopsAtMismatch(a: Value, b: Value, j: nat)
    requires a.ArrayVal? && b.ArrayVal? && a.ty.ArrayTy? && b.ty.ArrayTy? && a.elems.Backed? && b.elems.Backed?
    requires a.offset == b.offset && |a.elems.vals| == |b.elems.vals| && j < |a.elems.vals|
    requires forall k | 0 <= k < j :: EqualsValue(a.elems.vals[k], b.elems.vals[k]) == Ok(true)
    requires EqualsValue(a.elems.vals[j], b.elems.vals[j]) == Ok(false)
    ensures EqualsValue(a, b) == Ok(false)
  {
    ElementsEqualMismatch(a, b, 0, j);
  }

  lemma {:induction false} ElementsEqualMismatch(a: Value, b: Value, i: nat, j: nat)
    requires a.ArrayVal? && b.ArrayVal? && a.elems.Backed? && b.elems.Backed?
    requires a.offset == b.offset && |a.elems.vals| == |b.elems.vals| && i <= j < |a.elems.vals|
    requires forall k | i <= k < j :: EqualsValue(a.elems.vals[k], b.elems.vals[k]) == Ok(true)
    requires EqualsValue(a.elems.vals[j], b.elems.vals[j]) == Ok(false)
    ensures ElementsEqual(a, b, a.offset, b.offset, i, |a.elems.vals|) == Ok(false)
    decreases j - i
  {
    assert GetValue(a, i + a.offset) == Ok(Some(a.elems.vals[i]));
    assert GetValue(b, i + b.offset) == Ok(Some(b.elems.vals[i]));
    if i < j {
      ElementsEqualMismatch(a, b, i + 1, j);
    }
  }

  // ---------------------------------------------------------------
  // generateZ
  // ---------------------------------------------------------------

  /**
   * The value generateZ builds for type `t`: the 'Z' literal of STD_LOGIC when the weakest
   * value is asked for, the low literal of any other enumeration, 0 / 0.0 for numbers, the
   * element default in every position of a constrained array, the field defaults of a
   * record, an empty file; ranges are an internal error.
   */
  function DefaultValue(t: Ty, weakest: bool): Result<Value, Error>
    decreases t, 1
  {
    match t
    case EnumTy(id, _, _, _, _) =>
      if weakest && id == "STD_LOGIC" then
        (match FindEnumLiteral(t, 'Z') case Some(z) => Ok(z) case None => Err(NoSuchLiteral))
      else StaticLow(t)
    case ArrayTy(et, idx, unc) =>
      var o :- DefaultValue(et, weakest);
      Ok(MkArray(t, seq(idx.card, _ => o)))
    case FileTy => Ok(FileVal(t, None))
    case IntegerTy => Ok(IntVal(t, 0))
    case PhysicalTy => Ok(IntVal(t, 0))
    case RealTy => Ok(RealVal(t, 0.0))
    case RecordTy(fs) =>
      var vs :- DefaultFields(fs, 0, weakest);
      Ok(RecordVal(t, vs))
    case AccessTy => Err(Unmodelled)
    case RangeTy => Err(InternalError)
  }

  /** `vs` followed by the successful result `r`, or the failure of `r`. */
  function Prepend<T>(vs: seq<T>, r: Result<seq<T>, Error>): Result<seq<T>, Error> {
    if r.Err? then r else Ok(vs + r.value)
  }

  lemma PrependEmpty<T>(r: Result<seq<T>, Error>)
    ensures Prepend([], r) == r
  {
    if r.Ok? {
      assert [] + r.value == r.value;
    }
  }

  function DefaultFields(fs: seq<Field>, i: nat, weakest: bool): Result<seq<(string, Value)>, Error>
    decreases RecordTy(fs), 0, |fs| - i
  {
    if i >= |fs| then Ok([])
    else
      var o :- DefaultValue(fs[i].ty, weakest);
      var rest :- DefaultFields(fs, i + 1, weakest);
      Ok([(fs[i].id, o)] + rest)
  }

  /** A default value always has the type it was generated for. */
  lemma {:induction false} DefaultValueHasType(t: Ty, weakest: bool)
    requires DefaultValue(t, weakest).Ok?
    ensures HasType(DefaultValue(t, weakest).value, t)
    decreases t, 1
  {
    var v := DefaultValue(t, weakest).value;
    match t
    case ArrayTy(et, idx, unc) =>
      DefaultValueHasType(et, weakest);
      var o := DefaultValue(et, weakest).value;
      assert v == MkArray(t, seq(idx.card, _ => o));
      if !unc {
        forall e | e in v.elems.vals
          ensures HasType(e, et)
        {
        }
      }
    case RecordTy(fs) =>
      DefaultFieldsHaveTypes(fs, 0, weakest);
      assert v == RecordVal(t, DefaultFields(fs, 0, weakest).value);
    case EnumTy(_, _, _, _, _) =>
    case _ =>
  }

  lemma {:induction false} DefaultFieldsHaveTypes(fs: seq<Field>, i: nat, weakest: bool)
    requires i <= |fs| && DefaultFields(fs, i, weakest).Ok?
    ensures |DefaultFields(fs, i, weakest).value| == |fs| - i
    ensures forall j | 0 <= j < |fs| - i ::
              DefaultFields(fs, i, weakest).value[j].0 == fs[i + j].id
              && HasType(DefaultFields(fs, i, weakest).value[j].1, fs[i + j].ty)
    decreases RecordTy(fs), 0, |fs| - i
  {
    if i < |fs| {
      assert fs[i] in fs;
      DefaultValueHasType(fs[i].ty, weakest);
      DefaultFieldsHaveTypes(fs, i + 1, weakest);
    }
  }

  /** The weakest default of STD_LOGIC is 'Z'; otherwise an enumeration defaults to its first literal. */
  lemma DefaultValueEnum(t: Ty, weakest: bool)
    requires t.EnumTy? && |t.lits| > 0
    ensures weakest && t.id == "STD_LOGIC" && CharLit('Z') in t.lits ==>
              DefaultValue(t, weakest).Ok? && DefaultValue(t, weakest).value.ch == 'Z'
    ensures !(weakest && t.id == "STD_LOGIC") ==>
              DefaultValue(t, weakest).Ok? && DefaultValue(t, weakest).value.ord == 0
  {
  }

  /**
   * generateZ: builds the default value of `t`, filling every position of a constrained
   * array with the element default through the builder.
   */
  method GenerateZ(t: Ty, weakest: bool) returns (r: Result<Value, Error>)
    ensures r == DefaultValue(t, weakest)
    ensures r.Ok? ==> HasType(r.value, t)
    decreases t, 2
  {
    if t.ArrayTy? {
      r := GenerateArrayZ(t, weakest);
    } else if t.RecordTy? {
      r := GenerateRecordZ(t, weakest);
    } else {
      r := DefaultValue(t, weakest);
    }
    if r.Ok? {
      DefaultValueHasType(t, weakest);
    }
  }

  /** The array case of generateZ: the element default repeated through the builder. */
  method GenerateArrayZ(t: Ty, weakest: bool) returns (r: Result<Value, Error>)
    requires t.ArrayTy?
    ensures r == DefaultValue(t, weakest)
    decreases t, 1
  {
    var o := GenerateZ(t.elem, weakest);
    if o.Err? {
      return Err(o.error);
    }
    var builder: seq<Value> := [];
    if !t.unconstrained {
      var n := t.index.card;
      var i := 0;
      while i < n
        invariant 0 <= i <= n
        invariant builder == seq(i, _ => o.value)
      {
        builder := builder + [o.value];
        i := i + 1;
      }
    }
    ArrayDefault(t, weakest, o.value, builder);
    r := Ok(MkArray(t, builder));
  }

  lemma ArrayDefault(t: Ty, weakest: bool, o: Value, builder: seq<Value>)
    requires t.ArrayTy? && DefaultValue(t.elem, weakest) == Ok(o)
    requires !t.unconstrained ==> builder == seq(t.index.card, _ => o)
    ensures DefaultValue(t, weakest) == Ok(MkArray(t, builder))
  {
    assert DefaultValue(t, weakest) == Ok(MkArray(t, seq(t.index.card, _ => o)));
  }

  /** The record case of generateZ: the field defaults in declaration order. */
  method GenerateRecordZ(t: Ty, weakest: bool) returns (r: Result<Value, Error>)
    requires t.RecordTy?
    ensures r == DefaultValue(t, weakest)
    decreases t, 1
  {
    var fs := t.fields;
    var vs: seq<(string, Value)> := [];
    var i := 0;
    PrependEmpty(DefaultFields(fs, 0, weakest));
    while i < |fs|
      invariant 0 <= i <= |fs|
      invariant DefaultFields(fs, 0, weakest) == Prepend(vs, DefaultFields(fs, i, weakest))
    {
      assert fs[i] in fs;
      var o := GenerateZ(fs[i].ty, weakest);
      if o.Err? {
        DefaultFieldsFail(fs, i, weakest);
        return Err(o.error);
      }
      DefaultFieldsStep(fs, i, weakest, o.value, vs);
      vs := vs + [(fs[i].id, o.value)];
      i := i + 1;
    }
    assert vs + [] == vs;
    r := Ok(RecordVal(t, vs));
  }


  lemma DefaultFieldsStep(fs: seq<Field>, i: nat, weakest: bool, o: Value, vs: seq<(string, Value)>)
    requires i < |fs| && DefaultValue(fs[i].ty, weakest) == Ok(o)
    ensures Prepend(vs, DefaultFields(fs, i, weakest))
            == Prepend(vs + [(fs[i].id, o)], DefaultFields(fs, i + 1, weakest))
  {
    var rest := DefaultFields(fs, i + 1, weakest);
    if rest.Ok? {
      assert vs + ([(fs[i].id, o)] + rest.value) == (vs + [(fs[i].id, o)]) + rest.value;
    }
  }

  lemma DefaultFieldsFail(fs: seq<Field>, i: nat, weakest: bool)
    requires i < |fs| && DefaultValue(fs[i].ty, weakest).Err?
    ensures DefaultFields(fs, i, weakest) == Err(DefaultValue(fs[i].ty, weakest).error)
  {
  }
}

=== FILE: StdLogic.dfy ===
/**
 * The character-level rules of the 9-valued logic alphabet (U X 0 1 Z W L H -)
 * used by IGStaticValue: the AND/OR/NAND/NOR/XOR/XNOR gate rules of computeBinary
 * and the per-driver transition of resolveStdLogic.
 */
module StdLogic {
  import opened Wrappers

  const Alphabet: string := "UX01ZWLH-"

  predicate IsLogicChar(c: char) {
    c in Alphabet
  }

  predicate IsBit(c: char) {
    c == '0' || c == '1'
  }

  /** The boolean reading of '0'/'1' and back. */
  function ToBool(c: char): bool {
    c == '1'
  }

  function FromBool(b: bool): char {
    if b then '1' else '0'
  }

  /** Swaps '0' and '1' and leaves every other character alone. */
  function Flip01(c: char): char {
    if c == '0' then '1' else if c == '1' then '0' else c
  }

  // ---------------------------------------------------------------
  // Gate rules: the left operand is inspected first; these are NOT
  // the IEEE Std 1164 gate tables.
  // ---------------------------------------------------------------

  function And(a: char, b: char): char {
    if a == '0' then '0' else if a == '1' then b else a
  }

  function Nand(a: char, b: char): char {
    if a == '0' then '1'
    else if a == '1' then (if b == '0' then '1' else if b == '1' then '0' else b)
    else a
  }

  function Nor(a: char, b: char): char {
    if a == '1' then '0'
    else if a == '0' then (if b == '0' then '1' else if b == '1' then '0' else b)
    else a
  }

  function Or(a: char, b: char): char {
    if a == '1' then '1'
    else if a == '0' then (if b == '0' then '0' else if b == '1' then '1' else b)
    else a
  }

  function Xor(a: char, b: char): char {
    if a == '1' then (if b == '1' then '0' else if b == '0' then '1' else 'X')
    else if a == '0' then (if b == '0' then '0' else if b == '1' then '1' else 'X')
    else 'X'
  }

  function Xnor(a: char, b: char): char {
    if a == '1' then (if b == '1' then '1' else if b == '0' then '0' else 'X')
    else if a == '0' then (if b == '0' then '1' else if b == '1' then '0' else 'X')
    else 'X'
  }

  /** AND: '0' on the left forces '0', '1' on the left passes the right operand, anything else on the left is returned unchanged. */
  lemma AndLeftFirst(a: char, b: char)
    ensures a == '0' ==> And(a, b) == '0'
    ensures a == '1' ==> And(a, b) == b
    ensures !IsBit(a) ==> And(a, b) == a
  {
  }

  /** OR mirrors AND with '1' dominating: it is AND conjugated by Flip01 (De Morgan), on every character. */
  lemma OrIsDualOfAnd(a: char, b: char)
    ensures Or(a, b) == Flip01(And(Flip01(a), Flip01(b)))
  {
  }

  /** The inverted gates are the plain gates followed by Flip01, on every character. */
  lemma InvertedGates(a: char, b: char)
    ensures Nand(a, b) == Flip01(And(a, b))
    ensures Nor(a, b) == Flip01(Or(a, b))
    ensures Xnor(a, b) == Flip01(Xor(a, b))
  {
  }

  /** The gates are not commutative: AND('Z','0') = 'Z' while AND('0','Z') = '0'. */
  lemma GatesNotCommutative()
    ensures And('Z', '0') == 'Z' && And('0', 'Z') == '0'
    ensures Or('Z', '1') == 'Z' && Or('1', 'Z') == '1'
  {
  }

  /** On '0'/'1' operands every gate agrees with the boolean operator. */
  lemma GatesOnBits(a: char, b: char)
    requires IsBit(a) && IsBit(b)
    ensures And(a, b) == FromBool(ToBool(a) && ToBool(b))
    ensures Or(a, b) == FromBool(ToBool(a) || ToBool(b))
    ensures Nand(a, b) == FromBool(!(ToBool(a) && ToBool(b)))
    ensures Nor(a, b) == FromBool(!(ToBool(a) || ToBool(b)))
    ensures Xor(a, b) == FromBool(ToBool(a) != ToBool(b))
    ensures Xnor(a, b) == FromBool(ToBool(a) == ToBool(b))
  {
  }

  /** XOR and XNOR give 'X' exactly when an operand is not '0'/'1', so they never produce 'U'. */
  lemma XorUnknown(a: char, b: char)
    ensures Xor(a, b) == 'X' <==> !(IsBit(a) && IsBit(b))
    ensures Xnor(a, b) == 'X' <==> !(IsBit(a) && IsBit(b))
    ensures Xor(a, b) != 'U' && Xnor(a, b) != 'U'
  {
  }

  // ---------------------------------------------------------------
  // Resolution
  // ---------------------------------------------------------------

  /**
   * One step of resolveStdLogic: the resolved character so far combined with the
   * next driver. None stands for the "not supported" exception raised for a current
   * character outside the alphabet.
   */
  function ResolveStep(cur: char, next: char): Option<char> {
    if cur == 'U' || next == 'U' then Some('U')
    else if cur == 'X' then Some('X')
    else if cur == '0' then Some(if next == 'X' || next == '1' || next == '-' then 'X' else '0')
    else if cur == '1' then Some(if next == 'X' || next == '0' || next == '-' then 'X' else '1')
    else if cur == 'Z' then Some(if next == '-' then 'X' else next)
    else if cur == 'W' then
      Some(if next == 'X' || next == '-' then 'X' else if next == '0' || next == '1' then next else 'W')
    else if cur == 'L' then
      Some(if next == 'X' || next == '-' then 'X'
           else if next == '0' || next == '1' || next == 'W' then next
           else if next == 'H' then 'W'
           else 'L')
    else if cur == 'H' then
      Some(if next == 'Z' then 'H' else if next == 'L' then 'W' else if next == '-' then 'X' else next)
    else if cur == '-' then Some('X')
    else None
  }

  /**
   * The resolution table of the `resolved` function in the body of the IEEE Std 1164
   * package std_logic_1164, rows and columns in the order U X 0 1 Z W L H -.
   */
  const IeeeResolution: seq<string> := [
    "UUUUUUUUU",
    "UXXXXXXXX",
    "UX0X0000X",
    "UXX11111X",
    "UX01ZWLHX",
    "UX01WWWWX",
    "UX01LWLWX",
    "UX01HWWHX",
    "UXXXXXXXX"
  ]

  function IndexOf(c: char): (k: nat)
    requires IsLogicChar(c)
    ensures k < |Alphabet| && Alphabet[k] == c
  {
    if c == 'U' then 0 else if c == 'X' then 1 else if c == '0' then 2 else if c == '1' then 3
    else if c == 'Z' then 4 else if c == 'W' then 5 else if c == 'L' then 6 else if c == 'H' then 7 else 8
  }

  function IeeeResolved(a: char, b: char): char
    requires IsLogicChar(a) && IsLogicChar(b)
  {
    IeeeResolution[IndexOf(a)][IndexOf(b)]
  }

  /** resolveStdLogic's step reproduces the IEEE 1164 resolution table cell for cell. */
  lemma ResolveStepIsIeeeTable(a: char, b: char)
    requires IsLogicChar(a) && IsLogicChar(b)
    ensures ResolveStep(a, b) == Some(IeeeResolved(a, b))
  {
  }

  /** 'U' dominates; a current character outside the alphabet is refused unless 'U' is involved. */
  lemma ResolveStepDomain(a: char, b: char)
    ensures (a == 'U' || b == 'U') ==> ResolveStep(a, b) == Some('U')
    ensures ResolveStep(a, b).None? <==> (!IsLogicChar(a) && b != 'U')
  {
  }

  /** On the alphabet, the step is commutative and stays in the alphabet. */
  lemma ResolveStepCommutes(a: char, b: char)
    requires IsLogicChar(a) && IsLogicChar(b)
    ensures ResolveStep(a, b) == ResolveStep(b, a)
    ensures ResolveStep(a, b).Some? && IsLogicChar(ResolveStep(a, b).value)
  {
  }

  /** 'Z' is the identity, '0' with '1' conflicts to 'X', 'L' with 'H' gives 'W', and 'X'/'-' absorb to 'X'. */
  lemma ResolveStepLaws(a: char)
    requires IsLogicChar(a)
    ensures ResolveStep('Z', a) == Some(if a == '-' then 'X' else a)
    ensures ResolveStep(a, 'Z') == Some(if a == '-' then 'X' else a)
    ensures ResolveStep('0', '1') == Some('X') && ResolveStep('L', 'H') == Some('W')
    ensures a != 'U' ==> ResolveStep('X', a) == Some('X') && ResolveStep('-', a) == Some('X')
  {
  }
}

=== FILE: TimedWakeup.dfy ===
/**
 * The interpreter statement SCHEDULE TIMED WAKEUP: it pops a duration off the runtime's
 * value stack, registers a wakeup at the current simulation time plus that duration and
 * pushes the absolute wakeup time back, so that a later timeout jump can compare against it.
 */
module TimedWakeup {
  import opened Wrappers
  import opened StaticValues

  /** The interpreter's answer to the statement loop; this statement only ever continues. */
  datatype ReturnStatus = Continue

  /** How executing the statement can fail. */
  datatype Fault =
    | StackUnderflow   // pop on an empty stack
    | NullNumber       // the popped value has no integer number (getNum answers null)

  /** The parts of the runtime the statement reads and changes. */
  datatype Machine = Machine(stack: seq<Value>, time: int, wakeups: seq<int>)

  /**
   * What one execution does to the runtime. The pop happens before the number is read, so a
   * value without a number leaves the stack one shorter and schedules nothing.
   */
  function Execute(m: Machine): (r: (Machine, Result<ReturnStatus, Fault>))
    ensures r.1.Ok? <==> |m.stack| > 0 && m.stack[|m.stack| - 1].IntVal?
    ensures |m.stack| == 0 ==> r == (m, Err(StackUnderflow))
    ensures r.1.Ok? ==>
              var top := m.stack[|m.stack| - 1];
              var w := m.time + top.num;
              && |r.0.stack| == |m.stack|
              && r.0.stack[..|m.stack| - 1] == m.stack[..|m.stack| - 1]
              && r.0.stack[|m.stack| - 1] == IntVal(top.ty, w)
              && r.0.wakeups == m.wakeups + [w]
              && r.0.time == m.time
    ensures r.1 == Err(NullNumber) ==>
              |m.stack| > 0 && r.0 == Machine(m.stack[..|m.stack| - 1], m.time, m.wakeups)
  {
    if |m.stack| == 0 then
      (m, Err(StackUnderflow))
    else
      var top := m.stack[|m.stack| - 1];
      var rest := m.stack[..|m.stack| - 1];
      if !top.IntVal? then
        (Machine(rest, m.time, m.wakeups), Err(NullNumber))
      else
        var w := m.time + top.num;
        (Machine(rest + [IntVal(top.ty, w)], m.time, m.wakeups + [w]), Ok(Continue))
  }

  /**
   * A successful execution keeps the stack depth, and the number it pushes is the time of
   * the wakeup it registered, never earlier than now for a non-negative duration.
   */
  lemma ExecutePushesWakeupTime(m: Machine)
    requires Execute(m).1.Ok?
    ensures var after := Execute(m).0;
            |after.stack| == |m.stack| && |after.wakeups| == |m.wakeups| + 1
            && after.stack[|after.stack| - 1].num == after.wakeups[|after.wakeups| - 1]
            && (m.stack[|m.stack| - 1].num >= 0 ==> after.wakeups[|after.wakeups| - 1] >= m.time)
  {
  }

  /** The runtime environment of the interpreter: its value stack, clock and pending wakeups. */
  class RuntimeEnv {
    var stack: seq<Value>
    var currentTime: int
    var wakeups: seq<int>

    function State(): Machine
      reads this
    {
      Machine(stack, currentTime, wakeups)
    }

    constructor (stack0: seq<Value>, time: int)
      ensures stack == stack0 && currentTime == time && wakeups == []
    {
      stack := stack0;
      currentTime := time;
      wakeups := [];
    }

    /** IGScheduleTimedWakeupStmt.execute against the runtime, step by step. */
    method ScheduleTimedWakeup() returns (r: Result<ReturnStatus, Fault>)
      modifies this
      ensures (State(), r) == Execute(old(State()))
    {
      if |stack| == 0 {
        return Err(StackUnderflow);
      }
      var v := stack[|stack| - 1];
      stack := stack[..|stack| - 1];
      if !v.IntVal? {
        return Err(NullNumber);
      }
      var wakeupTime := currentTime + v.num;
      wakeups := wakeups + [wakeupTime];
      stack := stack + [IntVal(v.ty, wakeupTime)];
      r := Ok(Continue);
    }
  }
}

=== FILE: Wrappers.dfy ===
/** Option and Result datatypes used for the source's null returns and thrown exceptions. */
module Wrappers {

  datatype Option<+T> = None | Some(value: T)

  /** `Err` stands for a Java exception (or a null dereference) that aborts the operation. */
  datatype Result<+T, +E> = Ok(value: T) | Err(error: E) {
    predicate IsFailure() {
      Err?
    }

    function PropagateFailure<U>(): Result<U, E>
      requires Err?
    {
      Err(error)
    }

    function Extract(): T
      requires Ok?
    {
      value
    }
  }
}
